=== FILE: README.md ===
# SharpStructures trees in Dafny

This project models the tree engine of SharpStructures, a C# library. The library has three linked binary search trees over `int` keys:

- the unbalanced `BinarySearchTree`;
- the `AVLTree`, which stores a balance factor in every node;
- the `RedBlackTree`, which keeps a colour in the node's `NodeType`.

All three share:

- one node model (child indexer, leaf test, "real node" truthiness, the Red-Black `NIL` sentinel);
- the structural helpers (search, height, count, leaf count, the three validators);
- a read engine, `DefaultTree`. It covers:
  - in-, pre- and post-order traversal;
  - rank and range lookups, built on counting walks;
  - `Find`/`FindLast`;
  - `Min`/`Max` and `Successor`/`Predecessor`;
  - the DFS root-to-target path;
  - `Clear`/`IsEmpty`.

A tree is an immutable `Tree<A> = Empty | Node(left, key, right, aug)`. The augmentation `aug` depends on the variant:

- `()` for the plain tree;
- `int`, the stored balance factor, for AVL;
- `Color` for Red-Black.

`Empty` stands for both the C# `null` and the shared `NIL` sentinel.

Parent links are not represented in the trees. The one exception is the Red-Black rotation, whose pointer writes are followed on a heap of cells in `RedBlackLinks`. The upward loops become the return path of a recursive descent:

- the AVL insert and remove retraces;
- the Red-Black insertion fix-up.

At each level the descent hands its parent the rebuilt subtree and a status:

- "grew" for the AVL insert;
- "shrank" for the AVL remove;
- `Status` for Red-Black: `Balanced`, `RedNode`, or `RedPair` with the direction of the red child.

Where the source walks upwards from a node, the node is given by a zipper path of `Frame`s. That covers `ShiftNodes`, `Successor`/`Predecessor` and `ChildDir`.

Exceptions the C# code throws become `Err` values of a `Result`:

- `ArgumentOutOfRange`;
- `IndexOutOfRange`;
- `InvalidOperation`;
- `NullReference`.

Modules, one per file:

- `Wrappers`: `Option`, `Result`, `Error`.
- `Nodes`: the node model.
- `TreeHelper`: search, sizes, the order invariant, the validators.
- `Seqs`: sequence helpers such as sorted insertion and windows.
- `DefaultTree`: the read engine.
- `BinarySearchTree`, `AvlTree`, `RedBlackTree`: the three trees.
- `RedBlackLinks`: the Red-Black rotation on a heap of parent-linked cells.

In several places the code departs from what it evidently intends. The model follows the code as written and, next to it, proves the intended behaviour of a corrected member:

- `RBTInsert` returns before blackening the root when the tree was empty.
- `GetRange` refuses a range ending at `Count`. It also accepts a range whose end overflows `int`.
- The plain validator compares the right subtree's maximum.
- The AVL removal retraces from the found node before splicing it out.
- The Red-Black rotation sets the moved child's parent link only when that child is the sentinel.
- The Red-Black tree's own `Find` tests an `int` result against `null`, so it never searches a right subtree.

These are listed under Findings. Red-Black removal has an empty body and is listed under Left out.

The C# enum value `NodeType.None` is called `Ordinary` here, because `None` is taken by `Option`. The traversal kinds are called `InOrderTraversal`, `PreOrderTraversal` and `PostOrderTraversal`.

## Model

| member | source | states |
|---|---|---|
| Nodes.Child | SharpStructures/Trees/Utilities/TreeStructures.cs:360-370 | Index 0 reads exactly the left child and index 1 exactly the right child; any other index throws IndexOutOfRange; a child read is a proper subtree |
| Nodes.SetChild | SharpStructures/Trees/Utilities/TreeStructures.cs:371-379 | Index 0 replaces exactly the left child and index 1 exactly the right child, keeping the other child, the key and the augmentation; any other index throws IndexOutOfRange |
| Nodes.SetThenGetChild | SharpStructures/Trees/Utilities/TreeStructures.cs:360-380 | Reading back the slot just written gives the written child; the other slot is unchanged |
| Nodes.IsLeaf | SharpStructures/Trees/Utilities/TreeStructures.cs:381 | A node is a leaf when each child is null or the sentinel, that is, absent |
| Nodes.Truthy | SharpStructures/Trees/Utilities/TreeStructures.cs:385-391 | The implicit bool conversion is false exactly for null and for the sentinel of type Null, both absent here |
| Nodes.RbNodeType | SharpStructures/Trees/Utilities/TreeStructures.cs:383-391 | A position's node type is Null exactly when the implicit bool conversion is false (null or the NIL sentinel); a real Red-Black node is Black or Red |
| Nodes.NewRbNode | SharpStructures/Trees/Utilities/TreeStructures.cs:444-450 | A freshly constructed Red-Black node is a real, childless node with the given key and type Black |
| TreeHelper.Search | SharpStructures/Trees/Utilities/TreeHelper.cs:10-21 | A node that search returns carries exactly the searched key, and that key is one of the tree's keys |
| TreeHelper.SearchComplete | SharpStructures/Trees/Utilities/TreeHelper.cs:10-21 | On a tree with the order invariant (left below the key, right at or above it), search finds a node iff the key occurs in the tree |
| TreeHelper.Height | SharpStructures/Trees/Utilities/TreeHelper.cs:22-31 | Height is positive exactly for a non-empty tree |
| TreeHelper.HeightBounds | SharpStructures/Trees/Utilities/TreeHelper.cs:22-51 | Height is at most Count, and Count is below 2 to the power of Height |
| TreeHelper.LeafCount | SharpStructures/Trees/Utilities/TreeHelper.cs:32-44 | The leaf count never exceeds Count and is at least 1 for a non-empty tree |
| TreeHelper.Count | SharpStructures/Trees/Utilities/TreeHelper.cs:45-51 | Count is positive exactly for a non-empty tree |
| TreeHelper.CountIsKeyCount | SharpStructures/Trees/Utilities/TreeHelper.cs:45-51 | Count equals the size of the multiset of keys held in the tree |
| TreeHelper.LeafIffSingleNode | SharpStructures/Trees/Utilities/TreeStructures.cs:381 | A node is a leaf iff its subtree has exactly one node, iff that subtree's leaf count and height are both 1 |
| TreeHelper.BalanceInRange | SharpStructures/Trees/Utilities/TreeHelper.cs:66-75 | The AVL validator: every stored balance factor is -1, 0 or 1 |
| TreeHelper.NoRedRed | SharpStructures/Trees/Utilities/TreeHelper.cs:76-88 | The Red-Black validator: no Red node has a Red child |
| TreeHelper.BalanceInRangeIgnoresHeights | SharpStructures/Trees/Utilities/TreeHelper.cs:66-75 | The AVL validator accepts a tree whose stored balance factor differs from the real height difference |
| TreeHelper.NoRedRedIgnoresBlackHeight | SharpStructures/Trees/Utilities/TreeHelper.cs:76-88 | The Red-Black validator accepts a tree whose two subtrees have different black heights |
| DefaultTree.InOrder | SharpStructures/Trees/Utilities/DefaultTree.cs:150-160 | The in-order traversal lists exactly Count keys |
| DefaultTree.PreOrder | SharpStructures/Trees/Utilities/DefaultTree.cs:161-171 | The pre-order traversal lists exactly Count keys |
| DefaultTree.PostOrder | SharpStructures/Trees/Utilities/DefaultTree.cs:172-182 | The post-order traversal lists exactly Count keys |
| DefaultTree.Traverse | SharpStructures/Trees/Utilities/DefaultTree.cs:111-124 | The traversal of the selected kind lists exactly Count keys |
| DefaultTree.InOrderKeys | SharpStructures/Trees/Utilities/DefaultTree.cs:150-160 | The in-order traversal is a permutation of the tree's keys |
| DefaultTree.PreOrderKeys | SharpStructures/Trees/Utilities/DefaultTree.cs:161-171 | The pre-order traversal is a permutation of the tree's keys |
| DefaultTree.PostOrderKeys | SharpStructures/Trees/Utilities/DefaultTree.cs:172-182 | The post-order traversal is a permutation of the tree's keys |
| DefaultTree.OrderedInOrderSorted | SharpStructures/Trees/Utilities/DefaultTree.cs:150-160 | A tree with the order invariant reads non-decreasing in order |
| DefaultTree.InOrderWalk | SharpStructures/Trees/Utilities/DefaultTree.cs:184-197 | Starting at counter c, the in-order index-range walk appends exactly the keys whose visit counter lies in [index, index+count), in in-order order; the counter advances by the subtree's size unless it has already reached the end of the window |
| DefaultTree.PreOrderWalk | SharpStructures/Trees/Utilities/DefaultTree.cs:198-210 | The pre-order index-range walk appends exactly the pre-order keys whose visit counter lies in [index, index+count); the counter advances by the subtree's size unless it has already reached the end of the window |
| DefaultTree.PostOrderWalk | SharpStructures/Trees/Utilities/DefaultTree.cs:211-225 | The post-order index-range walk appends exactly the post-order keys whose visit counter lies in [index, index+count); the counter advances by the subtree's size unless it has already reached the end of the window |
| DefaultTree.IndexRange | SharpStructures/Trees/Utilities/DefaultTree.cs:184-225 | A walk started at counter 0 returns the window [index, index+count) of the chosen traversal, clipped to the tree |
| DefaultTree.GetIndexValue | SharpStructures/Trees/Utilities/DefaultTree.cs:50-69 | A negative index throws ArgumentOutOfRange; an index at or past Count throws IndexOutOfRange; otherwise the result is element `index` of the selected traversal |
| DefaultTree.WrapAdd | SharpStructures/Trees/Utilities/DefaultTree.cs:130 | The C# int sum index + count: the one 32-bit value that differs from the true sum by 0 or by 2^32 |
| DefaultTree.GetRangeAsWritten | SharpStructures/Trees/Utilities/DefaultTree.cs:125-144 | On int arguments: succeeds exactly when index and count are non-negative and index+count is strictly below Count or overflows int; a negative argument throws ArgumentOutOfRange; success without overflow returns the traversal's slice [index, index+count), and success by overflow returns nothing, since every walk stops at its first test |
| DefaultTree.GetRangeAsWrittenAcceptsWrappedEnd | SharpStructures/Trees/Utilities/DefaultTree.cs:130-131 | GetRange(1, int.MaxValue) wraps its end to a negative value, passes the check and returns an empty range; the corrected GetRange throws IndexOutOfRange |
| DefaultTree.GetRangeAsWrittenRefusesSuffix | SharpStructures/Trees/Utilities/DefaultTree.cs:130-131 | Every range that ends exactly at Count, including the whole traversal, is refused with IndexOutOfRange; the corrected GetRange returns the suffix |
| DefaultTree.GetRange | SharpStructures/Trees/Utilities/DefaultTree.cs:125-144 | Corrected range lookup: succeeds iff index and count are non-negative and index+count, computed without overflow, is at most Count; a negative argument throws ArgumentOutOfRange and an overlong range IndexOutOfRange; on success returns the traversal's slice [index, index+count) |
| DefaultTree.Find | SharpStructures/Trees/Utilities/DefaultTree.cs:82-91 | A node that Find returns satisfies the predicate and holds a key of the tree |
| DefaultTree.FindLast | SharpStructures/Trees/Utilities/DefaultTree.cs:92-109 | A node that FindLast returns satisfies the predicate and holds a key of the tree |
| DefaultTree.FindIsFirstPreOrderMatch | SharpStructures/Trees/Utilities/DefaultTree.cs:82-91 | Find yields the first pre-order key satisfying the predicate, or nothing when none does |
| DefaultTree.FindLastIsLastPreOrderMatch | SharpStructures/Trees/Utilities/DefaultTree.cs:92-109 | FindLast, searching right, then left, then the node itself, yields the last pre-order key satisfying the predicate, or nothing when none does |
| DefaultTree.Min | SharpStructures/Trees/Utilities/DefaultTree.cs:293-301 | Min finds a node iff the tree is non-empty; that node has no left child and holds the first in-order key |
| DefaultTree.Max | SharpStructures/Trees/Utilities/DefaultTree.cs:284-292 | Max finds a node iff the tree is non-empty; that node has no right child and holds the last in-order key |
| DefaultTree.MinMaxBound | SharpStructures/Trees/Utilities/DefaultTree.cs:284-301 | On an ordered tree every key lies between the key Min finds and the key Max finds |
| DefaultTree.MinInKeys | SharpStructures/Trees/Utilities/DefaultTree.cs:293-301 | The key Min finds is a key of the tree |
| DefaultTree.MaxInKeys | SharpStructures/Trees/Utilities/DefaultTree.cs:284-292 | The key Max finds is a key of the tree |
| DefaultTree.FirstLeftAncestor | SharpStructures/Trees/Utilities/DefaultTree.cs:312-319 | Climbing while the node is a right child ends at the ancestor whose key comes first in order after the node's subtree; it finds nothing exactly when nothing follows that subtree |
| DefaultTree.FirstRightAncestor | SharpStructures/Trees/Utilities/DefaultTree.cs:331-338 | Climbing while the node is a left child ends at the ancestor whose key comes last in order before the node's subtree; it finds nothing exactly when nothing precedes that subtree |
| DefaultTree.Successor | SharpStructures/Trees/Utilities/DefaultTree.cs:302-320 | The successor of a node is the first key after it in the in-order sequence of its right subtree followed by the keys the path places after the node's subtree; nothing when both are empty or for an absent node |
| DefaultTree.Predecessor | SharpStructures/Trees/Utilities/DefaultTree.cs:321-339 | The predecessor of a node is the last key of the keys the path places before the node's subtree followed by its left subtree; nothing when both are empty or for an absent node |
| DefaultTree.SuccessorIsNextInOrder | SharpStructures/Trees/Utilities/DefaultTree.cs:302-320 | For a node anywhere in a tree, Successor (the right subtree's Min, else the first ancestor reached from a left child) is the key right after the node in the whole tree's in-order sequence, or nothing for the last node |
| DefaultTree.PredecessorIsPreviousInOrder | SharpStructures/Trees/Utilities/DefaultTree.cs:321-339 | For a node anywhere in a tree, Predecessor is the key right before the node in the whole tree's in-order sequence, or nothing for the first node |
| DefaultTree.DfsRec | SharpStructures/Trees/Utilities/DefaultTree.cs:229-255 | From a path prefix, the recursive search returns the prefix extended by a parent-to-child key path ending at the target, with the target only at the end, when the subtree holds it; otherwise an empty path (or the unchanged prefix at an absent child), never containing the target |
| DefaultTree.Dfs | SharpStructures/Trees/Utilities/DefaultTree.cs:228-255 | DFS returns an empty path iff the target is absent; otherwise it returns a root-to-node key path, each key the parent of the next, that stops at the first node holding the target |
| DefaultTree.DfsRecPrefix | SharpStructures/Trees/Utilities/DefaultTree.cs:229-255 | When the subtree holds the target, the search from a prefix returns that prefix followed by the search from scratch |
| DefaultTree.FindNoneIffAbsent | SharpStructures/Trees/Utilities/DefaultTree.cs:82-91 | Find with the predicate "equals the target" finds nothing iff the target is absent |
| DefaultTree.DfsFollowsFind | SharpStructures/Trees/Utilities/DefaultTree.cs:228-255 | DFS finds nothing iff Find with "equals the target" does; at a node holding the target both stop there; otherwise both go into the left subtree when it holds the target and into the right one only when it does not, so the path leads to the first pre-order node holding the target |
| DefaultTree.Clear | SharpStructures/Trees/Utilities/DefaultTree.cs:40-44 | After Clear the tree is empty, has Count 0 and every traversal is empty |
| DefaultTree.IsEmpty | SharpStructures/Trees/Utilities/DefaultTree.cs:29 | A tree has no root exactly when it holds no keys |
| DefaultTree.EmptyIffNoKeys | SharpStructures/Trees/Utilities/DefaultTree.cs:29 | IsEmpty holds iff Count is 0, iff the traversal is empty |
| BinarySearchTree.Add | SharpStructures/Trees/BinarySearchTree.cs:20-41 | Insertion yields a non-empty tree with one more node, and raises the height by at most 1 |
| BinarySearchTree.AddKeys | SharpStructures/Trees/BinarySearchTree.cs:20-41 | Insertion adds exactly one occurrence of the key to the multiset of keys |
| BinarySearchTree.AddThenContains | SharpStructures/Trees/BinarySearchTree.cs:20-41 | After inserting a key, search for it succeeds, on any tree |
| BinarySearchTree.AddOrdered | SharpStructures/Trees/BinarySearchTree.cs:20-41 | Insertion, with duplicates going right, preserves the order invariant |
| BinarySearchTree.AddInOrder | SharpStructures/Trees/BinarySearchTree.cs:20-41 | On a sorted in-order sequence, insertion puts the key into it at its sorted position, after any equal keys |
| BinarySearchTree.AddSorted | SharpStructures/Trees/BinarySearchTree.cs:20-41 | Insertion keeps the in-order sequence sorted and adds exactly one occurrence of the key |
| BinarySearchTree.ShiftNodes | SharpStructures/Trees/BinarySearchTree.cs:71-82 | Putting v into u's slot replaces u's keys in the in-order sequence by v's and leaves everything before and after unchanged; node counts change by exactly the difference |
| BinarySearchTree.DetachMin | SharpStructures/Trees/BinarySearchTree.cs:58-60 | Splicing the minimum out by its right child removes exactly one node |
| BinarySearchTree.DetachMinInOrder | SharpStructures/Trees/BinarySearchTree.cs:58-60 | Splicing out the minimum removes exactly the first in-order key |
| BinarySearchTree.Splice | SharpStructures/Trees/BinarySearchTree.cs:49-66 | Replacing the found node (by its only child, or by its successor) removes exactly one node |
| BinarySearchTree.SpliceTwoChildren | SharpStructures/Trees/BinarySearchTree.cs:53-66 | With two children, the node's in-order successor takes its place and adopts its left subtree; the right subtree loses just the successor |
| BinarySearchTree.SpliceInOrder | SharpStructures/Trees/BinarySearchTree.cs:49-66 | Splicing a node out leaves its left keys followed by its right keys in order |
| BinarySearchTree.Remove | SharpStructures/Trees/BinarySearchTree.cs:42-67 | Removing an absent key leaves the tree unchanged; removing a present key removes exactly one node |
| BinarySearchTree.Locate | SharpStructures/Trees/BinarySearchTree.cs:44-47 | Location succeeds exactly when search does and yields the found node with the path that rebuilds the tree around it |
| BinarySearchTree.RemoveIsShiftAtFound | SharpStructures/Trees/BinarySearchTree.cs:42-67 | Removal is ShiftNodes at the found node's place, with the found node replaced by its splice |
| BinarySearchTree.RemoveInOrder | SharpStructures/Trees/BinarySearchTree.cs:42-67 | Removing a present key deletes exactly one occurrence from the in-order sequence: the found node's own, with everything around it in place |
| BinarySearchTree.RemoveKeys | SharpStructures/Trees/BinarySearchTree.cs:42-67 | Removal takes exactly one occurrence of a present key out of the multiset of keys, and leaves the keys unchanged when search fails |
| BinarySearchTree.RemoveOrdered | SharpStructures/Trees/BinarySearchTree.cs:42-67 | Removal, including the two-children case, preserves the order invariant |
| BinarySearchTree.DetachMinOrdered | SharpStructures/Trees/BinarySearchTree.cs:58-60 | Splicing out the minimum preserves the order invariant |
| BinarySearchTree.SpliceOrdered | SharpStructures/Trees/BinarySearchTree.cs:49-66 | Splicing the root of an ordered subtree out preserves the order invariant |
| BinarySearchTree.IsValidAsWritten | SharpStructures/Trees/Utilities/TreeHelper.cs:54-65 | The plain validator as written: at every node, the left subtree's Max is below the key and the right subtree's Max is not below it |
| BinarySearchTree.IsValid | SharpStructures/Trees/Utilities/TreeHelper.cs:54-65 | The corrected plain validator: the left subtree's Max is below the key and the right subtree's Min is not below it |
| BinarySearchTree.OrderedIsValidAsWritten | SharpStructures/Trees/Utilities/TreeHelper.cs:54-65 | The validator as written accepts every tree that has the order invariant |
| BinarySearchTree.IsValidAsWrittenAcceptsDisorder | SharpStructures/Trees/Utilities/TreeHelper.cs:61-62 | The validator as written accepts root 5 with right child 10 whose left child is 3, a tree that is not ordered and in which search misses 3 |
| BinarySearchTree.IsValidIffOrdered | SharpStructures/Trees/Utilities/TreeHelper.cs:54-65 | The corrected validator (right subtree's Min compared with the key) accepts a tree iff it has the order invariant |
| BinarySearchTree.MaxBelowIff | SharpStructures/Trees/Utilities/TreeHelper.cs:59 | For an ordered subtree, its Max being below the key is the same as all its keys being below the key |
| BinarySearchTree.MinAboveIff | SharpStructures/Trees/Utilities/TreeHelper.cs:61 | For an ordered subtree, its Min being at or above the key is the same as all its keys being at or above the key |
| BinarySearchTree.AddAll | SharpStructures/Trees/Utilities/DefaultTree.cs:37 | AddRange adds one node per listed key |
| BinarySearchTree.AddAllInOrder | SharpStructures/Trees/Utilities/DefaultTree.cs:37 | AddRange keeps an ordered tree ordered, and its in-order sequence is the old one with each key inserted at its sorted position |
| BinarySearchTree.RemoveAll | SharpStructures/Trees/Utilities/DefaultTree.cs:38 | RemoveRange never adds a node |
| BinarySearchTree.RemoveAllKeys | SharpStructures/Trees/Utilities/DefaultTree.cs:38 | On an ordered tree, RemoveRange keeps the order and removes one occurrence of every listed key, as far as the tree holds it |
| BinarySearchTree.AddAllScenario | SharpStructures/Trees/BinarySearchTree.cs:20-41 | Inserting 5, 3, 8, 1, 4, 7, 9 into an empty tree gives in-order element 0 = 1, element 6 = 9, and range (2, 3) = [4, 5, 7], both from the range check as written (2 + 3 < 7) and from the corrected one |
| AvlTree.NewNode | SharpStructures/Trees/Utilities/TreeStructures.cs:434-440 | A new AVL node is a leaf with balance factor 0, which is accurate |
| AvlTree.AvlIsInRange | SharpStructures/Trees/Utilities/TreeHelper.cs:66-75 | A tree with accurate balance factors in -1..1 passes the range-only AVL validator |
| AvlTree.RotateLeft | SharpStructures/Trees/AVLTree.cs:322-345 | The left rotation preserves the in-order sequence and every factor it writes lies in -1..1 |
| AvlTree.RotateRight | SharpStructures/Trees/AVLTree.cs:346-369 | The right rotation preserves the in-order sequence and every factor it writes lies in -1..1 |
| AvlTree.RotateRightLeft | SharpStructures/Trees/AVLTree.cs:242-281 | The right-left double rotation makes the grandchild the new root with factor 0, preserves the in-order sequence, and writes factors in -1..1 |
| AvlTree.RotateLeftRight | SharpStructures/Trees/AVLTree.cs:282-321 | The left-right double rotation makes the grandchild the new root with factor 0, preserves the in-order sequence, and writes factors in -1..1 |
| AvlTree.RotateLeftExact | SharpStructures/Trees/AVLTree.cs:322-345 | A left rotation of a node whose right side is two levels taller, with the pivot not leaning left, leaves accurate factors; the height drops by one unless the pivot was balanced |
| AvlTree.RotateRightExact | SharpStructures/Trees/AVLTree.cs:346-369 | A right rotation of a node whose left side is two levels taller, with the pivot not leaning right, leaves accurate factors; the height drops by one unless the pivot was balanced |
| AvlTree.RotateRightLeftExact | SharpStructures/Trees/AVLTree.cs:242-281 | When the right side is two levels taller and leans left, the double rotation's factor table leaves every factor accurate, at the height of the old right side |
| AvlTree.RotateLeftRightExact | SharpStructures/Trees/AVLTree.cs:282-321 | When the left side is two levels taller and leans right, the double rotation's factor table leaves every factor accurate, at the height of the old left side |
| AvlTree.GrowLeft | SharpStructures/Trees/AVLTree.cs:142-177 | One retrace step after the left side grew preserves the in-order sequence; it rotates at most once; if the subtree grew again, nothing was rotated |
| AvlTree.GrowRight | SharpStructures/Trees/AVLTree.cs:117-141 | One retrace step after the right side grew preserves the in-order sequence; it rotates at most once; if the subtree grew again, nothing was rotated |
| AvlTree.Insert | SharpStructures/Trees/AVLTree.cs:112-205 | The AVL insert has the plain insert's in-order sequence, duplicates going right; it performs at most one rotation, none when the whole tree grew; it keeps factors in -1..1 |
| AvlTree.Add | SharpStructures/Trees/AVLTree.cs:19-22 | Add yields the in-order sequence of the plain insert and keeps every balance factor in -1..1 |
| AvlTree.AddKeys | SharpStructures/Trees/AVLTree.cs:19-22 | Add adds exactly one occurrence of the key and one node, and puts the key at its sorted position in a sorted in-order sequence |
| AvlTree.InsertExact | SharpStructures/Trees/AVLTree.cs:112-177 | On a tree with accurate factors, the insert retrace leaves every factor accurate, and the grew flag is exactly whether the height rose by one |
| AvlTree.GrowLeftExact | SharpStructures/Trees/AVLTree.cs:142-177 | A retrace step after the left side grew leaves accurate factors and reports growth exactly when the height rose |
| AvlTree.GrowRightExact | SharpStructures/Trees/AVLTree.cs:117-141 | A retrace step after the right side grew leaves accurate factors and reports growth exactly when the height rose |
| AvlTree.AddExact | SharpStructures/Trees/AVLTree.cs:19-22 | Add keeps balance factors accurate and raises the height by at most one |
| AvlTree.AddAll | SharpStructures/Trees/Utilities/DefaultTree.cs:37 | AddRange adds exactly the listed keys to the multiset of keys |
| AvlTree.AddAllExact | SharpStructures/Trees/Utilities/DefaultTree.cs:37 | Starting from a tree with accurate factors, any insert-only sequence keeps every stored factor equal to the right height minus the left height, and the in-order sequence is the sorted merge |
| AvlTree.AddAllScenario | SharpStructuresTesting/Program.cs:12-18 | Inserting 1, 2, 5, -3, -6, 12 into an empty AVL tree gives in-order [-6, -3, 1, 2, 5, 12], 6 nodes, and accurate in-range factors |
| AvlTree.RemoveAsWrittenThrowsStart | SharpStructures/Trees/AVLTree.cs:19-22 | Adding 2, 1, 3, 0 builds the tree the NullReference counterexample starts from |
| AvlTree.ShrinkLeft | SharpStructures/Trees/AVLTree.cs:46-70 | One removal retrace step after the left side shrank preserves the in-order sequence and keeps factors in -1..1; the only exception is NullReference, when the rotation reads a missing child |
| AvlTree.ShrinkRight | SharpStructures/Trees/AVLTree.cs:71-95 | One removal retrace step after the right side shrank preserves the in-order sequence and keeps factors in -1..1; the only exception is NullReference |
| AvlTree.RemoveAsWritten | SharpStructures/Trees/AVLTree.cs:23-32 | As written (retrace from the found node, then splice): an absent key is a no-op; success yields the plain removal's in-order sequence with factors kept in -1..1; the only exception is NullReference |
| AvlTree.RetraceAsWritten | SharpStructures/Trees/AVLTree.cs:36-111 | The retrace as written starts at the found node's parent, then the splice follows; success yields the plain removal's in-order sequence with factors in -1..1; the only exception is NullReference |
| AvlTree.RemoveAsWrittenKeys | SharpStructures/Trees/AVLTree.cs:23-32 | A removal as written that succeeds drops exactly one occurrence of a present key and keeps a sorted in-order sequence sorted |
| AvlTree.RemoveAsWrittenStaleFactor | SharpStructures/Trees/AVLTree.cs:30-31 | Removing the root of the accurate tree [1,2,3] as written leaves root 3 with stored factor 0 though its real factor is -1; the corrected removal stores -1 |
| AvlTree.RemoveAsWrittenThrows | SharpStructures/Trees/AVLTree.cs:30-31 | From an accurate four-node tree, removing 2, then 0, then 1 as written ends in NullReference, because a stale factor sends the retrace into a rotation around a missing child |
| AvlTree.Remove | SharpStructures/Trees/AVLTree.cs:23-111 | Corrected removal (retrace from where a node actually leaves the tree): an absent key is a no-op; success yields the plain removal's in-order sequence and keeps factors in -1..1 |
| AvlTree.Retrace | SharpStructures/Trees/AVLTree.cs:36-111 | The corrected retrace yields the plain removal's in-order sequence and keeps factors in -1..1 |
| AvlTree.RetraceMin | SharpStructures/Trees/AVLTree.cs:214-221 | Detaching the successor as the source does, plus a retrace up to the removed node's right child that belongs to the corrected removal (the source does not retrace here), yields the plain detach's in-order sequence and keeps factors in -1..1 |
| AvlTree.ShrinkLeftExact | SharpStructures/Trees/AVLTree.cs:46-70 | On accurate subtrees, a retrace step after the left side shrank succeeds, leaves accurate factors, and reports shrinking exactly when the height fell |
| AvlTree.ShrinkRightExact | SharpStructures/Trees/AVLTree.cs:71-95 | On accurate subtrees, a retrace step after the right side shrank succeeds, leaves accurate factors, and reports shrinking exactly when the height fell |
| AvlTree.RetraceExact | SharpStructures/Trees/AVLTree.cs:36-111 | On a tree with accurate factors, the corrected retrace succeeds, leaves accurate factors and lowers the height by at most one, exactly when it reports shrinking |
| AvlTree.RemoveExact | SharpStructures/Trees/AVLTree.cs:23-32 | On a tree with accurate factors, the corrected removal never throws and leaves every factor accurate |
| AvlTree.RemoveKeys | SharpStructures/Trees/AVLTree.cs:23-32 | A corrected removal that succeeds drops exactly one occurrence of a present key and keeps a sorted in-order sequence sorted |
| AvlTree.RemoveAllAsWritten | SharpStructures/Trees/Utilities/DefaultTree.cs:38 | RemoveRange as written, which dispatches to the overriding AVL `Remove`: the only exception it can end with is NullReference, and when it succeeds factors stay in -1..1 and a sorted in-order sequence stays sorted |
| AvlTree.RemoveAllAsWrittenThrows | SharpStructures/Trees/AVLTree.cs:23-32 | On the tree that adding 2, 1, 3, 0 builds, RemoveRange([2, 0, 1]) as written throws NullReference, while RemoveRange with the corrected `Remove` succeeds |
| AvlTree.RemoveAll | SharpStructures/Trees/Utilities/DefaultTree.cs:38 | RemoveRange with the corrected `Remove` (not the code as written): factors stay in -1..1 and the only exception it can end with is NullReference |
| AvlTree.RemoveAllExact | SharpStructures/Trees/Utilities/DefaultTree.cs:38 | With the corrected `Remove` (not the code as written), every removal of RemoveRange from a tree with accurate factors succeeds and the factors stay accurate |
| RedBlackTree.ChildDir | SharpStructures/Trees/RedBlackTree.cs:509-515 | The direction is -1 exactly for the root, and otherwise 0 or 1 |
| RedBlackTree.ChildDirReadsBack | SharpStructures/Trees/RedBlackTree.cs:509-515 | Reading the parent's indexer at the node's direction gives the node back |
| RedBlackTree.RotateDirRoot | SharpStructures/Trees/RedBlackTree.cs:519-538 | The rotation succeeds iff dir is 0 or 1 and `p[1-dir]` is a real node; a NIL child throws InvalidOperation and an index other than 0 or 1 throws IndexOutOfRange; on success the lifted child is the new root, with p as its child in slot dir |
| RedBlackTree.RotateDirRootInverse | SharpStructures/Trees/RedBlackTree.cs:519-538 | A successful rotation preserves the in-order sequence and is undone by the rotation in the other direction |
| RedBlackTree.Paint | SharpStructures/Trees/RedBlackTree.cs:479-480 | Recolouring a node sets its colour and keeps its key and both children, so the in-order sequence is unchanged |
| RedBlackTree.Climb | SharpStructures/Trees/RedBlackTree.cs:452-491 | One fix-up level keeps the in-order sequence and a well-formed status: a reported red pair names a real child, rotations happen only on the step that ends the loop, and there are at most 2 |
| RedBlackTree.Turn | SharpStructures/Trees/RedBlackTree.cs:468-482 | The black-uncle case (an optional pre-rotation, then a rotation at the grandparent) preserves the in-order sequence |
| RedBlackTree.Recolor | SharpStructures/Trees/RedBlackTree.cs:484-490 | The red-uncle recolouring preserves the in-order sequence |
| RedBlackTree.Ins | SharpStructures/Trees/RedBlackTree.cs:403-491 | Inserting a red leaf and climbing yields the plain insert's in-order sequence, with a well-formed status: at most two rotations, all on the step that ends the loop |
| RedBlackTree.AddAsWritten | SharpStructures/Trees/RedBlackTree.cs:43-46 | Add as written, read without parent links: a non-empty tree with the in-order sequence of the plain insert |
| RedBlackTree.Add | SharpStructures/Trees/RedBlackTree.cs:433-494 | Corrected Add: the root is always Black and the in-order sequence is that of the plain insert |
| RedBlackTree.InsColors | SharpStructures/Trees/RedBlackTree.cs:452-491 | From a tree with no red-red edge, the fix-up result has none either, except possibly one between its root (already red before) and the child it reports; a balanced result keeps the root's colour |
| RedBlackTree.InsBlack | SharpStructures/Trees/RedBlackTree.cs:452-491 | The fix-up keeps black heights uniform and unchanged |
| RedBlackTree.InnerRotation | SharpStructures/Trees/RedBlackTree.cs:471-476 | The pre-rotation at a red parent turns an inner red child into an outer one without changing black heights |
| RedBlackTree.OuterRotation | SharpStructures/Trees/RedBlackTree.cs:478-481 | Rotating at the grandparent and swapping colours with the parent removes the red-red edge under a black uncle and keeps black heights |
| RedBlackTree.Recoloring | SharpStructures/Trees/RedBlackTree.cs:484-488 | The red-uncle recolouring removes the red-red edges below the grandparent, turns the grandparent red and keeps black heights |
| RedBlackTree.IsValid | SharpStructures/Trees/RedBlackTree.cs:38 | A Red-Black tree is valid when it is empty, or its root is Black and no Red node has a Red child |
| RedBlackTree.AddValid | SharpStructures/Trees/RedBlackTree.cs:38 | After the corrected Add, a valid tree (black root, no red node with a red child) stays valid; uniform black heights stay uniform and grow by at most one |
| RedBlackTree.AddAsWrittenIsAdd | SharpStructures/Trees/RedBlackTree.cs:444-448 | Read without parent links, Add as written on a non-empty tree equals the corrected Add |
| RedBlackTree.AddAsWrittenValidity | SharpStructures/Trees/RedBlackTree.cs:444-448 | Read without parent links, Add as written from a valid tree yields a valid tree iff the tree was non-empty; the first key stays a red root |
| RedBlackTree.AddAsWrittenHeals | SharpStructures/Trees/RedBlackTree.cs:444-448 | Two adds as written from an empty tree give the same tree as two corrected adds |
| RedBlackTree.AddKeys | SharpStructures/Trees/RedBlackTree.cs:43-46 | Add adds exactly one occurrence of the key and one node, and puts the key at its sorted position in a sorted in-order sequence |
| RedBlackTree.AddAll | SharpStructures/Trees/RedBlackTree.cs:47-51 | AddRange with the corrected `Add` (not the code as written) adds exactly the listed keys to the multiset of keys, and after at least one key the root is Black |
| RedBlackTree.AddAllValid | SharpStructures/Trees/RedBlackTree.cs:47-51 | From a valid tree with uniform black heights, AddRange keeps both properties and merges the keys in sorted order |
| RedBlackTree.AddAllAsWritten | SharpStructures/Trees/RedBlackTree.cs:47-51 | AddRange as written yields a non-empty tree after at least one key |
| RedBlackTree.AddAllAsWrittenAgrees | SharpStructures/Trees/RedBlackTree.cs:47-51 | Read without parent links, AddRange as written agrees with the corrected one unless it adds exactly one key to an empty tree |
| RedBlackTree.AscendingThirdRotates | SharpStructures/Trees/RedBlackTree.cs:468-482 | Adding a third ascending key below a red right child rotates once, leaving the middle key Black over two Red leaves |
| RedBlackTree.AddTenTwentyThirty | SharpStructures/Trees/RedBlackTree.cs:433-494 | Inserting 10, 20, 30 into an empty tree yields root 20 Black with Red children 10 and 30, a valid tree with uniform black heights, whether Add is as written or corrected |
| RedBlackLinks.RotateAsWritten | SharpStructures/Trees/RedBlackTree.cs:519-538 | The rotation as written, on parent-linked cells, succeeds iff the direction is 0 or 1, p[1-dir] is a real node and its child s[dir] is not null |
| RedBlackLinks.Rotate | SharpStructures/Trees/RedBlackTree.cs:519-538 | The rotation with the intended guard at line 528 succeeds under the same conditions |
| RedBlackLinks.RotateRelinks | SharpStructures/Trees/RedBlackTree.cs:519-538 | The corrected rotation writes every link it changes at both ends: s under g (or as Root) naming g, p under s naming s, and the moved child under p naming p when real |
| RedBlackLinks.RotateCells | SharpStructures/Trees/RedBlackTree.cs:519-538 | The corrected rotation rewrites only the cells of p, s, the real moved child and the real grandparent |
| RedBlackLinks.RotatedClosed | SharpStructures/Trees/RedBlackTree.cs:519-538 | Those rewrites store only references into the heap |
| RedBlackLinks.RotatedLink | SharpStructures/Trees/RedBlackTree.cs:519-538 | After those rewrites, from a heap where every real child names its parent, any given real child names its parent |
| RedBlackLinks.RotateKeepsParentLinked | SharpStructures/Trees/RedBlackTree.cs:519-538 | From a heap where every real child names its parent, the corrected rotation keeps that true |
| RedBlackLinks.RotateAsWrittenBreaksParentLinked | SharpStructures/Trees/RedBlackTree.cs:528 | From such a heap, the rotation as written with a real moved child leaves that child naming its old parent s while it hangs under p, so not every child names its parent |
| RedBlackLinks.AsWrittenIsStale | SharpStructures/Trees/RedBlackTree.cs:528 | With a real moved child, the rotation as written gives the corrected rotation's heap except that the moved child keeps its old parent link |
| RedBlackLinks.RotateLeftScenario | SharpStructures/Trees/RedBlackTree.cs:528 | Root 10 with right child 20, whose left child is 15: after a left rotation at 10, 15 hangs under 10 but still names 20 as written, and names 10 after the corrected rotation |
| RedBlackTree.LeftSpine | SharpStructures/Trees/RedBlackTree.cs:97-110 | The keys along the left-turning path from the root are a prefix of the pre-order listing and start with the root's key |
| RedBlackTree.FindAsWritten | SharpStructures/Trees/RedBlackTree.cs:97-110 | The Red-Black `Find` as written returns either `default` (0) or a key of the tree that satisfies the predicate |
| RedBlackTree.FindAsWrittenIsFirstOnLeftSpine | SharpStructures/Trees/RedBlackTree.cs:97-110 | Because the left result is never null for `int`, `Find` as written yields the first key satisfying the predicate along the left spine, or 0 when there is none; right subtrees are never searched |
| RedBlackTree.FindAsWrittenSkipsRight | SharpStructures/Trees/RedBlackTree.cs:105-107 | Root 5 with right child 7: `Find(k => k == 7)` as written returns 0, while the intended search finds 7 |
| RedBlackTree.AscendingThree | SharpStructures/Trees/RedBlackTree.cs:433-494 | Any three ascending keys added to an empty tree give the middle key Black over the outer two Red |

## Left out

- Parent links outside the rotation. `RedBlackLinks` follows the rotation's pointer writes and shows the stale-parent defect at SharpStructures/Trees/RedBlackTree.cs:528 (see Findings). The insertion and its fix-up loop are modelled only on parent-free trees, which follow the intended shape.
- `RedBlackTree.AddAsWritten`, `RedBlackTree.AddAsWrittenIsAdd`, `RedBlackTree.AddAsWrittenValidity` and `RedBlackTree.AddAllAsWrittenAgrees` describe the parent-free reading of `Add`. They keep only the empty-tree defect at SharpStructures/Trees/RedBlackTree.cs:444-448. Through the stale parents at line 528 the real `AddRange` departs from them:
  - `AddRange([10, 20, 30, 40, 50, 60, 70, 80, 35, 36])`: a later rotation goes through a stale parent link, and 10 and 20 drop out of the tree.
  - `AddRange([10, 20, 30, 40, 50, 60, 70, 80, 35, 25, 33])`: keys are kept, but Red 20 ends up over Red 30.
- `RedBlackTree.AddAllValid` and `RedBlackTree.AddValid` state the intended behaviour, which the real code misses on the inputs above.
- `RedBlackTree.AddAll` folds the corrected `Add`. The real `AddRange` calls `Add` as written, so `AddRange([k])` on an empty tree leaves a Red root (SharpStructures/Trees/RedBlackTree.cs:444-448). `RedBlackTree.AddAllAsWritten` is the fold as written.
- `AvlTree.RemoveAll` and `AvlTree.RemoveAllExact` fold the corrected `Remove`. The real `RemoveRange` dispatches to the overriding `Remove` at SharpStructures/Trees/AVLTree.cs:23-32 and can throw on an accurate tree. `AvlTree.RemoveAllAsWritten` is the fold as written, and `AvlTree.RemoveAllAsWrittenThrows` gives the input.
- The tree left behind by an exception. An `Err` value carries only the exception. In C#, an exception can leave the tree half-updated: when `AVLRemove` throws NullReference, it has already rewritten some balance factors, and the node is never spliced out. The model does not say what the tree holds after a call that throws.
- Red-Black `Remove` and `RemoveRange` have empty bodies, so the tree is unchanged. No removal or deletion fix-up is modelled for that tree.
- The conversions (`ToArray`, `ToList`, `ToLookup`, `ToHashSet`, `ToStack`, `ToQueue`, `ToLinkedList`, `ToImmutableList`, `AsEnumerable`, `GetEnumerator`) are thin wrappers over .NET collections.
- `Dispose` and the finalizer release resources. `Clear` is modelled only as "the tree becomes empty".
- `Clone` uses `MemberwiseClone`: runtime reflection and shallow aliasing.
- The comparator. Choosing a default comparator by reflection is left out. Keys are `int` with the natural order, so "compares equal" is `==`.
- The Red-Black tree's own copies of traversal, index lookup, range lookup and navigation (SharpStructures/Trees/RedBlackTree.cs:75-341) are modelled once, in `DefaultTree`, over the generic tree. Its `Find` (lines 97-110) is the exception: it does not agree with `DefaultTree.Find`, so it is modelled separately as `RedBlackTree.FindAsWritten` (see Findings). The same goes for its private height, count and leaf-count helpers.
- The `seen` set in `DFSRec` is left out. On an acyclic tree a node is never revisited, so the set never changes the result.
- The public no-argument wrappers (`Find`, `FindLast`, `Min`, `Max`, `Successor`, `Predecessor` returning `default`) and the indexer `this[int]` are left out. `Option.None` stands for `default`. `Successor()` without an argument is the node form applied at the root.
- `Levels` (Height + 1) and `Contains`, which is search succeeding, have no separate member.
- SharpStructures/Trees/TreeStructures.cs, the superseded copy of the node classes, is not part of this model.
- `SharpStructuresTesting/Program.cs` writes to `Debug` output. Only its insertion sequence is used, as a scenario.
- The unreachable `default` branches that throw for an unknown traversal type are left out.
- The Red-Black node members `.Color`, `RBTColor` and `.IsNIL` are defined outside the node files in this model's scope. They are read as `Type == Black`/`Type == Red` for the colour and `Type == Null` for the sentinel test. The node types are at SharpStructures/Trees/Utilities/TreeStructures.cs:338-344 and the sentinel at line 451.
- Trees with more than `int.MaxValue` nodes are left out. There `Count` itself would overflow. The model's `Count` is unbounded, and only the sum in `GetRange` is wrapped.
- `AvlTree.Remove`: the corrected removal is proved to keep accurate factors only when it starts from accurate factors. On trees with stale factors it is only proved to keep factors in range, as the source's validator checks.

## Findings

| source | as written | input that shows it | evidently intended | confidence | as-written member | corrected member |
|---|---|---|---|---|---|---|
| SharpStructures/Trees/Utilities/TreeHelper.cs:61 | The plain validator rejects a right subtree only when its Max is below the key. | Root 5 with right child 10 whose left child is 3. It is accepted, although 3 sits right of 5 and search for 3 fails. | Compare the right subtree's Min, so that validity is exactly the order invariant. | not executed | BinarySearchTree.IsValidAsWrittenAcceptsDisorder | BinarySearchTree.IsValidIffOrdered |
| SharpStructures/Trees/RedBlackTree.cs:444-448 | On an empty tree the insertion fix-up returns before `Root.Color = Black`, so the first key is a Red root. | Add 1 to an empty tree. The root is Red and `IsValid` is false; the next Add repaints the root. | The root is Black after every Add. | not executed | RedBlackTree.AddAsWrittenValidity | RedBlackTree.AddValid |
| SharpStructures/Trees/AVLTree.cs:30-31 | Removal retraces from the found node's parent before splicing. When the node has two children, the node that leaves the tree is its successor, so the heights that change are not the ones retraced. | Remove 2 from the tree of 1, 2, 3: root 3 keeps factor 0 although it now leans left. After adding 2, 1, 3, 0, removing 2, then 0, then 1 throws NullReference, and so does `RemoveRange([2, 0, 1])`: a stale factor sends the retrace into a rotation around a missing child. | Retrace from the position the removed node actually leaves. | not executed | AvlTree.RemoveAsWrittenThrows | AvlTree.RemoveExact |
| SharpStructures/Trees/Utilities/DefaultTree.cs:130 | `GetRange` throws when `index + count >= Count`. | `GetRange(0, Count)` on any tree, and every range ending at the last element, throws IndexOutOfRange. | Throw only when `index + count > Count`. | not executed | DefaultTree.GetRangeAsWrittenRefusesSuffix | DefaultTree.GetRange |
| SharpStructures/Trees/RedBlackTree.cs:528 | The guard is inverted: the moved child's parent is set to `p` only when the child is the `NIL` sentinel. | Root 10 with right child 20, whose left child is 15. Rotating left at 10 leaves 15 under 10 while `15.Parent` is still 20. | Set `c.Parent = p` when `c` is a real node. | not executed | RedBlackLinks.RotateAsWrittenBreaksParentLinked | RedBlackLinks.RotateKeepsParentLinked |
| SharpStructures/Trees/Utilities/DefaultTree.cs:130 | `index + count` is an unchecked `int` sum. | `GetRange(1, int.MaxValue)`: the sum wraps to a negative value, the check passes, every walk stops at once, and the result is empty. | Throw IndexOutOfRange for every range past `Count`. | not executed | DefaultTree.GetRangeAsWrittenAcceptsWrappedEnd | DefaultTree.GetRange |
| SharpStructures/Trees/RedBlackTree.cs:105-107 | `Find` returns `T?`, which for the `int` keys is plain `int`, and then tests the left result with `!= null`. The test always holds, so a node that fails the predicate returns whatever its left subtree gives, `default` (0) when nothing matches, and the right subtree is never searched. | Root 5 with right child 7 and `Find(k => k == 7)`: the code returns 0, not 7. | The first pre-order key satisfying the predicate, as `DefaultTree.Find` gives with `??`. | not executed | RedBlackTree.FindAsWrittenSkipsRight | DefaultTree.FindIsFirstPreOrderMatch |

=== FILE: avl_tree.dfy ===
/** The AVL tree (SharpStructures/Trees/AVLTree.cs).

    A node's augmentation is its stored `BalanceFactor`: the height of the
    right subtree minus the height of the left one, when it is accurate.
    `Add` is the plain binary-search-tree insert of a fresh node with
    factor 0 followed by a retrace up the insertion path; `Remove` retraces
    up from the found node and then splices it out as the plain tree does.

    The upward retrace loops are modelled as the return path of a descent:
    each level hands its parent the rebuilt subtree and whether the subtree
    grew (insert) or shrank (remove), which is exactly when the source's
    loop would go on to the parent. A rotation is a pure function on the
    subtree it restructures, with the source's balance-factor table.
 */
module AvlTree {
  import opened Wrappers
  import opened Seqs
  import opened Nodes
  import opened TreeHelper
  import opened DefaultTree
  import BinarySearchTree

  /** A freshly constructed `AVLNode`: no children and balance factor 0. */
  function NewNode(key: int): (r: Tree<int>)
    ensures r.Node? && IsLeaf(r) && r.key == key
    ensures Avl(r)
  {
    Node(Empty, key, Empty, 0)
  }

  /** The stored balance factors are accurate (right height minus left
      height) and lie in -1..1 at every node. */
  ghost predicate Avl(t: Tree<int>)
  {
    match t
    case Empty => true
    case Node(l, _, r, bf) =>
      && bf == Height(r) - Height(l)
      && -1 <= bf <= 1
      && Avl(l) && Avl(r)
  }

  /** An AVL tree passes the range-only validator `IsValid`. */
  lemma {:induction false} AvlIsInRange(t: Tree<int>)
    requires Avl(t)
    ensures BalanceInRange(t)
  {
    if t.Node? {
      AvlIsInRange(t.left);
      AvlIsInRange(t.right);
    }
  }

  // ---------------------------------------------------------------------
  // Rotations

  /** `RotateLeft(x, z)` with `z` the right child of `x`: `z` becomes the
      root of the subtree and `x` its left child, taking over `z`'s left
      subtree. If `z` was balanced the factors become 1 (x) and -1 (z),
      otherwise both become 0. */
  function RotateLeft(x: Tree<int>): (r: Tree<int>)
    requires x.Node? && x.right.Node?
    ensures r.Node? && InOrder(r) == InOrder(x)
    ensures BalanceInRange(x.left) && BalanceInRange(x.right) ==> BalanceInRange(r)
  {
    var z := x.right;
    var xb, zb := if z.aug == 0 then 1 else 0, if z.aug == 0 then -1 else 0;
    RotateRegroup(InOrder(x.left), x.key, InOrder(z.left), z.key, InOrder(z.right));
    Node(Node(x.left, x.key, z.left, xb), z.key, z.right, zb)
  }

  /** `RotateRight(x, z)` with `z` the left child of `x`, the mirror image
      of `RotateLeft`: if `z` was balanced the factors become -1 (x) and
      1 (z), otherwise both become 0. */
  function RotateRight(x: Tree<int>): (r: Tree<int>)
    requires x.Node? && x.left.Node?
    ensures r.Node? && InOrder(r) == InOrder(x)
    ensures BalanceInRange(x.left) && BalanceInRange(x.right) ==> BalanceInRange(r)
  {
    var z := x.left;
    var xb, zb := if z.aug == 0 then -1 else 0, if z.aug == 0 then 1 else 0;
    RotateRegroup(InOrder(z.left), z.key, InOrder(z.right), x.key, InOrder(x.right));
    Node(z.left, z.key, Node(z.right, x.key, x.right, xb), zb)
  }

  /** `RotateRightLeft(x, z)` with `z` the right child of `x` and `y` the
      left child of `z`: `y` becomes the root over `x` (left) and `z`
      (right), which take over `y`'s left and right subtrees. `y` gets 0;
      `x` and `z` get 0 and 0, -1 and 0, or 0 and 1 as `y` was balanced,
      leaning right or leaning left. */
  function RotateRightLeft(x: Tree<int>): (r: Tree<int>)
    requires x.Node? && x.right.Node? && x.right.left.Node?
    ensures r.Node? && r.aug == 0 && InOrder(r) == InOrder(x)
    ensures BalanceInRange(x.left) && BalanceInRange(x.right) ==> BalanceInRange(r)
  {
    var z := x.right;
    var y := z.left;
    var xb := if y.aug > 0 then -1 else 0;
    var zb := if y.aug < 0 then 1 else 0;
    assert InOrder(y) == InOrder(y.left) + [y.key] + InOrder(y.right);
    assert InOrder(z) == InOrder(y) + [z.key] + InOrder(z.right);
    assert InOrder(x) == InOrder(x.left) + [x.key] + InOrder(z);
    DoubleInOrder(InOrder(x.left), x.key, InOrder(y.left), y.key, InOrder(y.right), z.key, InOrder(z.right));
    assert BalanceInRange(z) ==> BalanceInRange(y) && BalanceInRange(z.right);
    assert BalanceInRange(y) ==> BalanceInRange(y.left) && BalanceInRange(y.right);
    Node(Node(x.left, x.key, y.left, xb), y.key, Node(y.right, z.key, z.right, zb), 0)
  }

  /** `RotateLeftRight(x, z)` with `z` the left child of `x` and `y` the
      right child of `z`, the mirror image of `RotateRightLeft`: `x` and `z`
      get 0 and 0, 1 and 0, or 0 and -1 as `y` was balanced, leaning left or
      leaning right. */
  function RotateLeftRight(x: Tree<int>): (r: Tree<int>)
    requires x.Node? && x.left.Node? && x.left.right.Node?
    ensures r.Node? && r.aug == 0 && InOrder(r) == InOrder(x)
    ensures BalanceInRange(x.left) && BalanceInRange(x.right) ==> BalanceInRange(r)
  {
    var z := x.left;
    var y := z.right;
    var xb := if y.aug < 0 then 1 else 0;
    var zb := if y.aug > 0 then -1 else 0;
    assert InOrder(y) == InOrder(y.left) + [y.key] + InOrder(y.right);
    assert InOrder(z) == InOrder(z.left) + [z.key] + InOrder(y);
    assert InOrder(x) == InOrder(z) + [x.key] + InOrder(x.right);
    DoubleInOrder2(InOrder(z.left), z.key, InOrder(y.left), y.key, InOrder(y.right), x.key, InOrder(x.right));
    assert BalanceInRange(z) ==> BalanceInRange(z.left) && BalanceInRange(y);
    assert BalanceInRange(y) ==> BalanceInRange(y.left) && BalanceInRange(y.right);
    Node(Node(z.left, z.key, y.left, zb), y.key, Node(y.right, x.key, x.right, xb), 0)
  }

  lemma DoubleInOrder(a: seq<int>, x: int, b: seq<int>, y: int, c: seq<int>, z: int, d: seq<int>)
    ensures (a + [x] + b) + [y] + (c + [z] + d) == a + [x] + ((b + [y] + c) + [z] + d)
  {
  }

  lemma DoubleInOrder2(a: seq<int>, z: int, b: seq<int>, y: int, c: seq<int>, x: int, d: seq<int>)
    ensures (a + [z] + b) + [y] + (c + [x] + d) == (a + [z] + (b + [y] + c)) + [x] + d
  {
  }

  /** The single left rotation of a node whose right subtree is two levels
      taller and not leaning left leaves accurate factors; the subtree ends
      one level lower than before unless the right child was balanced. */
  lemma RotateLeftExact(x: Tree<int>)
    requires x.Node? && x.right.Node? && Avl(x.left) && Avl(x.right)
    requires Height(x.right) == Height(x.left) + 2 && x.right.aug >= 0
    ensures Avl(RotateLeft(x))
    ensures Height(RotateLeft(x)) == Height(x.right) + (if x.right.aug == 0 then 1 else 0)
  {
    var a, z := x.left, x.right;
    var b, c := z.left, z.right;
    var x' := RotateLeft(x).left;
    assert x' == Node(a, x.key, b, x'.aug);
    assert Height(x') == 1 + Larger(Height(a), Height(b));
  }

  /** Mirror image of `RotateLeftExact`. */
  lemma RotateRightExact(x: Tree<int>)
    requires x.Node? && x.left.Node? && Avl(x.left) && Avl(x.right)
    requires Height(x.left) == Height(x.right) + 2 && x.left.aug <= 0
    ensures Avl(RotateRight(x))
    ensures Height(RotateRight(x)) == Height(x.left) + (if x.left.aug == 0 then 1 else 0)
  {
    var z, c := x.left, x.right;
    var a, b := z.left, z.right;
    var x' := RotateRight(x).right;
    assert x' == Node(b, x.key, c, x'.aug);
    assert Height(x') == 1 + Larger(Height(b), Height(c));
  }

  /** The right-left rotation of a node whose right subtree is two levels
      taller and leans left leaves accurate factors and a subtree one level
      lower than before. */
  lemma RotateRightLeftExact(x: Tree<int>)
    requires x.Node? && x.right.Node? && Avl(x.left) && Avl(x.right)
    requires Height(x.right) == Height(x.left) + 2 && x.right.aug == -1
    ensures x.right.left.Node?
    ensures Avl(RotateRightLeft(x)) && Height(RotateRightLeft(x)) == Height(x.right)
  {
    var a, z := x.left, x.right;
    var y, d := z.left, z.right;
    var b, c := y.left, y.right;
    var r := RotateRightLeft(x);
    assert r.left == Node(a, x.key, b, r.left.aug);
    assert r.right == Node(c, z.key, d, r.right.aug);
    assert Height(r.left) == 1 + Larger(Height(a), Height(b));
    assert Height(r.right) == 1 + Larger(Height(c), Height(d));
  }

  /** Mirror image of `RotateRightLeftExact`. */
  lemma RotateLeftRightExact(x: Tree<int>)
    requires x.Node? && x.left.Node? && Avl(x.left) && Avl(x.right)
    requires Height(x.left) == Height(x.right) + 2 && x.left.aug == 1
    ensures x.left.right.Node?
    ensures Avl(RotateLeftRight(x)) && Height(RotateLeftRight(x)) == Height(x.left)
  {
    var z, d := x.left, x.right;
    var a, y := z.left, z.right;
    var b, c := y.left, y.right;
    var r := RotateLeftRight(x);
    assert r.left == Node(a, z.key, b, r.left.aug);
    assert r.right == Node(c, x.key, d, r.right.aug);
    assert Height(r.left) == 1 + Larger(Height(a), Height(b));
    assert Height(r.right) == 1 + Larger(Height(c), Height(d));
  }

  // ---------------------------------------------------------------------
  // Insertion

  /** A rebuilt subtree, whether it is taller than before, and how many
      rotations rebuilding it took. */
  datatype Grown = Grown(tree: Tree<int>, grew: bool, rotations: nat)

  /** A subtree that has just grown: a new leaf with factor 0, or a node
      whose factor was just set to lean towards the side that grew. */
  predicate JustGrown(t: Tree<int>)
  {
    && t.Node?
    && (t.aug == 0 ==> IsLeaf(t))
    && (t.aug < 0 ==> t.left.Node?)
    && (t.aug > 0 ==> t.right.Node?)
  }

  /** One iteration of `AVLInsert` at the ancestor `x` whose left subtree
      `l` grew: leaning left already, it rotates (right, or left-right when
      `l` leans right) and the loop ends; leaning right, it becomes
      balanced and the loop ends; balanced, it leans left and the loop goes
      on. */
  function GrowLeft(l: Tree<int>, x: int, r: Tree<int>, bf: int): (g: Grown)
    requires JustGrown(l)
    ensures InOrder(g.tree) == InOrder(Node(l, x, r, bf))
    ensures g.grew ==> g.rotations == 0 && JustGrown(g.tree)
    ensures g.rotations <= 1
    ensures BalanceInRange(l) && BalanceInRange(r) ==> BalanceInRange(g.tree)
  {
    if bf < 0 then
      var t := Node(l, x, r, bf);
      if l.aug > 0 then Grown(RotateLeftRight(t), false, 1)
      else Grown(RotateRight(t), false, 1)
    else if bf > 0 then Grown(Node(l, x, r, 0), false, 0)
    else Grown(Node(l, x, r, -1), true, 0)
  }

  /** Mirror image of `GrowLeft` for a right subtree that grew. */
  function GrowRight(l: Tree<int>, x: int, r: Tree<int>, bf: int): (g: Grown)
    requires JustGrown(r)
    ensures InOrder(g.tree) == InOrder(Node(l, x, r, bf))
    ensures g.grew ==> g.rotations == 0 && JustGrown(g.tree)
    ensures g.rotations <= 1
    ensures BalanceInRange(l) && BalanceInRange(r) ==> BalanceInRange(g.tree)
  {
    if bf > 0 then
      var t := Node(l, x, r, bf);
      if r.aug < 0 then Grown(RotateRightLeft(t), false, 1)
      else Grown(RotateLeft(t), false, 1)
    else if bf < 0 then Grown(Node(l, x, r, 0), false, 0)
    else Grown(Node(l, x, r, 1), true, 0)
  }

  /** `BSTInsert` followed by `AVLInsert`: descend as the plain tree does,
      attach a new node with factor 0, and retrace on the way back while
      the subtree keeps growing. The rebuilt tree reads in order exactly as
      the plain insert would, and the retrace rotates at most once. */
  function Insert(t: Tree<int>, k: int): (g: Grown)
    ensures InOrder(g.tree) == InOrder(BinarySearchTree.Add(t, k, 0))
    ensures g.grew ==> g.rotations == 0 && JustGrown(g.tree)
    ensures g.rotations <= 1
    ensures BalanceInRange(t) ==> BalanceInRange(g.tree)
  {
    match t
    case Empty => Grown(NewNode(k), true, 0)
    case Node(l, x, r, bf) =>
      if k < x then
        var s := Insert(l, k);
        if s.grew then GrowLeft(s.tree, x, r, bf)
        else Grown(Node(s.tree, x, r, bf), false, s.rotations)
      else
        var s := Insert(r, k);
        if s.grew then GrowRight(l, x, s.tree, bf)
        else Grown(Node(l, x, s.tree, bf), false, s.rotations)
  }

  /** `Add`. */
  function Add(t: Tree<int>, k: int): (r: Tree<int>)
    ensures InOrder(r) == InOrder(BinarySearchTree.Add(t, k, 0))
    ensures BalanceInRange(t) ==> BalanceInRange(r)
  {
    Insert(t, k).tree
  }

  /** `Add` stores exactly one more occurrence of the key, and keeps a
      sorted in-order sequence sorted, the key landing after its equals. */
  lemma AddKeys(t: Tree<int>, k: int)
    ensures Keys(Add(t, k)) == Keys(t) + multiset{k}
    ensures Count(Add(t, k)) == Count(t) + 1
    ensures Sorted(InOrder(t)) ==> InOrder(Add(t, k)) == InsertSorted(InOrder(t), k)
    ensures Sorted(InOrder(t)) ==> Sorted(InOrder(Add(t, k)))
  {
    var r, b := Add(t, k), BinarySearchTree.Add(t, k, 0);
    InOrderKeys(r);
    InOrderKeys(b);
    BinarySearchTree.AddKeys(t, k, 0);
    CountIsKeyCount(r);
    CountIsKeyCount(t);
    if Sorted(InOrder(t)) {
      BinarySearchTree.AddInOrder(t, k, 0);
      BinarySearchTree.AddSorted(t, k, 0);
    }
  }

  /** One retrace step after a left subtree grew keeps the factors accurate
      and makes the subtree one level taller exactly when the loop goes on. */
  lemma GrowLeftExact(l: Tree<int>, x: int, r: Tree<int>, bf: int)
    requires JustGrown(l) && Avl(l) && Avl(r)
    requires -1 <= bf <= 1 && bf == Height(r) - (Height(l) - 1)
    ensures var g := GrowLeft(l, x, r, bf);
            && Avl(g.tree)
            && Height(g.tree) == 1 + Larger(Height(l) - 1, Height(r)) + (if g.grew then 1 else 0)
  {
    if bf < 0 {
      var t := Node(l, x, r, bf);
      assert Height(l) >= 2;
      if l.aug > 0 {
        RotateLeftRightExact(t);
      } else {
        RotateRightExact(t);
      }
    }
  }

  /** Mirror image of `GrowLeftExact`. */
  lemma GrowRightExact(l: Tree<int>, x: int, r: Tree<int>, bf: int)
    requires JustGrown(r) && Avl(l) && Avl(r)
    requires -1 <= bf <= 1 && bf == (Height(r) - 1) - Height(l)
    ensures var g := GrowRight(l, x, r, bf);
            && Avl(g.tree)
            && Height(g.tree) == 1 + Larger(Height(l), Height(r) - 1) + (if g.grew then 1 else 0)
  {
    if bf > 0 {
      var t := Node(l, x, r, bf);
      assert Height(r) >= 2;
      if r.aug < 0 {
        RotateRightLeftExact(t);
      } else {
        RotateLeftExact(t);
      }
    }
  }

  /** Inserting into an AVL tree gives an AVL tree, taller by one level
      exactly when the retrace reached the root still growing. */
  lemma {:induction false} InsertExact(t: Tree<int>, k: int)
    requires Avl(t)
    ensures Avl(Insert(t, k).tree)
    ensures Height(Insert(t, k).tree) == Height(t) + (if Insert(t, k).grew then 1 else 0)
  {
    match t
    case Empty =>
    case Node(l, x, r, bf) =>
      if k < x {
        InsertExact(l, k);
        InsertExactLeft(l, x, r, bf, k);
      } else {
        InsertExact(r, k);
        InsertExactRight(l, x, r, bf, k);
      }
  }

  lemma InsertExactLeft(l: Tree<int>, x: int, r: Tree<int>, bf: int, k: int)
    requires Avl(Node(l, x, r, bf)) && k < x
    requires var s := Insert(l, k); Avl(s.tree) && Height(s.tree) == Height(l) + (if s.grew then 1 else 0)
    ensures var g := Insert(Node(l, x, r, bf), k);
            Avl(g.tree) && Height(g.tree) == Height(Node(l, x, r, bf)) + (if g.grew then 1 else 0)
  {
    var s := Insert(l, k);
    InsertLeftStep(l, x, r, bf, k, s);
    if s.grew {
      GrowLeftExact(s.tree, x, r, bf);
    }
  }

  lemma InsertExactRight(l: Tree<int>, x: int, r: Tree<int>, bf: int, k: int)
    requires Avl(Node(l, x, r, bf)) && x <= k
    requires var s := Insert(r, k); Avl(s.tree) && Height(s.tree) == Height(r) + (if s.grew then 1 else 0)
    ensures var g := Insert(Node(l, x, r, bf), k);
            Avl(g.tree) && Height(g.tree) == Height(Node(l, x, r, bf)) + (if g.grew then 1 else 0)
  {
    var s := Insert(r, k);
    InsertRightStep(l, x, r, bf, k, s);
    if s.grew {
      GrowRightExact(l, x, s.tree, bf);
    }
  }

  /** One level of `Insert` below a node, going left. */
  lemma InsertLeftStep(l: Tree<int>, x: int, r: Tree<int>, bf: int, k: int, g: Grown)
    requires k < x && Insert(l, k) == g
    ensures g.grew ==> Insert(Node(l, x, r, bf), k) == GrowLeft(g.tree, x, r, bf)
    ensures !g.grew ==> Insert(Node(l, x, r, bf), k) == Grown(Node(g.tree, x, r, bf), false, g.rotations)
  {
  }

  /** One level of `Insert` below a node, going right. */
  lemma InsertRightStep(l: Tree<int>, x: int, r: Tree<int>, bf: int, k: int, g: Grown)
    requires x <= k && Insert(r, k) == g
    ensures g.grew ==> Insert(Node(l, x, r, bf), k) == GrowRight(l, x, g.tree, bf)
    ensures !g.grew ==> Insert(Node(l, x, r, bf), k) == Grown(Node(l, x, g.tree, bf), false, g.rotations)
  {
  }

  /** `Add` keeps the balance factors accurate and in range. */
  lemma AddExact(t: Tree<int>, k: int)
    requires Avl(t)
    ensures Avl(Add(t, k))
    ensures Height(t) <= Height(Add(t, k)) <= Height(t) + 1
  {
    InsertExact(t, k);
  }

  /** `AddRange`: the keys added one after the other. The tree ends up
      holding the keys it held and one more occurrence of each added key. */
  function AddAll(t: Tree<int>, ks: seq<int>): (r: Tree<int>)
    ensures Keys(r) == Keys(t) + multiset(ks)
    decreases |ks|
  {
    if |ks| == 0 then t
    else
      AddKeys(t, ks[0]);
      HeadTailMultiset(ks);
      AddAll(Add(t, ks[0]), ks[1..])
  }

  /** Adding a range keeps an AVL tree an AVL tree, and reads in order as
      the keys inserted one by one into the sorted sequence. */
  lemma {:induction false} AddAllExact(t: Tree<int>, ks: seq<int>)
    requires Avl(t) && Sorted(InOrder(t))
    ensures Avl(AddAll(t, ks))
    ensures InOrder(AddAll(t, ks)) == InsertAllSorted(InOrder(t), ks)
    decreases |ks|
  {
    if |ks| > 0 {
      AddExact(t, ks[0]);
      AddKeys(t, ks[0]);
      AddAllExact(Add(t, ks[0]), ks[1..]);
    }
  }

  /** The keys 1, 2, 5, -3, -6, 12 added to an empty tree read in order as
      -6, -3, 1, 2, 5, 12, and the factors are accurate. */
  lemma AddAllScenario(ks: seq<int>)
    requires ks == [1, 2, 5, -3, -6, 12]
    ensures InOrder(AddAll(Empty, ks)) == [-6, -3, 1, 2, 5, 12]
    ensures Avl(AddAll(Empty, ks)) && Count(AddAll(Empty, ks)) == 6
  {
    AddAllExact(Empty, ks);
    InsertAllScenario(ks);
    CountIsKeyCount(AddAll(Empty, ks));
  }

  lemma InsertAllScenario(ks: seq<int>)
    requires ks == [1, 2, 5, -3, -6, 12]
    ensures InsertAllSorted([], ks) == [-6, -3, 1, 2, 5, 12]
  {
    ScenarioInserts();
    var k1, k2, k3, k4, k5 := ks[1..], ks[2..], ks[3..], ks[4..], ks[5..];
    assert k1 == [2, 5, -3, -6, 12] && k2 == [5, -3, -6, 12] && k3 == [-3, -6, 12];
    assert k4 == [-6, 12] && k5 == [12] && k5[1..] == [];
    assert InsertAllSorted([], ks) == InsertAllSorted([1], k1);
    assert InsertAllSorted([1], k1) == InsertAllSorted([1, 2], k2);
    assert InsertAllSorted([1, 2], k2) == InsertAllSorted([1, 2, 5], k3);
    assert InsertAllSorted([1, 2, 5], k3) == InsertAllSorted([-3, 1, 2, 5], k4);
    assert InsertAllSorted([-3, 1, 2, 5], k4) == InsertAllSorted([-6, -3, 1, 2, 5], k5);
  }

  /** The sorted sequence after each key of the scenario. */
  lemma ScenarioInserts()
    ensures InsertSorted([], 1) == [1]
    ensures InsertSorted([1], 2) == [1, 2]
    ensures InsertSorted([1, 2], 5) == [1, 2, 5]
    ensures InsertSorted([1, 2, 5], -3) == [-3, 1, 2, 5]
    ensures InsertSorted([-3, 1, 2, 5], -6) == [-6, -3, 1, 2, 5]
    ensures InsertSorted([-6, -3, 1, 2, 5], 12) == [-6, -3, 1, 2, 5, 12]
  {
    assert InsertSorted([1], 2) == [1] + InsertSorted([], 2);
    assert InsertSorted([2], 5) == [2] + InsertSorted([], 5);
    assert InsertSorted([1, 2], 5) == [1] + InsertSorted([2], 5) by {
      assert [1, 2][1..] == [2];
    }
    ScenarioLastInsert();
  }

  lemma ScenarioLastInsert()
    ensures InsertSorted([-6, -3, 1, 2, 5], 12) == [-6, -3, 1, 2, 5, 12]
  {
    assert InsertSorted([5], 12) == [5, 12] by {
      assert InsertSorted([5], 12) == [5] + InsertSorted([], 12);
    }
    assert InsertSorted([2, 5], 12) == [2, 5, 12] by {
      assert [2, 5][1..] == [5];
    }
    assert InsertSorted([1, 2, 5], 12) == [1, 2, 5, 12] by {
      assert [1, 2, 5][1..] == [2, 5];
    }
    assert InsertSorted([-3, 1, 2, 5], 12) == [-3, 1, 2, 5, 12] by {
      assert [-3, 1, 2, 5][1..] == [1, 2, 5];
    }
    assert [-6, -3, 1, 2, 5][1..] == [-3, 1, 2, 5];
  }

  // ---------------------------------------------------------------------
  // Removal

  /** A rebuilt subtree and whether it is lower than before. */
  datatype Shrunk = Shrunk(tree: Tree<int>, shrank: bool)

  /** One iteration of `AVLRemove` at the ancestor `x` whose left subtree
      `l` shrank:
      - leaning right, it rotates (left, or right-left when the right child
        leans left) and the loop goes on unless that child was balanced;
      - balanced, it leans right and the loop ends;
      - leaning left, it becomes balanced and the loop goes on.
      Reading the right child, or the right child's left child for the
      double rotation, throws NullReferenceException when it is missing. */
  function ShrinkLeft(l: Tree<int>, x: int, r: Tree<int>, bf: int): (s: Result<Shrunk>)
    ensures s.Ok? ==> InOrder(s.value.tree) == InOrder(Node(l, x, r, bf))
    ensures s.Ok? && BalanceInRange(l) && BalanceInRange(r) ==> BalanceInRange(s.value.tree)
    ensures s.Err? ==> s.error == NullReference
  {
    if bf > 0 then
      if r.Empty? then Err(NullReference)
      else if r.aug < 0 then
        if r.left.Empty? then Err(NullReference)
        else Ok(Shrunk(RotateRightLeft(Node(l, x, r, bf)), true))
      else Ok(Shrunk(RotateLeft(Node(l, x, r, bf)), r.aug != 0))
    else if bf == 0 then Ok(Shrunk(Node(l, x, r, 1), false))
    else Ok(Shrunk(Node(l, x, r, 0), true))
  }

  /** Mirror image of `ShrinkLeft` for a right subtree that shrank. */
  function ShrinkRight(l: Tree<int>, x: int, r: Tree<int>, bf: int): (s: Result<Shrunk>)
    ensures s.Ok? ==> InOrder(s.value.tree) == InOrder(Node(l, x, r, bf))
    ensures s.Ok? && BalanceInRange(l) && BalanceInRange(r) ==> BalanceInRange(s.value.tree)
    ensures s.Err? ==> s.error == NullReference
  {
    if bf < 0 then
      if l.Empty? then Err(NullReference)
      else if l.aug > 0 then
        if l.right.Empty? then Err(NullReference)
        else Ok(Shrunk(RotateLeftRight(Node(l, x, r, bf)), true))
      else Ok(Shrunk(RotateRight(Node(l, x, r, bf)), l.aug != 0))
    else if bf == 0 then Ok(Shrunk(Node(l, x, r, -1), false))
    else Ok(Shrunk(Node(l, x, r, 0), true))
  }

  /** `Remove` as written: `AVLRemove` retraces from the found node `z`'s
      parent as if `z`'s subtree had shrunk, then `BSTRemove` splices `z`
      out. The retrace never looks inside `z`'s subtree and its rotations
      never move it, so splicing first and retracing after gives the same
      tree. When the key is absent nothing happens. */
  function RemoveAsWritten(t: Tree<int>, k: int): (r: Result<Tree<int>>)
    ensures Search(t, k).None? ==> r == Ok(t)
    ensures r.Ok? ==> InOrder(r.value) == InOrder(BinarySearchTree.Remove(t, k))
    ensures r.Ok? && BalanceInRange(t) ==> BalanceInRange(r.value)
    ensures r.Err? ==> r.error == NullReference
  {
    if Search(t, k).None? then Ok(t)
    else
      var s :- RetraceAsWritten(t, k);
      Ok(s.tree)
  }

  /** The descent to the node `Remove` found, splicing it out and claiming
      on the way back that the subtree shrank. */
  function RetraceAsWritten(t: Tree<int>, k: int): (s: Result<Shrunk>)
    ensures s.Ok? ==> InOrder(s.value.tree) == InOrder(BinarySearchTree.Remove(t, k))
    ensures s.Ok? && BalanceInRange(t) ==> BalanceInRange(s.value.tree)
    ensures s.Err? ==> s.error == NullReference
  {
    match t
    case Empty => Ok(Shrunk(Empty, false))
    case Node(l, x, r, bf) =>
      if k == x then
        SpliceInRange(t);
        Ok(Shrunk(BinarySearchTree.Splice(t), true))
      else if k < x then
        var s :- RetraceAsWritten(l, k);
        if s.shrank then ShrinkLeft(s.tree, x, r, bf)
        else Ok(Shrunk(Node(s.tree, x, r, bf), false))
      else
        var s :- RetraceAsWritten(r, k);
        if s.shrank then ShrinkRight(l, x, s.tree, bf)
        else Ok(Shrunk(Node(l, x, s.tree, bf), false))
  }

  /** The corrected removal: the retrace starts where a node actually
      leaves the tree. A node with at most one child is replaced by that
      child; otherwise its successor is detached from the right subtree,
      retracing up to the right child, and takes the node's place and
      balance factor, from which the retrace goes on. */
  function Remove(t: Tree<int>, k: int): (r: Result<Tree<int>>)
    ensures Search(t, k).None? ==> r == Ok(t)
    ensures r.Ok? ==> InOrder(r.value) == InOrder(BinarySearchTree.Remove(t, k))
    ensures r.Ok? && BalanceInRange(t) ==> BalanceInRange(r.value)
    ensures r.Err? ==> r.error == NullReference
  {
    if Search(t, k).None? then Ok(t)
    else
      var s :- Retrace(t, k);
      Ok(s.tree)
  }

  function Retrace(t: Tree<int>, k: int): (s: Result<Shrunk>)
    ensures s.Ok? ==> InOrder(s.value.tree) == InOrder(BinarySearchTree.Remove(t, k))
    ensures s.Ok? && BalanceInRange(t) ==> BalanceInRange(s.value.tree)
    ensures s.Err? ==> s.error == NullReference
  {
    match t
    case Empty => Ok(Shrunk(Empty, false))
    case Node(l, x, r, bf) =>
      if k == x then
        if l.Empty? then Ok(Shrunk(r, true))
        else if r.Empty? then Ok(Shrunk(l, true))
        else
          var m := Min(r).value.key;
          var s :- RetraceMin(r);
          BinarySearchTree.SpliceInOrder(t);
          BinarySearchTree.DetachMinInOrder(r);
          if s.shrank then ShrinkRight(l, m, s.tree, bf)
          else Ok(Shrunk(Node(l, m, s.tree, bf), false))
      else if k < x then
        var s :- Retrace(l, k);
        if s.shrank then ShrinkLeft(s.tree, x, r, bf)
        else Ok(Shrunk(Node(s.tree, x, r, bf), false))
      else
        var s :- Retrace(r, k);
        if s.shrank then ShrinkRight(l, x, s.tree, bf)
        else Ok(Shrunk(Node(l, x, s.tree, bf), false))
  }

  /** Detaching the leftmost node of a subtree, retracing on the way back. */
  function RetraceMin(t: Tree<int>): (s: Result<Shrunk>)
    requires t.Node?
    ensures s.Ok? ==> InOrder(s.value.tree) == InOrder(BinarySearchTree.DetachMin(t))
    ensures s.Ok? && BalanceInRange(t) ==> BalanceInRange(s.value.tree)
    ensures s.Err? ==> s.error == NullReference
  {
    if t.left.Empty? then Ok(Shrunk(t.right, true))
    else
      var s :- RetraceMin(t.left);
      if s.shrank then ShrinkLeft(s.tree, t.key, t.right, t.aug)
      else Ok(Shrunk(Node(s.tree, t.key, t.right, t.aug), false))
  }

  /** The splice moves whole subtrees and the successor with its own
      factor, so it writes no factor out of range. */
  lemma SpliceInRange(t: Tree<int>)
    requires t.Node?
    ensures BalanceInRange(t) ==> BalanceInRange(BinarySearchTree.Splice(t))
  {
    if t.left.Node? && t.right.Node? {
      DetachMinInRange(t.right);
      MinInRange(t.right);
    }
  }

  lemma {:induction false} MinInRange(t: Tree<int>)
    requires t.Node?
    ensures BalanceInRange(t) ==> BalanceInRange(Min(t).value)
  {
    if t.left.Node? {
      MinInRange(t.left);
    }
  }

  lemma {:induction false} DetachMinInRange(t: Tree<int>)
    requires t.Node?
    ensures BalanceInRange(t) ==> BalanceInRange(BinarySearchTree.DetachMin(t))
  {
    if t.left.Node? {
      DetachMinInRange(t.left);
    }
  }

  // ---------------------------------------------------------------------
  // Removal on accurate trees

  /** One removal retrace step after a left subtree shrank, at a node whose
      factor was accurate before, leaves accurate factors; the subtree is
      one level lower exactly when the loop goes on, and no child the
      rotations need is missing. */
  lemma ShrinkLeftExact(l: Tree<int>, x: int, r: Tree<int>, bf: int)
    requires Avl(l) && Avl(r)
    requires -1 <= bf <= 1 && bf == Height(r) - (Height(l) + 1)
    ensures var s := ShrinkLeft(l, x, r, bf);
            && s.Ok? && Avl(s.value.tree)
            && Height(s.value.tree) == 1 + Larger(Height(l) + 1, Height(r)) - (if s.value.shrank then 1 else 0)
  {
    if bf > 0 {
      var t := Node(l, x, r, bf);
      assert Height(r) == Height(l) + 2;
      if r.aug < 0 {
        RotateRightLeftExact(t);
        assert ShrinkLeft(l, x, r, bf) == Ok(Shrunk(RotateRightLeft(t), true));
      } else {
        RotateLeftExact(t);
        assert ShrinkLeft(l, x, r, bf) == Ok(Shrunk(RotateLeft(t), r.aug != 0));
      }
    } else if bf == 0 {
      assert ShrinkLeft(l, x, r, bf) == Ok(Shrunk(Node(l, x, r, 1), false));
    } else {
      assert ShrinkLeft(l, x, r, bf) == Ok(Shrunk(Node(l, x, r, 0), true));
    }
  }

  /** Mirror image of `ShrinkLeftExact`. */
  lemma ShrinkRightExact(l: Tree<int>, x: int, r: Tree<int>, bf: int)
    requires Avl(l) && Avl(r)
    requires -1 <= bf <= 1 && bf == (Height(r) + 1) - Height(l)
    ensures var s := ShrinkRight(l, x, r, bf);
            && s.Ok? && Avl(s.value.tree)
            && Height(s.value.tree) == 1 + Larger(Height(l), Height(r) + 1) - (if s.value.shrank then 1 else 0)
  {
    if bf < 0 {
      var t := Node(l, x, r, bf);
      assert Height(l) == Height(r) + 2;
      if l.aug > 0 {
        RotateLeftRightExact(t);
        assert ShrinkRight(l, x, r, bf) == Ok(Shrunk(RotateLeftRight(t), true));
      } else {
        RotateRightExact(t);
        assert ShrinkRight(l, x, r, bf) == Ok(Shrunk(RotateRight(t), l.aug != 0));
      }
    } else if bf == 0 {
      assert ShrinkRight(l, x, r, bf) == Ok(Shrunk(Node(l, x, r, -1), false));
    } else {
      assert ShrinkRight(l, x, r, bf) == Ok(Shrunk(Node(l, x, r, 0), true));
    }
  }

  /** Detaching the leftmost node of an AVL subtree succeeds and leaves an
      AVL subtree, one level lower exactly when it reports that it shrank. */
  lemma {:induction false} RetraceMinExact(t: Tree<int>)
    requires t.Node? && Avl(t)
    ensures var s := RetraceMin(t);
            s.Ok? && Avl(s.value.tree) && Height(s.value.tree) == Height(t) - (if s.value.shrank then 1 else 0)
  {
    var l, x, r, bf := t.left, t.key, t.right, t.aug;
    assert t == Node(l, x, r, bf);
    if l.Node? {
      RetraceMinExact(l);
      var s := RetraceMin(l).value;
      if s.shrank {
        assert RetraceMin(t) == ShrinkLeft(s.tree, x, r, bf);
        ShrinkLeftExact(s.tree, x, r, bf);
      } else {
        assert RetraceMin(t) == Ok(Shrunk(Node(s.tree, x, r, bf), false));
      }
    }
  }

  /** The corrected removal retrace succeeds on an AVL tree and leaves an
      AVL tree, one level lower exactly when it reports that it shrank. */
  lemma {:induction false} RetraceExact(t: Tree<int>, k: int)
    requires Avl(t)
    ensures var s := Retrace(t, k);
            s.Ok? && Avl(s.value.tree) && Height(s.value.tree) == Height(t) - (if s.value.shrank then 1 else 0)
  {
    match t
    case Empty =>
    case Node(l, x, r, bf) =>
      if k == x {
        RetraceExactFound(l, x, r, bf);
      } else if k < x {
        RetraceExact(l, k);
        RetraceExactLeft(l, x, r, bf, k);
      } else {
        RetraceExact(r, k);
        RetraceExactRight(l, x, r, bf, k);
      }
  }

  lemma RetraceExactFound(l: Tree<int>, x: int, r: Tree<int>, bf: int)
    requires Avl(Node(l, x, r, bf))
    ensures var s := Retrace(Node(l, x, r, bf), x);
            && s.Ok? && Avl(s.value.tree)
            && Height(s.value.tree) == Height(Node(l, x, r, bf)) - (if s.value.shrank then 1 else 0)
  {
    if l.Node? && r.Node? {
      var m := Min(r).value.key;
      RetraceMinExact(r);
      var s := RetraceMin(r).value;
      if s.shrank {
        assert Retrace(Node(l, x, r, bf), x) == ShrinkRight(l, m, s.tree, bf);
        ShrinkRightExact(l, m, s.tree, bf);
      } else {
        assert Retrace(Node(l, x, r, bf), x) == Ok(Shrunk(Node(l, m, s.tree, bf), false));
      }
    }
  }

  lemma RetraceExactLeft(l: Tree<int>, x: int, r: Tree<int>, bf: int, k: int)
    requires Avl(Node(l, x, r, bf)) && k < x
    requires var s := Retrace(l, k);
             s.Ok? && Avl(s.value.tree) && Height(s.value.tree) == Height(l) - (if s.value.shrank then 1 else 0)
    ensures var s := Retrace(Node(l, x, r, bf), k);
            && s.Ok? && Avl(s.value.tree)
            && Height(s.value.tree) == Height(Node(l, x, r, bf)) - (if s.value.shrank then 1 else 0)
  {
    var s := Retrace(l, k).value;
    RetraceLeftStep(l, x, r, bf, k, s);
    if s.shrank {
      ShrinkLeftExact(s.tree, x, r, bf);
    }
  }

  lemma RetraceExactRight(l: Tree<int>, x: int, r: Tree<int>, bf: int, k: int)
    requires Avl(Node(l, x, r, bf)) && x < k
    requires var s := Retrace(r, k);
             s.Ok? && Avl(s.value.tree) && Height(s.value.tree) == Height(r) - (if s.value.shrank then 1 else 0)
    ensures var s := Retrace(Node(l, x, r, bf), k);
            && s.Ok? && Avl(s.value.tree)
            && Height(s.value.tree) == Height(Node(l, x, r, bf)) - (if s.value.shrank then 1 else 0)
  {
    var s := Retrace(r, k).value;
    RetraceRightStep(l, x, r, bf, k, s);
    if s.shrank {
      ShrinkRightExact(l, x, s.tree, bf);
    }
  }

  /** One level of `Retrace` below a node, going left. */
  lemma RetraceLeftStep(l: Tree<int>, x: int, r: Tree<int>, bf: int, k: int, s: Shrunk)
    requires k < x && Retrace(l, k) == Ok(s)
    ensures s.shrank ==> Retrace(Node(l, x, r, bf), k) == ShrinkLeft(s.tree, x, r, bf)
    ensures !s.shrank ==> Retrace(Node(l, x, r, bf), k) == Ok(Shrunk(Node(s.tree, x, r, bf), false))
  {
  }

  /** One level of `Retrace` below a node, going right. */
  lemma RetraceRightStep(l: Tree<int>, x: int, r: Tree<int>, bf: int, k: int, s: Shrunk)
    requires x < k && Retrace(r, k) == Ok(s)
    ensures s.shrank ==> Retrace(Node(l, x, r, bf), k) == ShrinkRight(l, x, s.tree, bf)
    ensures !s.shrank ==> Retrace(Node(l, x, r, bf), k) == Ok(Shrunk(Node(l, x, s.tree, bf), false))
  {
  }

  /** The corrected `Remove` never throws on an AVL tree and keeps it an
      AVL tree. */
  lemma RemoveExact(t: Tree<int>, k: int)
    requires Avl(t)
    ensures Remove(t, k).Ok? && Avl(Remove(t, k).value)
  {
    if Search(t, k).Some? {
      RetraceExact(t, k);
    }
  }

  /** `RemoveRange` as written: `Array.ForEach(values, Remove)` dispatches
      to the overriding `Remove`, so the keys are removed one after the
      other by `RemoveAsWritten`; the first removal that throws ends the
      whole call with its exception. */
  function RemoveAllAsWritten(t: Tree<int>, ks: seq<int>): (r: Result<Tree<int>>)
    ensures r.Err? ==> r.error == NullReference
    ensures r.Ok? && BalanceInRange(t) ==> BalanceInRange(r.value)
    ensures r.Ok? && Sorted(InOrder(t)) ==> Sorted(InOrder(r.value))
    decreases |ks|
  {
    if |ks| == 0 then Ok(t)
    else
      RemoveAsWrittenKeys(t, ks[0]);
      var u :- RemoveAsWritten(t, ks[0]);
      RemoveAllAsWritten(u, ks[1..])
  }

  /** `RemoveRange([2, 0, 1])` on the AVL tree that adding 2, 1, 3, 0
      builds throws NullReference as written, while the same range with
      the corrected `Remove` succeeds. */
  lemma RemoveAllAsWrittenThrows(t0: Tree<int>)
    requires t0 == Node(Node(NewNode(0), 1, Empty, -1), 2, NewNode(3), -1)
    ensures RemoveAllAsWritten(t0, [2, 0, 1]) == Err(NullReference)
    ensures RemoveAll(t0, [2, 0, 1]).Ok?
  {
    var t1 := Node(Node(NewNode(0), 1, Empty, -1), 3, Empty, 0);
    var t2 := Node(NewNode(1), 3, Empty, 1);
    RemoveAsWrittenThrows(t0, t1, t2);
    RemoveAllAsWrittenChain(t0, t1, t2);
    CorrectedRemoveAllSucceeds(t0, [2, 0, 1]);
  }

  lemma RemoveAllAsWrittenChain(t0: Tree<int>, t1: Tree<int>, t2: Tree<int>)
    requires RemoveAsWritten(t0, 2) == Ok(t1)
    requires RemoveAsWritten(t1, 0) == Ok(t2)
    requires RemoveAsWritten(t2, 1) == Err(NullReference)
    ensures RemoveAllAsWritten(t0, [2, 0, 1]) == Err(NullReference)
  {
    RemoveAllAsWrittenStep(t2, 1, [], Err(NullReference));
    assert [1] == [1] + [];
    RemoveAllAsWrittenStep(t1, 0, [1], Ok(t2));
    assert [0, 1] == [0] + [1];
    RemoveAllAsWrittenStep(t0, 2, [0, 1], Ok(t1));
    assert [2, 0, 1] == [2] + [0, 1];
  }

  lemma CorrectedRemoveAllSucceeds(t: Tree<int>, ks: seq<int>)
    requires t == Node(Node(NewNode(0), 1, Empty, -1), 2, NewNode(3), -1)
    ensures RemoveAll(t, ks).Ok?
  {
    ThrowsStartIsAvl(t);
    RemoveAllExact(t, ks);
  }

  /** One step of the fold: a removal that succeeds goes on with the rest of
      the range, one that throws ends it. */
  lemma RemoveAllAsWrittenStep(t: Tree<int>, k: int, ks: seq<int>, r: Result<Tree<int>>)
    requires RemoveAsWritten(t, k) == r
    ensures r.Ok? ==> RemoveAllAsWritten(t, [k] + ks) == RemoveAllAsWritten(r.value, ks)
    ensures r.Err? ==> RemoveAllAsWritten(t, [k] + ks) == Err(r.error)
  {
    assert ([k] + ks)[0] == k && ([k] + ks)[1..] == ks;
  }

  /** `RemoveRange` with the corrected `Remove`: the keys removed one after
      the other; the first removal that throws ends the whole call with its
      exception. */
  function RemoveAll(t: Tree<int>, ks: seq<int>): (r: Result<Tree<int>>)
    ensures r.Err? ==> r.error == NullReference
    ensures r.Ok? && BalanceInRange(t) ==> BalanceInRange(r.value)
    decreases |ks|
  {
    if |ks| == 0 then Ok(t)
    else
      var u :- Remove(t, ks[0]);
      RemoveAll(u, ks[1..])
  }

  /** On an AVL tree every removal of the corrected `RemoveRange` succeeds
      and the balance factors stay accurate. */
  lemma {:induction false} RemoveAllExact(t: Tree<int>, ks: seq<int>)
    requires Avl(t)
    ensures RemoveAll(t, ks).Ok? && Avl(RemoveAll(t, ks).value)
    decreases |ks|
  {
    if |ks| > 0 {
      RemoveExact(t, ks[0]);
      RemoveAllExact(Remove(t, ks[0]).value, ks[1..]);
    }
  }

  /** A removal that succeeds drops exactly one occurrence of a present key
      and keeps a sorted in-order sequence sorted. */
  lemma RemoveKeys(t: Tree<int>, k: int)
    ensures var r := Remove(t, k);
            && (r.Ok? && Search(t, k).Some? ==> Keys(r.value) == Keys(t) - multiset{k})
            && (r.Ok? && Sorted(InOrder(t)) ==> Sorted(InOrder(r.value)))
  {
    if Remove(t, k).Ok? {
      RemovedAsPlain(t, k, Remove(t, k).value);
    }
  }

  /** The same holds of `Remove` as written whenever it does not throw. */
  lemma RemoveAsWrittenKeys(t: Tree<int>, k: int)
    ensures var r := RemoveAsWritten(t, k);
            && (r.Ok? && Search(t, k).Some? ==> Keys(r.value) == Keys(t) - multiset{k})
            && (r.Ok? && Sorted(InOrder(t)) ==> Sorted(InOrder(r.value)))
  {
    if RemoveAsWritten(t, k).Ok? {
      RemovedAsPlain(t, k, RemoveAsWritten(t, k).value);
    }
  }

  /** A tree reading in order as the plain removal's result holds its keys
      and is sorted when the original was. */
  lemma RemovedAsPlain(t: Tree<int>, k: int, u: Tree<int>)
    requires InOrder(u) == InOrder(BinarySearchTree.Remove(t, k))
    ensures Search(t, k).Some? ==> Keys(u) == Keys(t) - multiset{k}
    ensures Sorted(InOrder(t)) ==> Sorted(InOrder(u))
  {
    var p := BinarySearchTree.Remove(t, k);
    InOrderKeys(u);
    InOrderKeys(p);
    BinarySearchTree.RemoveKeys(t, k);
    if Search(t, k).Some? {
      BinarySearchTree.RemoveInOrder(t, k);
      var loc := BinarySearchTree.Locate(t, k).value;
      var a := Before(loc.path) + InOrder(loc.node.left);
      var b := InOrder(loc.node.right) + After(loc.path);
      if Sorted(InOrder(t)) {
        SortedDrop(a, k, b);
      }
    }
  }

  // ---------------------------------------------------------------------
  // Removal as written, on concrete trees

  /** Removing the root of the balanced three-node tree leaves the
      successor at the root with its old factor 0, although its left
      subtree is now one level taller than its right one. The range check
      still accepts the result; the corrected removal stores -1. */
  lemma RemoveAsWrittenStaleFactor(t: Tree<int>)
    requires t == Node(NewNode(1), 2, NewNode(3), 0)
    ensures Avl(t)
    ensures RemoveAsWritten(t, 2) == Ok(Node(NewNode(1), 3, Empty, 0))
    ensures !Avl(RemoveAsWritten(t, 2).value) && BalanceInRange(RemoveAsWritten(t, 2).value)
    ensures Remove(t, 2) == Ok(Node(NewNode(1), 3, Empty, -1)) && Avl(Remove(t, 2).value)
  {
    assert Search(t, 2).Some?;
    assert Min(t.right).value.key == 3;
    assert BinarySearchTree.Splice(t) == Node(NewNode(1), 3, Empty, 0);
  }

  /** The stale factors make a later removal throw: from the AVL tree that
      adding 2, 1, 3, 0 builds, removing 2, then 0, then 1 reaches a node
      that claims to lean right with no right child, and the rotation
      dereferences it. */
  lemma RemoveAsWrittenThrows(t0: Tree<int>, t1: Tree<int>, t2: Tree<int>)
    requires t0 == Node(Node(NewNode(0), 1, Empty, -1), 2, NewNode(3), -1)
    requires t1 == Node(Node(NewNode(0), 1, Empty, -1), 3, Empty, 0)
    requires t2 == Node(NewNode(1), 3, Empty, 1)
    ensures Avl(t0)
    ensures RemoveAsWritten(t0, 2) == Ok(t1)
    ensures RemoveAsWritten(t1, 0) == Ok(t2)
    ensures RemoveAsWritten(t2, 1) == Err(NullReference)
  {
    ThrowsStartIsAvl(t0);
    RemoveRootStep(t0, t1);
    RetraceDeepStep(t1, t2);
    RemoveAsWrittenFound(t1, 0, Ok(Shrunk(t2, false)));
    RetraceThrowStep(t2);
    RemoveAsWrittenFound(t2, 1, Err(NullReference));
  }

  lemma ThrowsStartIsAvl(t0: Tree<int>)
    requires t0 == Node(Node(NewNode(0), 1, Empty, -1), 2, NewNode(3), -1)
    ensures Avl(t0)
  {
  }

  /** `RemoveAsWritten` of a present key is what the retrace returns. */
  lemma RemoveAsWrittenFound(t: Tree<int>, k: int, s: Result<Shrunk>)
    requires Search(t, k).Some? && RetraceAsWritten(t, k) == s
    ensures s.Ok? ==> RemoveAsWritten(t, k) == Ok(s.value.tree)
    ensures s.Err? ==> RemoveAsWritten(t, k) == Err(s.error)
  {
  }

  lemma RemoveRootStep(t0: Tree<int>, t1: Tree<int>)
    requires t0 == Node(Node(NewNode(0), 1, Empty, -1), 2, NewNode(3), -1)
    requires t1 == Node(Node(NewNode(0), 1, Empty, -1), 3, Empty, 0)
    ensures RemoveAsWritten(t0, 2) == Ok(t1)
  {
    assert Search(t0, 2).Some?;
    assert BinarySearchTree.Splice(t0) == t1;
    assert RetraceAsWritten(t0, 2) == Ok(Shrunk(t1, true));
  }

  lemma RetraceDeepStep(t1: Tree<int>, t2: Tree<int>)
    requires t1 == Node(Node(NewNode(0), 1, Empty, -1), 3, Empty, 0)
    requires t2 == Node(NewNode(1), 3, Empty, 1)
    ensures Search(t1, 0).Some? && RetraceAsWritten(t1, 0) == Ok(Shrunk(t2, false))
  {
    var a := t1.left;
    assert RetraceAsWritten(a.left, 0) == Ok(Shrunk(Empty, true));
    assert ShrinkLeft(Empty, 1, Empty, -1) == Ok(Shrunk(NewNode(1), true));
    assert RetraceAsWritten(a, 0) == Ok(Shrunk(NewNode(1), true));
  }

  lemma RetraceThrowStep(t2: Tree<int>)
    requires t2 == Node(NewNode(1), 3, Empty, 1)
    ensures Search(t2, 1).Some? && RetraceAsWritten(t2, 1) == Err(NullReference)
  {
    assert RetraceAsWritten(t2.left, 1) == Ok(Shrunk(Empty, true));
  }

  /** The AVL tree of `RemoveAsWrittenThrows` is the one adding 2, 1, 3, 0
      to an empty tree builds. */
  lemma RemoveAsWrittenThrowsStart(t1: Tree<int>, t2: Tree<int>, t3: Tree<int>, t4: Tree<int>)
    requires t1 == NewNode(2) && t2 == Node(NewNode(1), 2, Empty, -1)
    requires t3 == Node(NewNode(1), 2, NewNode(3), 0)
    requires t4 == Node(Node(NewNode(0), 1, Empty, -1), 2, NewNode(3), -1)
    ensures Add(Empty, 2) == t1 && Add(t1, 1) == t2 && Add(t2, 3) == t3 && Add(t3, 0) == t4
  {
    AddSecond(t1, t2);
    AddThird(t2, t3);
    AddFourth(t3, t4);
  }

  lemma AddSecond(t1: Tree<int>, t2: Tree<int>)
    requires t1 == NewNode(2) && t2 == Node(NewNode(1), 2, Empty, -1)
    ensures Add(t1, 1) == t2
  {
    InsertLeftOfLeaf(2, 1);
  }

  lemma AddThird(t2: Tree<int>, t3: Tree<int>)
    requires t2 == Node(NewNode(1), 2, Empty, -1) && t3 == Node(NewNode(1), 2, NewNode(3), 0)
    ensures Add(t2, 3) == t3
  {
    InsertFillsRight(NewNode(1), 2, 3);
  }

  lemma AddFourth(t3: Tree<int>, t4: Tree<int>)
    requires t3 == Node(NewNode(1), 2, NewNode(3), 0)
    requires t4 == Node(Node(NewNode(0), 1, Empty, -1), 2, NewNode(3), -1)
    ensures Add(t3, 0) == t4
  {
    InsertFourth(t3, t4);
    AddIsInsert(t3, 0, Grown(t4, true, 0));
  }

  lemma InsertFourth(t3: Tree<int>, t4: Tree<int>)
    requires t3 == Node(NewNode(1), 2, NewNode(3), 0)
    requires t4 == Node(Node(NewNode(0), 1, Empty, -1), 2, NewNode(3), -1)
    ensures Insert(t3, 0) == Grown(t4, true, 0)
  {
    InsertFourthLeft(t3.left, t4.left);
    InsertFourthTop(t3.left, t4.left, t3.right);
  }

  lemma InsertFourthLeft(l: Tree<int>, l': Tree<int>)
    requires l == NewNode(1) && l' == Node(NewNode(0), 1, Empty, -1)
    ensures Insert(l, 0) == Grown(l', true, 0)
  {
    InsertLeftOfLeaf(1, 0);
  }

  lemma InsertFourthTop(l: Tree<int>, l': Tree<int>, r: Tree<int>)
    requires l == NewNode(1) && l' == Node(NewNode(0), 1, Empty, -1) && r == NewNode(3)
    requires Insert(l, 0) == Grown(l', true, 0)
    ensures Insert(Node(l, 2, r, 0), 0) == Grown(Node(l', 2, r, -1), true, 0)
  {
  }

  /** A smaller key under a single node hangs on the left; the node leans
      left and has grown. */
  lemma InsertLeftOfLeaf(x: int, k: int)
    requires k < x
    ensures Insert(NewNode(x), k) == Grown(Node(NewNode(k), x, Empty, -1), true, 0)
  {
    assert Insert(Empty, k) == Grown(NewNode(k), true, 0);
  }

  /** A key at least `x` under a node leaning left on a single child fills
      the right slot; the node is level and has not grown. */
  lemma InsertFillsRight(l: Tree<int>, x: int, k: int)
    requires x <= k
    ensures Insert(Node(l, x, Empty, -1), k) == Grown(Node(l, x, NewNode(k), 0), false, 0)
  {
    assert Insert(Empty, k) == Grown(NewNode(k), true, 0);
  }

  /** `Add` keeps the tree `Insert` rebuilds. */
  lemma AddIsInsert(t: Tree<int>, k: int, g: Grown)
    requires Insert(t, k) == g
    ensures Add(t, k) == g.tree
  {
  }
}

=== FILE: binary_search_tree.dfy ===
/** The unbalanced binary search tree (SharpStructures/Trees/BinarySearchTree.cs).

    `Add` hangs a new leaf where the search path falls off, duplicates going
    right; `Remove` splices out the node `SearchRec` finds, replacing a node
    with two children by its in-order successor. `ShiftNodes(u, v)`, which
    puts `v` into `u`'s slot under `u`'s parent, is `Plug` of `v` into the
    path that led to `u`. The functions are generic in the augmentation so
    that the balanced trees can be compared with them; the plain tree uses
    `()`.
 */
module BinarySearchTree {
  import opened Wrappers
  import opened Seqs
  import opened Nodes
  import opened TreeHelper
  import opened DefaultTree

  // ---------------------------------------------------------------------
  // Insertion

  /** `Add`: walk down from the root, left when the new key is strictly
      smaller, right otherwise, and attach a new leaf carrying `a` where the
      walk leaves the tree; on an empty tree the leaf becomes the root. */
  function Add<A>(t: Tree<A>, k: int, a: A): (r: Tree<A>)
    ensures r.Node?
    ensures Count(r) == Count(t) + 1
    ensures Height(t) <= Height(r) <= Height(t) + 1
  {
    match t
    case Empty => Node(Empty, k, Empty, a)
    case Node(l, x, rt, b) =>
      if k < x then Node(Add(l, k, a), x, rt, b)
      else Node(l, x, Add(rt, k, a), b)
  }

  /** `Add` stores exactly one more occurrence of the key. */
  lemma {:induction false} AddKeys<A>(t: Tree<A>, k: int, a: A)
    ensures Keys(Add(t, k, a)) == Keys(t) + multiset{k}
  {
    match t
    case Empty =>
    case Node(l, x, rt, b) =>
      if k < x {
        AddKeys(l, k, a);
        assert Keys(Add(t, k, a)) == Keys(Add(l, k, a)) + multiset{x} + Keys(rt);
        MultisetAddLeft(Keys(l), k, x, Keys(rt));
      } else {
        AddKeys(rt, k, a);
        assert Keys(Add(t, k, a)) == Keys(l) + multiset{x} + Keys(Add(rt, k, a));
        MultisetAddRight(Keys(l), x, Keys(rt), k);
      }
  }

  lemma MultisetAddLeft(l: multiset<int>, k: int, x: int, r: multiset<int>)
    ensures (l + multiset{k}) + multiset{x} + r == (l + multiset{x} + r) + multiset{k}
  {
  }

  lemma MultisetAddRight(l: multiset<int>, x: int, r: multiset<int>, k: int)
    ensures l + multiset{x} + (r + multiset{k}) == (l + multiset{x} + r) + multiset{k}
  {
  }

  /** The new leaf lies on the search path of its key, so `Contains` finds
      the key afterwards, whether or not the tree was ordered. */
  lemma {:induction false} AddThenContains<A>(t: Tree<A>, k: int, a: A)
    ensures Contains(Add(t, k, a), k)
  {
    match t
    case Empty =>
    case Node(l, x, rt, b) =>
      if k < x {
        AddThenContains(l, k, a);
      } else if k > x {
        AddThenContains(rt, k, a);
      }
  }

  /** `Add` keeps the order invariant, duplicates going right. */
  lemma {:induction false} AddOrdered<A>(t: Tree<A>, k: int, a: A)
    requires Ordered(t)
    ensures Ordered(Add(t, k, a))
  {
    match t
    case Empty =>
    case Node(l, x, rt, b) =>
      if k < x {
        AddOrdered(l, k, a);
        AddBounds(l, k, a, x);
      } else {
        AddOrdered(rt, k, a);
        AddBounds(rt, k, a, x);
      }
  }

  /** A key on the right side of a bound keeps a subtree on that side. */
  lemma {:induction false} AddBounds<A>(t: Tree<A>, k: int, a: A, x: int)
    ensures AllBelow(t, x) && k < x ==> AllBelow(Add(t, k, a), x)
    ensures AllAtLeast(t, x) && k >= x ==> AllAtLeast(Add(t, k, a), x)
  {
    match t
    case Empty =>
    case Node(l, _, r, _) =>
      AddBounds(l, k, a, x);
      AddBounds(r, k, a, x);
  }

  /** On a tree whose in-order sequence is sorted, the new in-order
      sequence is the old one with the key inserted as insertion sort would:
      after every smaller or equal key, before the first greater one. */
  lemma {:induction false} AddInOrder<A>(t: Tree<A>, k: int, a: A)
    requires Sorted(InOrder(t))
    ensures InOrder(Add(t, k, a)) == InsertSorted(InOrder(t), k)
  {
    match t
    case Empty =>
    case Node(l, x, rt, b) =>
      SortedParts(InOrder(l), x, InOrder(rt));
      if k < x {
        AddInOrder(l, k, a);
        AddInOrderLeft(l, x, rt, b, k, a);
      } else {
        AddInOrder(rt, k, a);
        AddInOrderRight(l, x, rt, b, k, a);
      }
  }

  lemma AddInOrderLeft<A>(l: Tree<A>, x: int, rt: Tree<A>, b: A, k: int, a: A)
    requires k < x && InOrder(Add(l, k, a)) == InsertSorted(InOrder(l), k)
    ensures InOrder(Add(Node(l, x, rt, b), k, a)) == InsertSorted(InOrder(Node(l, x, rt, b)), k)
  {
    var sl, sr := InOrder(l), InOrder(rt);
    assert Add(Node(l, x, rt, b), k, a) == Node(Add(l, k, a), x, rt, b);
    ConcatAssoc(InsertSorted(sl, k), [x], sr);
    ConcatAssoc(sl, [x], sr);
    InsertSortedBefore(sl, [x] + sr, k);
  }

  lemma AddInOrderRight<A>(l: Tree<A>, x: int, rt: Tree<A>, b: A, k: int, a: A)
    requires x <= k && InOrder(Add(rt, k, a)) == InsertSorted(InOrder(rt), k)
    requires forall i | 0 <= i < |InOrder(l)| :: InOrder(l)[i] <= x
    ensures InOrder(Add(Node(l, x, rt, b), k, a)) == InsertSorted(InOrder(Node(l, x, rt, b)), k)
  {
    var sl, sr := InOrder(l), InOrder(rt);
    assert InOrder(Add(Node(l, x, rt, b), k, a)) == (sl + [x]) + InsertSorted(sr, k);
    InsertSortedAfter(sl + [x], sr, k);
  }

  /** `Add` keeps the in-order sequence sorted. */
  lemma AddSorted<A>(t: Tree<A>, k: int, a: A)
    requires Sorted(InOrder(t))
    ensures Sorted(InOrder(Add(t, k, a)))
    ensures multiset(InOrder(Add(t, k, a))) == multiset(InOrder(t)) + multiset{k}
  {
    AddInOrder(t, k, a);
    InsertSortedSorted(InOrder(t), k);
    InsertSortedElements(InOrder(t), k);
  }

  // ---------------------------------------------------------------------
  // Removal

  /** `ShiftNodes(u, v)` for the node `u` reached by `path`: `v` takes `u`'s
      place under `u`'s parent, or becomes the root when `u` was the root.
      Only that slot changes: the keys around it keep their order, and the
      tree loses `u`'s nodes and gains `v`'s. */
  function ShiftNodes<A>(path: seq<Frame<A>>, u: Tree<A>, v: Tree<A>): (r: Tree<A>)
    ensures InOrder(r) == Before(path) + InOrder(v) + After(path)
    ensures Count(r) + Count(u) == Count(Plug(path, u)) + Count(v)
  {
    PlugInOrder(path, u);
    PlugInOrder(path, v);
    Plug(path, v)
  }

  /** The leftmost node of a non-empty subtree replaced by its right child
      (`ShiftNodes(y, y.Right)` for the successor `y`). */
  function DetachMin<A>(t: Tree<A>): (r: Tree<A>)
    requires t.Node?
    ensures Count(r) == Count(t) - 1
  {
    if t.left.Empty? then t.right
    else Node(DetachMin(t.left), t.key, t.right, t.aug)
  }

  /** Detaching the minimum drops the first in-order key and nothing else. */
  lemma {:induction false} DetachMinInOrder<A>(t: Tree<A>)
    requires t.Node?
    ensures InOrder(DetachMin(t)) == InOrder(t)[1..]
  {
    if t.left.Node? {
      DetachMinInOrder(t.left);
      var l, r := InOrder(t.left), InOrder(t.right);
      assert (l + [t.key] + r)[1..] == l[1..] + [t.key] + r;
    }
  }

  /** The splice of the node `z` that `Remove` found, yielding the subtree
      that takes its place:
      - no left child: the right child moves up;
      - no right child: the left child moves up;
      - two children: the successor `y` (the minimum of the right subtree)
        takes `z`'s place and adopts `z`'s left subtree; when `y` is not
        `z`'s right child it is first replaced by its own right child and
        then adopts `z`'s right subtree. */
  function Splice<A>(z: Tree<A>): (r: Tree<A>)
    requires z.Node?
    ensures Count(r) == Count(z) - 1
  {
    if z.left.Empty? then z.right
    else if z.right.Empty? then z.left
    else
      var y := Min(z.right).value;
      if z.right.left.Empty? then Node(z.left, y.key, y.right, y.aug)
      else Node(z.left, y.key, DetachMin(z.right), y.aug)
  }

  /** In the two-children case the node taking `z`'s place carries `z`'s
      in-order successor and `z`'s left subtree, and its right subtree is
      `z`'s right subtree without the successor. */
  lemma SpliceTwoChildren<A>(z: Tree<A>)
    requires z.Node? && z.left.Node? && z.right.Node?
    ensures Splice(z).Node?
    ensures Some(Splice(z).key) == Successor([], z)
    ensures Splice(z).left == z.left
    ensures InOrder(Splice(z).right) == InOrder(z.right)[1..]
  {
    DetachMinInOrder(z.right);
  }

  /** Splicing a node out drops exactly its own key from its subtree's
      in-order sequence. */
  lemma SpliceInOrder<A>(z: Tree<A>)
    requires z.Node?
    ensures InOrder(Splice(z)) == InOrder(z.left) + InOrder(z.right)
  {
    if z.left.Node? && z.right.Node? {
      DetachMinInOrder(z.right);
      var r := InOrder(z.right);
      assert [r[0]] + r[1..] == r;
      assert InOrder(Splice(z)) == InOrder(z.left) + [r[0]] + r[1..];
    }
  }

  /** `Remove`: the node found by `SearchRec` is spliced out; when no node
      compares equal the tree is left as it is. */
  function Remove<A>(t: Tree<A>, k: int): (r: Tree<A>)
    ensures Search(t, k).None? ==> r == t
    ensures Search(t, k).Some? ==> Count(r) == Count(t) - 1
  {
    match t
    case Empty => Empty
    case Node(l, x, rt, b) =>
      if k == x then Splice(t)
      else if k < x then Node(Remove(l, k), x, rt, b)
      else Node(l, x, Remove(rt, k), b)
  }

  /** Where `SearchRec` stops: the node found and its path to the root. */
  datatype Located<A> = Located(path: seq<Frame<A>>, node: Tree<A>)

  /** The search of `SearchRec`, also recording the path it took. */
  function Locate<A>(t: Tree<A>, k: int): (r: Option<Located<A>>)
    ensures r.Some? <==> Search(t, k).Some?
    ensures r.Some? ==> r.value.node == Search(t, k).value && Plug(r.value.path, r.value.node) == t
  {
    match t
    case Empty => None
    case Node(l, x, rt, b) =>
      if k == x then Some(Located([], t))
      else if k < x then
        var r := Locate(l, k);
        if r.None? then None
        else
          PlugAppend(r.value.path, LeftOf(x, rt, b), r.value.node);
          Some(Located(r.value.path + [LeftOf(x, rt, b)], r.value.node))
      else
        var r := Locate(rt, k);
        if r.None? then None
        else
          PlugAppend(r.value.path, RightOf(l, x, b), r.value.node);
          Some(Located(r.value.path + [RightOf(l, x, b)], r.value.node))
  }

  /** A frame added at the top of a path wraps the rebuilt tree. */
  lemma {:induction false} PlugAppend<A>(path: seq<Frame<A>>, f: Frame<A>, t: Tree<A>)
    ensures Plug(path + [f], t) == Up(f, Plug(path, t))
    decreases |path|
  {
    if |path| > 0 {
      assert (path + [f])[1..] == path[1..] + [f];
      PlugAppend(path[1..], f, Up(path[0], t));
    } else {
      assert path + [f] == [f];
    }
  }

  /** `Remove` is `ShiftNodes` of the spliced subtree into the slot of the
      node the search found. */
  lemma {:induction false} RemoveIsShiftAtFound<A>(t: Tree<A>, k: int)
    requires Search(t, k).Some?
    ensures var loc := Locate(t, k).value;
            Remove(t, k) == ShiftNodes(loc.path, loc.node, Splice(loc.node))
  {
    match t
    case Node(l, x, rt, b) =>
      if k < x {
        RemoveIsShiftAtFound(l, k);
        var loc := Locate(l, k).value;
        PlugAppend(loc.path, LeftOf(x, rt, b), Splice(loc.node));
      } else if k > x {
        RemoveIsShiftAtFound(rt, k);
        var loc := Locate(rt, k).value;
        PlugAppend(loc.path, RightOf(l, x, b), Splice(loc.node));
      }
  }

  /** Removing a present key deletes exactly one occurrence from the
      in-order sequence: the one at the found node's position, after the
      keys of the found node's left subtree and of its ancestors' left
      parts. */
  lemma RemoveInOrder<A>(t: Tree<A>, k: int)
    requires Search(t, k).Some?
    ensures var loc := Locate(t, k).value;
            var p := Before(loc.path) + InOrder(loc.node.left);
            var q := InOrder(loc.node.right) + After(loc.path);
            InOrder(t) == p + [k] + q && InOrder(Remove(t, k)) == p + q
  {
    var loc := Locate(t, k).value;
    RemoveIsShiftAtFound(t, k);
    SpliceOutInOrder(loc.path, loc.node);
  }

  /** Splicing a node out of the tree rebuilt along its path drops exactly
      that node's key from the in-order sequence. */
  lemma SpliceOutInOrder<A>(path: seq<Frame<A>>, z: Tree<A>)
    requires z.Node?
    ensures var p := Before(path) + InOrder(z.left);
            var q := InOrder(z.right) + After(path);
            InOrder(Plug(path, z)) == p + [z.key] + q && InOrder(ShiftNodes(path, z, Splice(z))) == p + q
  {
    var before, l, r, after := Before(path), InOrder(z.left), InOrder(z.right), After(path);
    assert InOrder(ShiftNodes(path, z, Splice(z))) == before + (l + r) + after by {
      SpliceInOrder(z);
    }
    Regroup4(before, l, r, after);
    NodeInOrderIndex(path, z);
  }

  lemma Regroup4(a: seq<int>, b: seq<int>, c: seq<int>, d: seq<int>)
    ensures a + (b + c) + d == (a + b) + (c + d)
  {
  }

  /** Detaching the minimum removes one occurrence of the minimum's key. */
  lemma {:induction false} DetachMinKeys<A>(t: Tree<A>)
    requires t.Node?
    ensures Keys(DetachMin(t)) + multiset{Min(t).value.key} == Keys(t)
  {
    if t.left.Node? {
      DetachMinKeys(t.left);
    }
  }

  /** Splicing a node out removes one occurrence of its key. */
  lemma SpliceKeys<A>(z: Tree<A>)
    requires z.Node?
    ensures Keys(Splice(z)) == Keys(z.left) + Keys(z.right)
  {
    if z.left.Node? && z.right.Node? {
      DetachMinKeys(z.right);
    }
  }

  /** Removing a present key removes exactly one occurrence of it. */
  lemma {:induction false} RemoveKeys<A>(t: Tree<A>, k: int)
    ensures Search(t, k).Some? ==> Keys(Remove(t, k)) == Keys(t) - multiset{k}
    ensures Search(t, k).None? ==> Keys(Remove(t, k)) == Keys(t)
  {
    if Search(t, k).Some? {
      var l, x, rt, b := t.left, t.key, t.right, t.aug;
      assert t == Node(l, x, rt, b);
      if k == x {
        SpliceKeys(t);
      } else if k < x {
        RemoveKeys(l, k);
        RemoveKeysLeft(l, x, rt, b, k);
      } else {
        RemoveKeys(rt, k);
        RemoveKeysRight(l, x, rt, b, k);
      }
    }
  }

  lemma RemoveKeysLeft<A>(l: Tree<A>, x: int, rt: Tree<A>, b: A, k: int)
    requires k < x && Search(l, k).Some?
    requires Keys(Remove(l, k)) == Keys(l) - multiset{k}
    ensures Keys(Remove(Node(l, x, rt, b), k)) == Keys(Node(l, x, rt, b)) - multiset{k}
  {
    assert Keys(Remove(Node(l, x, rt, b), k)) == Keys(Remove(l, k)) + multiset{x} + Keys(rt);
    MultisetRemoveLeft(Keys(l), k, x, Keys(rt));
  }

  lemma RemoveKeysRight<A>(l: Tree<A>, x: int, rt: Tree<A>, b: A, k: int)
    requires x < k && Search(rt, k).Some?
    requires Keys(Remove(rt, k)) == Keys(rt) - multiset{k}
    ensures Keys(Remove(Node(l, x, rt, b), k)) == Keys(Node(l, x, rt, b)) - multiset{k}
  {
    assert Keys(Remove(Node(l, x, rt, b), k)) == Keys(l) + multiset{x} + Keys(Remove(rt, k));
    MultisetRemoveRight(Keys(l), x, Keys(rt), k);
  }

  lemma MultisetRemoveLeft(l: multiset<int>, k: int, x: int, r: multiset<int>)
    requires k in l
    ensures (l - multiset{k}) + multiset{x} + r == (l + multiset{x} + r) - multiset{k}
  {
  }

  lemma MultisetRemoveRight(l: multiset<int>, x: int, r: multiset<int>, k: int)
    requires k in r
    ensures l + multiset{x} + (r - multiset{k}) == (l + multiset{x} + r) - multiset{k}
  {
  }

  /** Detaching the minimum keeps every bound a subtree had. */
  lemma {:induction false} DetachMinBounds<A>(t: Tree<A>, x: int)
    requires t.Node?
    ensures AllBelow(t, x) ==> AllBelow(DetachMin(t), x)
    ensures AllAtLeast(t, x) ==> AllAtLeast(DetachMin(t), x)
  {
    if t.left.Node? {
      DetachMinBounds(t.left, x);
    }
  }

  /** Detaching the minimum keeps a subtree ordered. */
  lemma {:induction false} DetachMinOrdered<A>(t: Tree<A>)
    requires t.Node? && Ordered(t)
    ensures Ordered(DetachMin(t))
  {
    if t.left.Node? {
      DetachMinOrdered(t.left);
      DetachMinBounds(t.left, t.key);
    }
  }

  /** Splicing keeps every bound the subtree had. */
  lemma SpliceBounds<A>(z: Tree<A>, x: int)
    requires z.Node?
    ensures AllBelow(z, x) ==> AllBelow(Splice(z), x)
    ensures AllAtLeast(z, x) ==> AllAtLeast(Splice(z), x)
  {
    if z.left.Node? && z.right.Node? {
      var m := Min(z.right).value.key;
      MinInKeys(z.right);
      DetachMinBounds(z.right, x);
      if AllBelow(z, x) { BelowKey(z.right, x, m); }
      if AllAtLeast(z, x) { AtLeastKey(z.right, x, m); }
    }
  }

  /** Splicing keeps the order invariant: the successor is at least every
      key on the left and at most every key left on the right. */
  lemma SpliceOrdered<A>(z: Tree<A>)
    requires z.Node? && Ordered(z)
    ensures Ordered(Splice(z))
  {
    if z.left.Node? && z.right.Node? {
      var m := Min(z.right).value.key;
      MinInKeys(z.right);
      AtLeastKey(z.right, z.key, m);
      AllBelowMono(z.left, z.key, m);
      OrderedAboveMin(z.right);
      DetachMinBounds(z.right, m);
      DetachMinOrdered(z.right);
    }
  }

  /** Removing keeps every bound the tree had. */
  lemma {:induction false} RemoveBounds<A>(t: Tree<A>, k: int, x: int)
    ensures AllBelow(t, x) ==> AllBelow(Remove(t, k), x)
    ensures AllAtLeast(t, x) ==> AllAtLeast(Remove(t, k), x)
  {
    match t
    case Empty =>
    case Node(l, y, r, _) =>
      if k == y {
        SpliceBounds(t, x);
      } else if k < y {
        RemoveBounds(l, k, x);
      } else {
        RemoveBounds(r, k, x);
      }
  }

  /** `Remove` keeps the order invariant. */
  lemma {:induction false} RemoveOrdered<A>(t: Tree<A>, k: int)
    requires Ordered(t)
    ensures Ordered(Remove(t, k))
  {
    match t
    case Empty =>
    case Node(l, x, rt, b) =>
      if k == x {
        SpliceOrdered(t);
      } else if k < x {
        RemoveOrdered(l, k);
        RemoveBounds(l, k, x);
      } else {
        RemoveOrdered(rt, k);
        RemoveBounds(rt, k, x);
      }
  }

  // ---------------------------------------------------------------------
  // Validation

  /** `IsValidRec(tree, node)` as written: the left subtree's `Max` must be
      smaller than the node's key, and the RIGHT subtree's `Max` must not be
      smaller than it. */
  predicate IsValidAsWritten<A>(t: Tree<A>)
  {
    match t
    case Empty => true
    case Node(l, k, r, _) =>
      && (l.Empty? || Max(l).value.key < k)
      && (r.Empty? || Max(r).value.key >= k)
      && IsValidAsWritten(l) && IsValidAsWritten(r)
  }

  /** The as-written check accepts every ordered tree. */
  lemma {:induction false} OrderedIsValidAsWritten<A>(t: Tree<A>)
    requires Ordered(t)
    ensures IsValidAsWritten(t)
  {
    match t
    case Empty =>
    case Node(l, k, r, _) =>
      OrderedIsValidAsWritten(l);
      OrderedIsValidAsWritten(r);
      if l.Node? {
        MaxInKeys(l);
        BelowKey(l, k, Max(l).value.key);
      }
      if r.Node? {
        MaxInKeys(r);
        AtLeastKey(r, k, Max(r).value.key);
      }
  }

  /** It also accepts a tree that is not ordered: 5 with right child 10,
      whose left child 3 is smaller than 5. */
  lemma IsValidAsWrittenAcceptsDisorder()
    ensures var t := Node(Empty, 5, Node(Node(Empty, 3, Empty, ()), 10, Empty, ()), ());
            IsValidAsWritten(t) && !Ordered(t) && Search(t, 3).None?
  {
    var t := Node(Empty, 5, Node(Node(Empty, 3, Empty, ()), 10, Empty, ()), ());
    assert 3 in Keys(t.right);
  }

  /** The validator with the intended comparison: the right subtree's `Min`
      must not be smaller than the node's key. */
  predicate IsValid<A>(t: Tree<A>)
  {
    match t
    case Empty => true
    case Node(l, k, r, _) =>
      && (l.Empty? || Max(l).value.key < k)
      && (r.Empty? || Min(r).value.key >= k)
      && IsValid(l) && IsValid(r)
  }

  /** The corrected validator accepts exactly the ordered trees. */
  lemma {:induction false} IsValidIffOrdered<A>(t: Tree<A>)
    ensures IsValid(t) <==> Ordered(t)
  {
    match t
    case Empty =>
    case Node(l, k, r, b) =>
      IsValidIffOrdered(l);
      IsValidIffOrdered(r);
      if Ordered(l) { MaxBelowIff(l, k); }
      if Ordered(r) { MinAboveIff(r, k); }
  }

  /** On an ordered subtree, comparing its `Max` is comparing every key. */
  lemma MaxBelowIff<A>(l: Tree<A>, k: int)
    requires Ordered(l)
    ensures (l.Empty? || Max(l).value.key < k) <==> AllBelow(l, k)
  {
    if l.Node? {
      var m := Max(l).value.key;
      MaxInKeys(l);
      if AllBelow(l, k) { BelowKey(l, k, m); }
      OrderedBelowMax(l);
      if m < k { AllBelowMono(l, m + 1, k); }
    }
  }

  /** On an ordered subtree, comparing its `Min` is comparing every key. */
  lemma MinAboveIff<A>(r: Tree<A>, k: int)
    requires Ordered(r)
    ensures (r.Empty? || Min(r).value.key >= k) <==> AllAtLeast(r, k)
  {
    if r.Node? {
      var m := Min(r).value.key;
      MinInKeys(r);
      if AllAtLeast(r, k) { AtLeastKey(r, k, m); }
      OrderedAboveMin(r);
      if m >= k { AllAtLeastMono(r, m, k); }
    }
  }

  // ---------------------------------------------------------------------
  // A scenario

  /** `AddRange`: the keys added one after the other. */
  function AddAll(t: Tree<()>, ks: seq<int>): (r: Tree<()>)
    ensures Count(r) == Count(t) + |ks|
    decreases |ks|
  {
    if |ks| == 0 then t else AddAll(Add(t, ks[0], ()), ks[1..])
  }

  /** `AddRange` keeps an ordered tree ordered, and the tree reads in order
      as the keys inserted one by one into the sorted sequence. */
  lemma {:induction false} AddAllInOrder(t: Tree<()>, ks: seq<int>)
    requires Ordered(t)
    ensures Ordered(AddAll(t, ks))
    ensures InOrder(AddAll(t, ks)) == InsertAllSorted(InOrder(t), ks)
    decreases |ks|
  {
    if |ks| > 0 {
      AddOrdered(t, ks[0], ());
      OrderedInOrderSorted(t);
      AddInOrder(t, ks[0], ());
      AddAllInOrder(Add(t, ks[0], ()), ks[1..]);
    }
  }

  /** `RemoveRange`: the keys removed one after the other. */
  function RemoveAll(t: Tree<()>, ks: seq<int>): (r: Tree<()>)
    ensures Count(r) <= Count(t)
    decreases |ks|
  {
    if |ks| == 0 then t else RemoveAll(Remove(t, ks[0]), ks[1..])
  }

  /** On an ordered tree `RemoveRange` keeps the order and takes away one
      occurrence of every listed key, as far as the tree holds it. */
  lemma {:induction false} RemoveAllKeys(t: Tree<()>, ks: seq<int>)
    requires Ordered(t)
    ensures Ordered(RemoveAll(t, ks))
    ensures Keys(RemoveAll(t, ks)) == Keys(t) - multiset(ks)
    decreases |ks|
  {
    if |ks| > 0 {
      var k := ks[0];
      RemoveOrdered(t, k);
      RemoveKeys(t, k);
      SearchComplete(t, k);
      RemoveAllKeys(Remove(t, k), ks[1..]);
      HeadTailMultiset(ks);
    }
  }

  /** Adding 5, 3, 8, 1, 4, 7, 9 to an empty tree and reading it in order:
      rank 0 is 1, rank 6 is 9, and the three keys from rank 2 are 4, 5, 7. */
  lemma AddAllScenario(ks: seq<int>)
    requires ks == [5, 3, 8, 1, 4, 7, 9]
    ensures var t := AddAll(Empty, ks);
            && GetIndexValue(t, InOrderTraversal, 0) == Ok(1)
            && GetIndexValue(t, InOrderTraversal, 6) == Ok(9)
            && GetRangeAsWritten(t, InOrderTraversal, 2, 3) == Ok([4, 5, 7])
            && GetRange(t, InOrderTraversal, 2, 3) == Ok([4, 5, 7])
  {
    var t := AddAll(Empty, ks);
    AddAllIsScenarioTree(ks);
    ScenarioInOrder(t);
    InOrderQueries(t, InOrder(t));
  }

  lemma InOrderQueries(t: Tree<()>, s: seq<int>)
    requires InOrder(t) == s && |s| == 7
    ensures GetIndexValue(t, InOrderTraversal, 0) == Ok(s[0])
    ensures GetIndexValue(t, InOrderTraversal, 6) == Ok(s[6])
    ensures GetRangeAsWritten(t, InOrderTraversal, 2, 3) == Ok(s[2..5])
    ensures GetRange(t, InOrderTraversal, 2, 3) == Ok(s[2..5])
  {
  }

  /** The tree the scenario builds: 5 at the root, 3 and 8 below it, and the
      leaves 1, 4, 7, 9. */
  function ScenarioTree(): Tree<()>
  {
    Node(Node(Leaf(1), 3, Leaf(4), ()), 5, Node(Leaf(7), 8, Leaf(9), ()), ())
  }

  lemma ScenarioInOrder(t: Tree<()>)
    requires t == ScenarioTree()
    ensures InOrder(t) == [1, 3, 4, 5, 7, 8, 9]
    ensures InOrder(t)[2..5] == [4, 5, 7]
  {
    var a, c := t.left, t.right;
    assert InOrder(a) == [1, 3, 4] by {
      assert InOrder(a.left) == [1] && InOrder(a.right) == [4];
    }
    assert InOrder(c) == [7, 8, 9] by {
      assert InOrder(c.left) == [7] && InOrder(c.right) == [9];
    }
  }

  function Leaf(k: int): Tree<()>
  {
    Node(Empty, k, Empty, ())
  }

  lemma AddAllIsScenarioTree(ks: seq<int>)
    requires ks == [5, 3, 8, 1, 4, 7, 9]
    ensures AddAll(Empty, ks) == ScenarioTree()
  {
    AddSevenKeys(5, 3, 8, 1, 4, 7, 9);
  }

  /** Seven keys arriving root first, then its two children, then the four
      grandchildren from left to right, build the full tree of height 3. */
  lemma AddSevenKeys(a: int, b: int, c: int, d: int, e: int, f: int, g: int)
    requires d < b <= e < a <= f < c <= g
    ensures AddAll(Empty, [a, b, c, d, e, f, g]) ==
            Node(Node(Leaf(d), b, Leaf(e), ()), a, Node(Leaf(f), c, Leaf(g), ()), ())
  {
    var ks := [a, b, c, d, e, f, g];
    var t3 := Node(Leaf(b), a, Leaf(c), ());
    assert ks[1..][1..][1..] == [d, e, f, g];
    AddAllStep(Empty, ks);
    AddAllStep(Leaf(a), ks[1..]);
    AddAllStep(Node(Leaf(b), a, Empty, ()), ks[1..][1..]);
    AddFourKeys(b, a, c, d, e, f, g);
  }

  /** The four grandchildren of `AddSevenKeys`, from left to right. */
  lemma AddFourKeys(b: int, a: int, c: int, d: int, e: int, f: int, g: int)
    requires d < b <= e < a <= f < c <= g
    ensures AddAll(Node(Leaf(b), a, Leaf(c), ()), [d, e, f, g]) ==
            Node(Node(Leaf(d), b, Leaf(e), ()), a, Node(Leaf(f), c, Leaf(g), ()), ())
  {
    var ks := [d, e, f, g];
    var t4 := Node(Node(Leaf(d), b, Empty, ()), a, Leaf(c), ());
    var t5 := Node(Node(Leaf(d), b, Leaf(e), ()), a, Leaf(c), ());
    var t6 := Node(Node(Leaf(d), b, Leaf(e), ()), a, Node(Leaf(f), c, Empty, ()), ());
    assert ks[1..] == [e, f, g] && ks[1..][1..] == [f, g] && ks[1..][1..][1..] == [g];
    assert Add(Leaf(b), d, ()) == Node(Leaf(d), b, Empty, ());
    assert Add(Node(Leaf(b), a, Leaf(c), ()), d, ()) == t4;
    assert Add(Node(Leaf(d), b, Empty, ()), e, ()) == Node(Leaf(d), b, Leaf(e), ());
    assert Add(t4, e, ()) == t5;
    assert Add(Leaf(c), f, ()) == Node(Leaf(f), c, Empty, ());
    assert Add(t5, f, ()) == t6;
    assert Add(Node(Leaf(f), c, Empty, ()), g, ()) == Node(Leaf(f), c, Leaf(g), ());
    AddAllStep(Node(Leaf(b), a, Leaf(c), ()), ks);
    AddAllStep(t4, ks[1..]);
    AddAllStep(t5, ks[1..][1..]);
    AddAllStep(t6, ks[1..][1..][1..]);
  }

  lemma AddAllStep(t: Tree<()>, ks: seq<int>)
    requires |ks| > 0
    ensures AddAll(t, ks) == AddAll(Add(t, ks[0], ()), ks[1..])
  {
  }
}

=== FILE: default_tree.dfy ===
/** The read engine shared by all three trees
    (SharpStructures/Trees/Utilities/DefaultTree.cs): traversals, rank and
    range lookup, predicate search, navigation and root-to-node paths.

    C# parent links are replaced by an explicit path of `Frame`s from a
    node up to the root; `Plug` rebuilds the whole tree from a node and its
    path.
 */
module DefaultTree {
  import opened Wrappers
  import opened Seqs
  import opened Nodes
  import opened TreeHelper

  // ---------------------------------------------------------------------
  // Traversals

  /** In-order: left, self, right. */
  function InOrder<A>(t: Tree<A>): (s: seq<int>)
    ensures |s| == Count(t)
  {
    match t
    case Empty => []
    case Node(l, k, r, _) => InOrder(l) + [k] + InOrder(r)
  }

  /** Pre-order: self, left, right. */
  function PreOrder<A>(t: Tree<A>): (s: seq<int>)
    ensures |s| == Count(t)
  {
    match t
    case Empty => []
    case Node(l, k, r, _) => [k] + PreOrder(l) + PreOrder(r)
  }

  /** Post-order: left, right, self. */
  function PostOrder<A>(t: Tree<A>): (s: seq<int>)
    ensures |s| == Count(t)
  {
    match t
    case Empty => []
    case Node(l, k, r, _) => PostOrder(l) + PostOrder(r) + [k]
  }

  /** `Traverse()`: the traversal selected by the tree's `TraversalType`. */
  function Traverse<A>(t: Tree<A>, order: TraversalType): (s: seq<int>)
    ensures |s| == Count(t)
  {
    match order
    case InOrderTraversal => InOrder(t)
    case PreOrderTraversal => PreOrder(t)
    case PostOrderTraversal => PostOrder(t)
  }

  /** The in-order sequence holds each stored key exactly as often as the
      tree does. */
  lemma {:induction false} InOrderKeys<A>(t: Tree<A>)
    ensures multiset(InOrder(t)) == Keys(t)
  {
    match t
    case Empty =>
    case Node(l, k, r, _) =>
      InOrderKeys(l);
      InOrderKeys(r);
  }

  /** So does the pre-order sequence. */
  lemma {:induction false} PreOrderKeys<A>(t: Tree<A>)
    ensures multiset(PreOrder(t)) == Keys(t)
  {
    match t
    case Empty =>
    case Node(l, k, r, _) =>
      PreOrderKeys(l);
      PreOrderKeys(r);
  }

  /** So does the post-order sequence. */
  lemma {:induction false} PostOrderKeys<A>(t: Tree<A>)
    ensures multiset(PostOrder(t)) == Keys(t)
  {
    match t
    case Empty =>
    case Node(l, k, r, _) =>
      PostOrderKeys(l);
      PostOrderKeys(r);
  }

  /** On an ordered tree the in-order sequence is non-decreasing. */
  lemma {:induction false} OrderedInOrderSorted<A>(t: Tree<A>)
    requires Ordered(t)
    ensures Sorted(InOrder(t))
  {
    match t
    case Empty =>
    case Node(l, k, r, _) =>
      OrderedInOrderSorted(l);
      OrderedInOrderSorted(r);
      InOrderKeys(l);
      InOrderKeys(r);
      var sl, sr := InOrder(l), InOrder(r);
      forall i | 0 <= i < |sl| ensures sl[i] <= k {
        assert sl[i] in multiset(sl);
        BelowKey(l, k, sl[i]);
      }
      forall i | 0 <= i < |sr| ensures k <= sr[i] {
        assert sr[i] in multiset(sr);
        AtLeastKey(r, k, sr[i]);
      }
      SortedJoin(sl, k, sr);
  }

  // ---------------------------------------------------------------------
  // Rank and range walks

  /** What an index-range walk returns: the keys it appended and the final
      value of the shared visitation counter `currIndex[0]`. */
  datatype Walk = Walk(out: seq<int>, counter: nat)

  /** The contract of every index-range walk over a subtree whose traversal
      is `s`, entered with counter `c`: it appends exactly the keys whose
      visitation number lies in `[index, index + count)`, in traversal
      order; the counter advances by the subtree's size unless it has
      already reached the end of the window. */
  predicate WalkSpec(s: seq<int>, index: int, count: nat, c: nat, w: Walk)
  {
    && c <= w.counter <= c + |s|
    && (w.counter == c + |s| || w.counter >= index + count)
    && w.out == Window(s, index - c, index + count - c)
  }

  /** `InOrderTraversalIndexRange`. */
  function InOrderWalk<A>(t: Tree<A>, index: int, count: nat, c: nat): (w: Walk)
    ensures WalkSpec(InOrder(t), index, count, c, w)
  {
    if t.Empty? || c >= index + count then
      WalkNothing(InOrder(t), index, count, c);
      Walk([], c)
    else
      var wl := InOrderWalk(t.left, index, count, c);
      var here := WalkOne(t.key, index, count, wl.counter);
      var wr := InOrderWalk(t.right, index, count, wl.counter + 1);
      var w := Walk(wl.out + here + wr.out, wr.counter);
      WalkConcat3(InOrder(t.left), [t.key], InOrder(t.right), index, count, c,
                  wl, here, wl.counter + 1, wr);
      w
  }

  /** `PreOrderTraversalIndexRange`. */
  function PreOrderWalk<A>(t: Tree<A>, index: int, count: nat, c: nat): (w: Walk)
    ensures WalkSpec(PreOrder(t), index, count, c, w)
  {
    if t.Empty? || c >= index + count then
      WalkNothing(PreOrder(t), index, count, c);
      Walk([], c)
    else
      var here := WalkOne(t.key, index, count, c);
      var wl := PreOrderWalk(t.left, index, count, c + 1);
      var wr := PreOrderWalk(t.right, index, count, wl.counter);
      var w := Walk(here + wl.out + wr.out, wr.counter);
      WalkConcat3([t.key], PreOrder(t.left), PreOrder(t.right), index, count, c,
                  Walk(here, c + 1), wl.out, wl.counter, wr);
      w
  }

  /** `PostOrderTraversalIndexRange`. */
  function PostOrderWalk<A>(t: Tree<A>, index: int, count: nat, c: nat): (w: Walk)
    ensures WalkSpec(PostOrder(t), index, count, c, w)
  {
    if t.Empty? || c >= index + count then
      WalkNothing(PostOrder(t), index, count, c);
      Walk([], c)
    else
      var wl := PostOrderWalk(t.left, index, count, c);
      var wr := PostOrderWalk(t.right, index, count, wl.counter);
      var here := WalkOne(t.key, index, count, wr.counter);
      var w := Walk(wl.out + wr.out + here, wr.counter + 1);
      WalkConcat3(PostOrder(t.left), PostOrder(t.right), [t.key], index, count, c,
                  wl, wr.out, wr.counter, Walk(here, wr.counter + 1));
      w
  }

  /** A walk over nothing, or entered after the window has closed, appends
      nothing and leaves the counter alone. */
  lemma WalkNothing(s: seq<int>, index: int, count: nat, c: nat)
    requires |s| == 0 || c >= index + count
    ensures WalkSpec(s, index, count, c, Walk([], c))
  {
  }

  /** Visiting one node: its key is appended exactly when its visitation
      number lies in the window. */
  function WalkOne(k: int, index: int, count: nat, c: nat): (here: seq<int>)
    ensures WalkSpec([k], index, count, c, Walk(here, c + 1))
  {
    if index <= c < index + count then [k] else []
  }

  /** Two consecutive walk pieces compose: the walk over `a` followed by
      the walk over `b`, entered with the counter the first one left, is
      the walk over `a + b`. */
  lemma WalkConcat(a: seq<int>, b: seq<int>, index: int, count: nat, c: nat, wa: Walk, wb: Walk)
    requires WalkSpec(a, index, count, c, wa)
    requires WalkSpec(b, index, count, wa.counter, wb)
    ensures WalkSpec(a + b, index, count, c, Walk(wa.out + wb.out, wb.counter))
  {
    var lo, hi := index - c, index + count - c;
    if wa.counter != c + |a| {
      WalkClosed(b, index, count, wa.counter, wb);
      WindowEmpty(b, lo - |a|, hi - |a|);
    }
    WalkJoin(a, b, lo, hi, wa.out, wb.out);
  }

  /** A walk entered once the window has closed appends nothing. */
  lemma WalkClosed(b: seq<int>, index: int, count: nat, c: nat, wb: Walk)
    requires WalkSpec(b, index, count, c, wb)
    requires c >= index + count
    ensures wb.out == []
  {
    WindowEmpty(b, index - c, index + count - c);
  }

  /** The outputs of two walk pieces that cover their windows make up the
      window of the concatenation. */
  lemma WalkJoin(a: seq<int>, b: seq<int>, lo: int, hi: int, outA: seq<int>, outB: seq<int>)
    requires lo <= hi
    requires outA == Window(a, lo, hi) && outB == Window(b, lo - |a|, hi - |a|)
    ensures outA + outB == Window(a + b, lo, hi)
  {
    WindowConcat(a, b, lo, hi);
  }

  /** Three consecutive walk pieces compose. */
  lemma WalkConcat3(a: seq<int>, b: seq<int>, d: seq<int>, index: int, count: nat,
                    c: nat, wa: Walk, outB: seq<int>, cb: nat, wd: Walk)
    requires WalkSpec(a, index, count, c, wa)
    requires WalkSpec(b, index, count, wa.counter, Walk(outB, cb))
    requires WalkSpec(d, index, count, cb, wd)
    ensures WalkSpec(a + b + d, index, count, c, Walk(wa.out + outB + wd.out, wd.counter))
  {
    WalkConcat(a, b, index, count, c, wa, Walk(outB, cb));
    WalkConcat(a + b, d, index, count, c, Walk(wa.out + outB, cb), wd);
  }

  /** The walk selected by the traversal type, entered with counter 0. */
  function IndexRange<A>(t: Tree<A>, order: TraversalType, index: int, count: nat): (out: seq<int>)
    ensures out == Window(Traverse(t, order), index, index + count)
  {
    match order
    case InOrderTraversal => InOrderWalk(t, index, count, 0).out
    case PreOrderTraversal => PreOrderWalk(t, index, count, 0).out
    case PostOrderTraversal => PostOrderWalk(t, index, count, 0).out
  }

  /** `GetIndexValue` (the indexer `tree[i]`): the key at rank `index` of
      the selected traversal; a negative index throws
      ArgumentOutOfRangeException, one at or past `Count` throws
      IndexOutOfRangeException. `.First()` of an empty walk would throw
      InvalidOperationException, which never happens. */
  function GetIndexValue<A>(t: Tree<A>, order: TraversalType, index: int): (r: Result<int>)
    ensures index < 0 ==> r == Err(ArgumentOutOfRange)
    ensures index >= Count(t) >= 0 && index >= 0 ==> r == Err(IndexOutOfRange)
    ensures 0 <= index < Count(t) ==> r == Ok(Traverse(t, order)[index])
  {
    if index < 0 then Err(ArgumentOutOfRange)
    else if index >= Count(t) then Err(IndexOutOfRange)
    else
      var out := IndexRange(t, order, index, 1);
      if |out| == 0 then Err(InvalidOperation) else Ok(out[0])
  }

  /** The largest value of a C# `int`. */
  const Int32Max: int := 0x7FFF_FFFF

  /** A C# `int`. */
  type Int32 = x: int | -0x8000_0000 <= x <= Int32Max

  /** C#'s default (unchecked) `int` addition: the one 32-bit value that
      differs from the sum by a multiple of 2^32 (at most one, since both
      operands are in range). */
  function WrapAdd(a: Int32, b: Int32): (s: Int32)
    ensures s == a + b || s == a + b - 0x1_0000_0000 || s == a + b + 0x1_0000_0000
  {
    if a + b > Int32Max then a + b - 0x1_0000_0000
    else if a + b < -0x8000_0000 then a + b + 0x1_0000_0000
    else a + b
  }

  /** `GetRange` as written, on C# `int` arguments. It rejects a window that
      ends exactly at the last element (`index + count == Count`), and when
      `index + count` wraps past `Int32Max` the wrapped end is negative: the
      bound check lets it through and every walk stops at its first test
      `counter >= index + count`, so the result is empty. */
  function GetRangeAsWritten<A>(t: Tree<A>, order: TraversalType, index: Int32, count: Int32): (r: Result<seq<int>>)
    ensures r.Ok? <==> 0 <= index && 0 <= count && (index + count < Count(t) || index + count > Int32Max)
    ensures index < 0 || count < 0 ==> r == Err(ArgumentOutOfRange)
    ensures r.Ok? && index + count <= Int32Max ==> r.value == Traverse(t, order)[index..index + count]
    ensures r.Ok? && index + count > Int32Max ==> r.value == []
  {
    if index < 0 || count < 0 then Err(ArgumentOutOfRange)
    else
      var end := WrapAdd(index, count);
      if end >= Count(t) then Err(IndexOutOfRange)
      else if end < 0 then Ok([])
      else Ok(IndexRange(t, order, index, count))
  }

  /** The as-written range check refuses every window that reaches the end of
      the traversal, the whole traversal included, although the walk would
      return it. */
  lemma GetRangeAsWrittenRefusesSuffix<A>(t: Tree<A>, order: TraversalType, index: int)
    requires 0 <= index <= Count(t) <= Int32Max
    ensures GetRangeAsWritten(t, order, index, Count(t) - index) == Err(IndexOutOfRange)
    ensures GetRange(t, order, index, Count(t) - index) == Ok(Traverse(t, order)[index..])
  {
    SliceToEnd(Traverse(t, order), index, index + (Count(t) - index));
  }

  /** A window far past the end is accepted by the as-written check when its
      end wraps: `GetRange(1, int.MaxValue)` hands back nothing instead of
      throwing, while the intended bound refuses it. */
  lemma GetRangeAsWrittenAcceptsWrappedEnd<A>(t: Tree<A>, order: TraversalType)
    requires Count(t) <= Int32Max
    ensures GetRangeAsWritten(t, order, 1, Int32Max) == Ok([])
    ensures GetRange(t, order, 1, Int32Max) == Err(IndexOutOfRange)
  {
  }

  /** `GetRange(index, count)` with the intended bound: the keys at ranks
      `index .. index + count - 1` of the selected traversal, failing only
      when the window does not lie inside `[0, Count]`. The bound is
      compared without wrapping (as `count > Count - index` would in C#). */
  function GetRange<A>(t: Tree<A>, order: TraversalType, index: int, count: int): (r: Result<seq<int>>)
    ensures r.Ok? <==> 0 <= index && 0 <= count && index + count <= Count(t)
    ensures index < 0 || count < 0 ==> r == Err(ArgumentOutOfRange)
    ensures r.Err? && 0 <= index && 0 <= count ==> r == Err(IndexOutOfRange)
    ensures r.Ok? ==> r.value == Traverse(t, order)[index..index + count]
  {
    if index < 0 || count < 0 then Err(ArgumentOutOfRange)
    else if index + count > Count(t) then Err(IndexOutOfRange)
    else Ok(IndexRange(t, order, index, count))
  }

  // ---------------------------------------------------------------------
  // Predicate search

  /** `Find(predicate, node)`: self, then the left subtree, then the right
      subtree; the first node whose key satisfies the predicate. */
  function Find<A>(p: int -> bool, t: Tree<A>): (r: Option<Tree<A>>)
    ensures r.Some? ==> r.value.Node? && p(r.value.key) && r.value.key in Keys(t)
  {
    match t
    case Empty => None
    case Node(l, k, rt, _) =>
      if p(k) then Some(t)
      else
        var fl := Find(p, l);
        if fl.Some? then fl else Find(p, rt)
  }

  /** `FindLast(predicate, node)`: the right subtree, then the left subtree,
      then self. */
  function FindLast<A>(p: int -> bool, t: Tree<A>): (r: Option<Tree<A>>)
    ensures r.Some? ==> r.value.Node? && p(r.value.key) && r.value.key in Keys(t)
  {
    match t
    case Empty => None
    case Node(l, k, rt, _) =>
      var fr := FindLast(p, rt);
      if fr.Some? then fr
      else
        var fl := FindLast(p, l);
        if fl.Some? then fl
        else if p(k) then Some(t) else None
  }

  /** The key of a found node; the public `Find`/`FindLast` return
      `default(T)` instead of `None`. */
  function KeyOf<A>(r: Option<Tree<A>>): Option<int>
    requires r.Some? ==> r.value.Node?
  {
    if r.Some? then Some(r.value.key) else None
  }

  /** `Find` returns the first pre-order key that satisfies the predicate,
      or nothing when none does. */
  lemma {:induction false} FindIsFirstPreOrderMatch<A>(p: int -> bool, t: Tree<A>)
    ensures KeyOf(Find(p, t)) == FirstMatch(PreOrder(t), p)
  {
    match t
    case Empty =>
    case Node(l, k, r, _) =>
      FindIsFirstPreOrderMatch(p, l);
      FindIsFirstPreOrderMatch(p, r);
      FirstMatchConcat([k] + PreOrder(l), PreOrder(r), p);
      FirstMatchConcat([k], PreOrder(l), p);
      assert [k][1..] == [];
  }

  /** `FindLast` returns the last pre-order key that satisfies the
      predicate, or nothing when none does. */
  lemma {:induction false} FindLastIsLastPreOrderMatch<A>(p: int -> bool, t: Tree<A>)
    ensures KeyOf(FindLast(p, t)) == LastMatch(PreOrder(t), p)
  {
    match t
    case Empty =>
    case Node(l, k, r, _) =>
      FindLastIsLastPreOrderMatch(p, l);
      FindLastIsLastPreOrderMatch(p, r);
      LastMatchConcat([k] + PreOrder(l), PreOrder(r), p);
      LastMatchConcat([k], PreOrder(l), p);
  }

  // ---------------------------------------------------------------------
  // Navigation

  /** `Min(node)`: follow left children to the end of the spine. */
  function Min<A>(t: Tree<A>): (r: Option<Tree<A>>)
    ensures r.Some? <==> t.Node?
    ensures r.Some? ==> r.value.Node? && r.value.left.Empty? && r.value.key == InOrder(t)[0]
  {
    match t
    case Empty => None
    case Node(l, _, _, _) => if l.Node? then Min(l) else Some(t)
  }

  /** `Max(node)`: follow right children to the end of the spine. */
  function Max<A>(t: Tree<A>): (r: Option<Tree<A>>)
    ensures r.Some? <==> t.Node?
    ensures r.Some? ==> r.value.Node? && r.value.right.Empty? && r.value.key == InOrder(t)[|InOrder(t)| - 1]
  {
    match t
    case Empty => None
    case Node(_, _, r, _) => if r.Node? then Max(r) else Some(t)
  }

  /** On an ordered tree `Min` and `Max` are the least and greatest keys. */
  lemma MinMaxBound<A>(t: Tree<A>)
    requires Ordered(t) && t.Node?
    ensures forall x | x in Keys(t) :: Min(t).value.key <= x <= Max(t).value.key
  {
    OrderedInOrderSorted(t);
    InOrderKeys(t);
    var s := InOrder(t);
    forall x | x in Keys(t) ensures s[0] <= x <= s[|s| - 1] {
      assert x in multiset(s);
      var i :| 0 <= i < |s| && s[i] == x;
      assert s[0] <= s[i] by { if i > 0 { assert Sorted(s); } }
      assert s[i] <= s[|s| - 1] by { if i < |s| - 1 { assert Sorted(s); } }
    }
  }

  /** The node `Min` finds holds a stored key. */
  lemma {:induction false} MinInKeys<A>(t: Tree<A>)
    requires t.Node?
    ensures Min(t).value.key in Keys(t)
  {
    if t.left.Node? {
      MinInKeys(t.left);
      assert Keys(t) == Keys(t.left) + multiset{t.key} + Keys(t.right);
    }
  }

  /** The node `Max` finds holds a stored key. */
  lemma {:induction false} MaxInKeys<A>(t: Tree<A>)
    requires t.Node?
    ensures Max(t).value.key in Keys(t)
  {
    if t.right.Node? {
      MaxInKeys(t.right);
      assert Keys(t) == Keys(t.left) + multiset{t.key} + Keys(t.right);
    }
  }

  /** On an ordered tree every key is at least `Min`'s. */
  lemma {:induction false} OrderedAboveMin<A>(t: Tree<A>)
    requires Ordered(t) && t.Node?
    ensures AllAtLeast(t, Min(t).value.key)
  {
    var m := Min(t).value.key;
    if t.left.Node? {
      OrderedAboveMin(t.left);
      MinInKeys(t.left);
      BelowKey(t.left, t.key, m);
      AllAtLeastMono(t.right, t.key, m);
    }
  }

  /** On an ordered tree every key is at most `Max`'s. */
  lemma {:induction false} OrderedBelowMax<A>(t: Tree<A>)
    requires Ordered(t) && t.Node?
    ensures AllBelow(t, Max(t).value.key + 1)
  {
    var m := Max(t).value.key;
    if t.right.Node? {
      OrderedBelowMax(t.right);
      MaxInKeys(t.right);
      AtLeastKey(t.right, t.key, m);
    }
    AllBelowMono(t.left, t.key, m + 1);
  }

  /** One step from a node to its parent: the parent's key, augmentation and
      other child, and on which side the node hangs. */
  datatype Frame<A> =
    | LeftOf(key: int, right: Tree<A>, aug: A)   // the node is its parent's Left
    | RightOf(left: Tree<A>, key: int, aug: A)   // the node is its parent's Right

  /** The parent rebuilt around a child. */
  function Up<A>(f: Frame<A>, t: Tree<A>): Tree<A>
  {
    match f
    case LeftOf(k, r, a) => Node(t, k, r, a)
    case RightOf(l, k, a) => Node(l, k, t, a)
  }

  /** The whole tree rebuilt from a node and its path to the root (the path
      lists the parent first). */
  function Plug<A>(path: seq<Frame<A>>, t: Tree<A>): Tree<A>
    decreases |path|
  {
    if |path| == 0 then t else Plug(path[1..], Up(path[0], t))
  }

  /** The in-order keys that the ancestors and their other subtrees place
      before the node. */
  function Before<A>(path: seq<Frame<A>>): seq<int>
    decreases |path|
  {
    if |path| == 0 then []
    else match path[0]
      case LeftOf(_, _, _) => Before(path[1..])
      case RightOf(l, k, _) => Before(path[1..]) + InOrder(l) + [k]
  }

  /** The in-order keys that the ancestors and their other subtrees place
      after the node. */
  function After<A>(path: seq<Frame<A>>): seq<int>
    decreases |path|
  {
    if |path| == 0 then []
    else match path[0]
      case LeftOf(k, r, _) => [k] + InOrder(r) + After(path[1..])
      case RightOf(_, _, _) => After(path[1..])
  }

  /** The in-order sequence of the whole tree is the node's own in-order
      sequence with the path's keys around it. */
  lemma {:induction false} PlugInOrder<A>(path: seq<Frame<A>>, t: Tree<A>)
    ensures InOrder(Plug(path, t)) == Before(path) + InOrder(t) + After(path)
    decreases |path|
  {
    if |path| > 0 {
      PlugInOrder(path[1..], Up(path[0], t));
      PlugStep(path, t);
    }
  }

  /** Moving one step up the path keeps the surrounding keys in place. */
  lemma PlugStep<A>(path: seq<Frame<A>>, t: Tree<A>)
    requires |path| > 0
    ensures Before(path[1..]) + InOrder(Up(path[0], t)) + After(path[1..])
         == Before(path) + InOrder(t) + After(path)
  {
    var b, x, a := Before(path[1..]), InOrder(t), After(path[1..]);
    match path[0]
    case LeftOf(k, r, _) =>
      RegroupLeft(b, x, k, InOrder(r), a);
    case RightOf(l, k, _) =>
      RegroupRight(b, InOrder(l), k, x, a);
  }

  lemma RegroupLeft(b: seq<int>, x: seq<int>, k: int, r: seq<int>, a: seq<int>)
    ensures b + (x + [k] + r) + a == b + x + ([k] + r + a)
  {
  }

  lemma RegroupRight(b: seq<int>, l: seq<int>, k: int, x: seq<int>, a: seq<int>)
    ensures b + (l + [k] + x) + a == (b + l + [k]) + x + a
  {
  }

  /** The nearest ancestor reached from a left child, walking up through
      right children. */
  function FirstLeftAncestor<A>(path: seq<Frame<A>>): (r: Option<int>)
    ensures r.None? <==> After(path) == []
    ensures r.Some? ==> r.value == After(path)[0]
    decreases |path|
  {
    if |path| == 0 then None
    else match path[0]
      case LeftOf(k, _, _) => Some(k)
      case RightOf(_, _, _) => FirstLeftAncestor(path[1..])
  }

  /** The nearest ancestor reached from a right child, walking up through
      left children. */
  function FirstRightAncestor<A>(path: seq<Frame<A>>): (r: Option<int>)
    ensures r.None? <==> Before(path) == []
    ensures r.Some? ==> r.value == Before(path)[|Before(path)| - 1]
    decreases |path|
  {
    if |path| == 0 then None
    else match path[0]
      case LeftOf(_, _, _) => FirstRightAncestor(path[1..])
      case RightOf(_, k, _) => Some(k)
  }

  /** `Successor(node)` for the node `t` reached by `path`: the minimum of
      its right subtree if there is one, else the nearest ancestor reached
      from a left child, else none. */
  function Successor<A>(path: seq<Frame<A>>, t: Tree<A>): (r: Option<int>)
    ensures t.Empty? ==> r.None?
    ensures t.Node? ==>
              var ra := InOrder(t.right) + After(path);
              r == (if |ra| > 0 then Some(ra[0]) else None)
  {
    if t.Empty? then None
    else if t.right.Node? then Some(Min(t.right).value.key)
    else FirstLeftAncestor(path)
  }

  /** `Predecessor(node)`: the mirror image of `Successor`. */
  function Predecessor<A>(path: seq<Frame<A>>, t: Tree<A>): (r: Option<int>)
    ensures t.Empty? ==> r.None?
    ensures t.Node? ==>
              var bl := Before(path) + InOrder(t.left);
              r == (if |bl| > 0 then Some(bl[|bl| - 1]) else None)
  {
    if t.Empty? then None
    else
      LastOfConcat(Before(path), InOrder(t.left));
      if t.left.Node? then Some(Max(t.left).value.key)
      else FirstRightAncestor(path)
  }

  /** A node sits in the in-order sequence of the whole tree right after
      the keys its path places before it and its own left subtree. */
  lemma NodeInOrderIndex<A>(path: seq<Frame<A>>, t: Tree<A>)
    requires t.Node?
    ensures var s, i := InOrder(Plug(path, t)), |Before(path)| + |InOrder(t.left)|;
            && s == (Before(path) + InOrder(t.left)) + [t.key] + (InOrder(t.right) + After(path))
            && i < |s| && s[i] == t.key
  {
    PlugInOrder(path, t);
    Regroup(Before(path), InOrder(t.left), t.key, InOrder(t.right), After(path));
  }

  lemma Regroup(b: seq<int>, l: seq<int>, k: int, r: seq<int>, a: seq<int>)
    ensures b + (l + [k] + r) + a == (b + l) + [k] + (r + a)
    ensures ((b + l) + [k] + (r + a))[|b + l|] == k
  {
  }

  /** The successor is the key that follows the node in the in-order
      sequence of the whole tree; there is none after the last key. */
  lemma SuccessorIsNextInOrder<A>(path: seq<Frame<A>>, t: Tree<A>)
    requires t.Node?
    ensures var s, i := InOrder(Plug(path, t)), |Before(path)| + |InOrder(t.left)|;
            && i < |s| && s[i] == t.key
            && Successor(path, t) == (if i + 1 < |s| then Some(s[i + 1]) else None)
  {
    NodeInOrderIndex(path, t);
  }

  /** The predecessor is the key that precedes the node in the in-order
      sequence of the whole tree; there is none before the first key. */
  lemma PredecessorIsPreviousInOrder<A>(path: seq<Frame<A>>, t: Tree<A>)
    requires t.Node?
    ensures var s, i := InOrder(Plug(path, t)), |Before(path)| + |InOrder(t.left)|;
            && i < |s| && s[i] == t.key
            && Predecessor(path, t) == (if i > 0 then Some(s[i - 1]) else None)
  {
    NodeInOrderIndex(path, t);
  }

  lemma LastOfConcat(b: seq<int>, l: seq<int>)
    ensures |l| > 0 ==> (b + l)[|b + l| - 1] == l[|l| - 1]
    ensures |l| == 0 ==> b + l == b
  {
  }

  // ---------------------------------------------------------------------
  // Root-to-node paths

  /** `p` lists the keys met going down from the root of `t` along child
      links. */
  ghost predicate IsKeyPath<A>(t: Tree<A>, p: seq<int>)
    decreases t
  {
    && |p| > 0 && t.Node? && p[0] == t.key
    && (|p| == 1 || IsKeyPath(t.left, p[1..]) || IsKeyPath(t.right, p[1..]))
  }

  /** `r` is the accumulated `path` followed by a key path of `t` that ends
      at the target. */
  ghost predicate FoundBelow<A>(r: seq<int>, path: seq<int>, t: Tree<A>, target: int)
  {
    |path| < |r| && r[..|path|] == path && IsKeyPath(t, r[|path|..]) && r[|r| - 1] == target
  }

  /** `DFSRec`: depth first, self before left before right; the path
      accumulated so far is extended by every node left on the way down.
      An absent node hands back the accumulated path, a subtree without the
      target hands back an empty one. */
  function DfsRec<A>(target: int, t: Tree<A>, path: seq<int>): (r: seq<int>)
    requires target !in path
    ensures target in Keys(t) ==> FoundBelow(r, path, t, target) && target in r
    ensures target in Keys(t) ==> target !in r[..|r| - 1]
    ensures target !in Keys(t) ==> target !in r && (r == [] || (r == path && t.Empty?))
  {
    match t
    case Empty => path
    case Node(l, k, rt, _) =>
      if k == target then
        var r := path + [k];
        assert r[|path|..] == [k] && r[..|r| - 1] == path;
        r
      else
        var lp := DfsRec(target, l, path + [k]);
        if target in lp then
          KeyPathExtend(t, path, lp, true);
          lp
        else
          var rp := DfsRec(target, rt, path + [k]);
          if target in rp then
            KeyPathExtend(t, path, rp, false);
            rp
          else
            []
  }

  /** A key path of a child, found below the accumulated path extended by
      the parent's key, is a key path of the parent below the accumulated
      path. */
  lemma KeyPathExtend<A>(t: Tree<A>, path: seq<int>, p: seq<int>, goLeft: bool)
    requires t.Node?
    requires |path| + 1 < |p| && p[..|path| + 1] == path + [t.key]
    requires IsKeyPath(if goLeft then t.left else t.right, p[|path| + 1..])
    ensures p[..|path|] == path && IsKeyPath(t, p[|path|..])
    ensures p[|p| - 1] == p[|path| + 1..][|p| - |path| - 2]
  {
    assert p[..|path|] == p[..|path| + 1][..|path|];
    assert p[|path|..][1..] == p[|path| + 1..];
    assert p[|path|..][0] == p[..|path| + 1][|path|];
  }

  /** `DFS(target)`: the keys from the root down to a node equal to the
      target, or empty when there is none. */
  function Dfs<A>(t: Tree<A>, target: int): (r: seq<int>)
    ensures r == [] <==> target !in Keys(t)
    ensures r != [] ==> IsKeyPath(t, r) && r[|r| - 1] == target
    ensures r != [] ==> target !in r[..|r| - 1]
  {
    var r := DfsRec(target, t, []);
    assert r[..0] == [] && r[0..] == r;
    r
  }

  /** The search predicate `k => k == target`. */
  function IsKey(target: int): int -> bool
  {
    k => k == target
  }

  /** A path found below an accumulated prefix is that prefix followed by
      the path found from scratch. */
  lemma {:induction false} DfsRecPrefix<A>(target: int, t: Tree<A>, path: seq<int>)
    requires target !in path && target in Keys(t)
    ensures DfsRec(target, t, path) == path + DfsRec(target, t, [])
    decreases t
  {
    match t
    case Node(l, k, rt, _) =>
      if k == target {
        assert DfsRec(target, t, []) == [] + [k];
      } else if target in Keys(l) {
        var lp := DfsRec(target, l, path + [k]);
        assert [] + [k] == [k];
        var lq := DfsRec(target, l, [k]);
        assert target in lp && target in lq;
        assert DfsRec(target, t, path) == lp && DfsRec(target, t, []) == lq;
        DfsRecPrefix(target, l, path + [k]);
        DfsRecPrefix(target, l, [k]);
        ConcatAssoc(path, [k], DfsRec(target, l, []));
        assert DfsRec(target, t, path) == path + DfsRec(target, t, []);
      } else {
        var lp := DfsRec(target, l, path + [k]);
        assert [] + [k] == [k];
        var lq := DfsRec(target, l, [k]);
        assert target !in lp && target !in lq;
        var rp := DfsRec(target, rt, path + [k]);
        var rq := DfsRec(target, rt, [k]);
        assert target in rp && target in rq;
        assert DfsRec(target, t, path) == rp && DfsRec(target, t, []) == rq;
        DfsRecPrefix(target, rt, path + [k]);
        DfsRecPrefix(target, rt, [k]);
        ConcatAssoc(path, [k], DfsRec(target, rt, []));
        assert DfsRec(target, t, path) == path + DfsRec(target, t, []);
      }
  }

  /** `DFS(target)` and `Find(k => k == target)` take the same turns: both
      stop at a node holding the target, and otherwise try the left subtree
      first and the right subtree only when the left one has no match. So
      the path `DFS` returns leads to the first pre-order node holding the
      target, the node `Find` returns. */
  lemma DfsFollowsFind<A>(t: Tree<A>, target: int)
    ensures Dfs(t, target) == [] <==> Find(IsKey(target), t).None?
    ensures t.Node? && t.key == target ==>
              Dfs(t, target) == [t.key] && Find(IsKey(target), t) == Some(t)
    ensures t.Node? && t.key != target && target in Keys(t.left) ==>
              && Dfs(t, target) == [t.key] + Dfs(t.left, target)
              && Find(IsKey(target), t) == Find(IsKey(target), t.left)
    ensures t.Node? && t.key != target && target !in Keys(t.left) ==>
              && Dfs(t, target) == (if target in Keys(t.right) then [t.key] + Dfs(t.right, target) else [])
              && Find(IsKey(target), t) == Find(IsKey(target), t.right)
  {
    FindNoneIffAbsent(target, t);
    if t.Empty? {
    } else if t.key == target {
      assert Dfs(t, target) == [] + [t.key];
    } else {
      FindNoneIffAbsent(target, t.left);
      assert [] + [t.key] == [t.key];
      var lp := DfsRec(target, t.left, [t.key]);
      if target in Keys(t.left) {
        assert target in lp;
        DfsRecPrefix(target, t.left, [t.key]);
        assert Dfs(t, target) == lp;
      } else {
        assert target !in lp;
        var rp := DfsRec(target, t.right, [t.key]);
        assert Dfs(t, target) == if target in rp then rp else [];
        if target in Keys(t.right) {
          DfsRecPrefix(target, t.right, [t.key]);
        }
      }
    }
  }

  /** `Find(k => k == target)` finds nothing exactly when the target is
      absent. */
  lemma {:induction false} FindNoneIffAbsent<A>(target: int, t: Tree<A>)
    ensures Find(IsKey(target), t).None? <==> target !in Keys(t)
  {
    match t
    case Empty =>
    case Node(l, k, r, _) =>
      FindNoneIffAbsent(target, l);
      FindNoneIffAbsent(target, r);
  }

  // ---------------------------------------------------------------------
  // Whole-tree queries

  /** `IsEmpty`: no root. */
  function IsEmpty<A>(t: Tree<A>): (r: bool)
    ensures r <==> Keys(t) == multiset{}
  {
    t.Empty?
  }

  /** `Clear`: the root becomes absent. */
  function Clear<A>(t: Tree<A>): (r: Tree<A>)
    ensures IsEmpty(r) && Count(r) == 0 && forall o :: Traverse(r, o) == []
  {
    Empty
  }

  /** A tree is empty exactly when it has no keys to traverse. */
  lemma EmptyIffNoKeys<A>(t: Tree<A>, order: TraversalType)
    ensures IsEmpty(t) <==> Count(t) == 0
    ensures IsEmpty(t) <==> Traverse(t, order) == []
  {
  }
}

=== FILE: nodes.dfy ===
/** The node model shared by the three trees (SharpStructures/Trees/Utilities/TreeStructures.cs).

    A C# node holds a value, a left and a right child, a parent link and a
    `NodeType`; AVL nodes add a balance factor and Red-Black nodes keep their
    colour in the `NodeType` field. Here a node is the root of an immutable
    `Tree<A>`, where `A` is the per-variant augmentation:
      - `()` for the plain binary search tree,
      - `int` (the balance factor) for the AVL tree,
      - `Color` for the Red-Black tree.
    `Empty` stands both for a C# `null` child and for the shared Red-Black
    `NIL` sentinel: the engine never looks inside `NIL` other than through
    its `NodeType.Null`, which makes it behave exactly like an absent child.
    Parent links are not represented; upward walks are modelled elsewhere by
    recursion or by an explicit path (see DefaultTree).
 */
module Nodes {
  import opened Wrappers

  /** Node kinds: plain and AVL nodes are `Ordinary` (the C# `None`, renamed
      here because `None` is the empty `Option`), the sentinel is `Null`,
      Red-Black nodes are `Black` or `Red`. */
  datatype NodeType = Ordinary | Null | Black | Red

  /** The traversal order used by `Traverse`, `GetIndexValue` and `GetRange`
      (the C# `InOrder`, `PreOrder` and `PostOrder`, renamed here so that
      the names stay free for the traversal functions). */
  datatype TraversalType = InOrderTraversal | PreOrderTraversal | PostOrderTraversal

  /** The two node types a real Red-Black node can carry. */
  type Color = c: NodeType | c == Black || c == Red witness Black

  /** A binary tree of int keys with augmentation `aug` on every node. */
  datatype Tree<A> = Empty | Node(left: Tree<A>, key: int, right: Tree<A>, aug: A)

  /** The child indexer `node[index]`: 0 is Left, 1 is Right, anything else
      throws IndexOutOfRangeException. */
  function Child<A>(t: Tree<A>, index: int): (r: Result<Tree<A>>)
    requires t.Node?
    ensures r.Ok? <==> index == 0 || index == 1
    ensures r.Err? ==> r.error == IndexOutOfRange
    ensures r.Ok? ==> r.value < t
    ensures index == 0 ==> r == Ok(t.left)
    ensures index == 1 ==> r == Ok(t.right)
  {
    if index == 0 then Ok(t.left)
    else if index == 1 then Ok(t.right)
    else Err(IndexOutOfRange)
  }

  /** The indexer setter `node[index] = c`. */
  function SetChild<A>(t: Tree<A>, index: int, c: Tree<A>): (r: Result<Tree<A>>)
    requires t.Node?
    ensures r.Ok? <==> index == 0 || index == 1
    ensures r.Err? ==> r.error == IndexOutOfRange
    ensures r.Ok? ==> r.value.Node? && r.value.key == t.key && r.value.aug == t.aug
    ensures index == 0 ==> r == Ok(Node(c, t.key, t.right, t.aug))
    ensures index == 1 ==> r == Ok(Node(t.left, t.key, c, t.aug))
  {
    if index == 0 then Ok(Node(c, t.key, t.right, t.aug))
    else if index == 1 then Ok(Node(t.left, t.key, c, t.aug))
    else Err(IndexOutOfRange)
  }

  /** Writing a child through the indexer and reading it back yields the
      written child, and leaves the other child as it was. */
  lemma SetThenGetChild<A>(t: Tree<A>, index: int, c: Tree<A>)
    requires t.Node? && (index == 0 || index == 1)
    ensures SetChild(t, index, c).Ok?
    ensures Child(SetChild(t, index, c).value, index) == Ok(c)
    ensures Child(SetChild(t, index, c).value, 1 - index) == Child(t, 1 - index)
  {
  }

  /** `IsLeaf`: each child is absent or the sentinel. */
  predicate IsLeaf<A>(t: Tree<A>)
    requires t.Node?
  {
    t.left.Empty? && t.right.Empty?
  }

  /** The implicit conversion of a node to `bool`: false exactly for `null`
      and for a node of type `Null` (the sentinel), both of which are `Empty`
      here. */
  predicate Truthy<A>(t: Tree<A>)
  {
    t.Node?
  }

  /** The `NodeType` of a Red-Black child slot: the sentinel is `Null`, a
      real node reports its colour. */
  function RbNodeType(t: Tree<Color>): (r: NodeType)
    ensures r == Null <==> !Truthy(t)
    ensures Truthy(t) ==> r == Black || r == Red
  {
    if t.Empty? then Null else t.aug
  }

  /** A freshly constructed Red-Black node: `Type` is `Black`, both
      children absent. */
  function NewRbNode(key: int): (r: Tree<Color>)
    ensures Truthy(r) && IsLeaf(r) && r.key == key
    ensures RbNodeType(r) == Black
  {
    Node(Empty, key, Empty, Black)
  }
}

=== FILE: rb_links.dfy ===
/** The parent links of the Red-Black tree's rotation
    (`RotateDirRoot`, SharpStructures/Trees/RedBlackTree.cs:519-538).

    The rest of the model works on immutable trees, which have no parent
    links. Here the nodes live in a heap, a sequence of cells addressed by
    reference, so that the rotation's pointer writes can be followed one by
    one. Reference `NullRef` is C#'s `null`, reference `NilRef` is the
    shared `NIL` sentinel, and every other reference is a real node.
 */
module RedBlackLinks {
  import opened Wrappers
  import opened Nodes

  /** C#'s `null`. */
  const NullRef: int := -1

  /** The shared `NIL` sentinel, stored in cell 0. */
  const NilRef: int := 0

  /** One `RBTNode`: its key, its two child references, its parent
      reference and its `Type`. */
  datatype Cell = Cell(key: int, left: int, right: int, parent: int, kind: NodeType)

  type Heap = seq<Cell>

  /** The heap after a rotation, and the tree's `Root` reference. */
  datatype Linked = Linked(heap: Heap, root: int)

  /** A reference that is `null`, the sentinel or a cell of the heap. */
  predicate InHeap(h: Heap, x: int)
  {
    NullRef <= x < |h|
  }

  /** Every reference stored in the heap points into it. */
  predicate Closed(h: Heap)
  {
    && |h| > 0
    && forall i :: 0 <= i < |h| ==>
         InHeap(h, h[i].left) && InHeap(h, h[i].right) && InHeap(h, h[i].parent)
  }

  /** A real node: neither `null` nor the sentinel. */
  predicate IsReal(h: Heap, x: int)
  {
    NilRef < x < |h|
  }

  /** The child indexer `node[index]` on a cell. */
  function Slot(c: Cell, dir: int): (x: int)
    requires dir == 0 || dir == 1
    ensures x == (if dir == 0 then c.left else c.right)
  {
    if dir == 0 then c.left else c.right
  }

  /** The indexer setter `node[index] = x` on a cell; the other fields keep
      their values. */
  function SetSlot(c: Cell, dir: int, x: int): (r: Cell)
    requires dir == 0 || dir == 1
    ensures Slot(r, dir) == x && Slot(r, 1 - dir) == Slot(c, 1 - dir)
    ensures r.key == c.key && r.parent == c.parent && r.kind == c.kind
  {
    if dir == 0 then c.(left := x) else c.(right := x)
  }

  /** `RotateDirRoot(p, dir)` on the heap. The child `s = p[1 - dir]` moves
      above `p`, its inner child `c = s[dir]` moves over to `p`, and `s`
      takes `p`'s place under `p`'s old parent `g` (or as `Root`).
      `relinkReal` selects which `c` gets its parent link set to `p`: a
      real one (the intent) or, as the source's guard is written, only the
      sentinel. */
  function RotateWith(h: Heap, root: int, p: int, dir: int, relinkReal: bool): (r: Result<Linked>)
    requires Closed(h) && IsReal(h, p)
    ensures r.Ok? ==> |r.value.heap| == |h|
    ensures r.Err? ==> r.error in {IndexOutOfRange, NullReference, InvalidOperation}
  {
    if !(dir == 0 || dir == 1) then Err(IndexOutOfRange)
    else
      var g := h[p].parent;
      var s := Slot(h[p], 1 - dir);
      if s == NullRef then Err(NullReference)
      else if s == NilRef then Err(InvalidOperation)
      else
        var c := Slot(h[s], dir);
        var h1 := h[p := SetSlot(h[p], 1 - dir, c)];
        if c == NullRef then Err(NullReference)
        else
          var h2 := if (c == NilRef) != relinkReal then h1[c := h1[c].(parent := p)] else h1;
          var h3 := h2[s := SetSlot(h2[s], dir, p)];
          var h4 := h3[p := h3[p].(parent := s)];
          var h5 := h4[s := h4[s].(parent := g)];
          if g == NullRef then Ok(Linked(h5, s))
          else
            var gd := if p == h5[g].right then 1 else 0;
            Ok(Linked(h5[g := SetSlot(h5[g], gd, s)], root))
  }

  /** The rotation as written: the parent link of the moved child is only
      written when that child is the sentinel. */
  function RotateAsWritten(h: Heap, root: int, p: int, dir: int): (r: Result<Linked>)
    requires Closed(h) && IsReal(h, p)
    ensures r.Ok? <==> (dir == 0 || dir == 1) && IsReal(h, Slot(h[p], 1 - dir))
                       && Slot(h[Slot(h[p], 1 - dir)], dir) != NullRef
    ensures r.Ok? ==> |r.value.heap| == |h|
  {
    RotateWith(h, root, p, dir, false)
  }

  /** The rotation with the guard the code evidently intends: a real moved
      child gets `p` as its new parent. */
  function Rotate(h: Heap, root: int, p: int, dir: int): (r: Result<Linked>)
    requires Closed(h) && IsReal(h, p)
    ensures r.Ok? <==> (dir == 0 || dir == 1) && IsReal(h, Slot(h[p], 1 - dir))
                       && Slot(h[Slot(h[p], 1 - dir)], dir) != NullRef
    ensures r.Ok? ==> |r.value.heap| == |h|
  {
    RotateWith(h, root, p, dir, true)
  }

  /** The nodes a rotation looks at are pairwise distinct, as in any tree:
      `p`, its parent `g`, its children `s = p[1 - dir]` and `q = p[dir]`,
      and `s`'s children `c = s[dir]` and `e = s[1 - dir]`, each where it is
      real; `g` is not the sentinel; and `p` fills at most one of `g`'s
      slots. */
  predicate Separate(h: Heap, p: int, dir: int)
    requires Closed(h) && IsReal(h, p) && (dir == 0 || dir == 1)
  {
    var g, s, q := h[p].parent, Slot(h[p], 1 - dir), Slot(h[p], dir);
    && IsReal(h, s) && s != p && g != NilRef
    && var c, e := Slot(h[s], dir), Slot(h[s], 1 - dir);
    && (IsReal(h, g) ==> g !in {p, s, q, c, e} && !(Slot(h[g], 0) == p && Slot(h[g], 1) == p))
    && (IsReal(h, q) ==> q !in {p, s, c, e})
    && (IsReal(h, c) ==> c !in {p, s, e})
    && (IsReal(h, e) ==> e !in {p, s})
  }

  /** Every link the corrected rotation rewrites is written at both ends:
      `s` sits in `p`'s old place, under `g` or as `Root`, with `s.Parent`
      naming `g`; `p` is `s`'s child `dir` and names `s` as its parent; and
      the moved child `c` is `p`'s child `1 - dir` and, when real, names `p`
      as its parent. */
  lemma RotateRelinks(h: Heap, root: int, p: int, dir: int)
    requires Closed(h) && IsReal(h, p) && (dir == 0 || dir == 1)
    requires Separate(h, p, dir) && Slot(h[Slot(h[p], 1 - dir)], dir) != NullRef
    requires IsReal(h, h[p].parent) ==> Slot(h[h[p].parent], 0) == p || Slot(h[h[p].parent], 1) == p
    ensures var s, c, g := Slot(h[p], 1 - dir), Slot(h[Slot(h[p], 1 - dir)], dir), h[p].parent;
            && Rotate(h, root, p, dir).Ok?
            && var h' := Rotate(h, root, p, dir).value.heap;
            && h'[s].parent == g && Slot(h'[s], dir) == p
            && h'[p].parent == s && Slot(h'[p], 1 - dir) == c
            && (IsReal(h, c) ==> h'[c].parent == p)
            && (g == NullRef ==> Rotate(h, root, p, dir).value.root == s)
            && (IsReal(h, g) ==> (Slot(h'[g], 0) == s || Slot(h'[g], 1) == s))
  {
  }

  /** Every real child names its parent. */
  ghost predicate ParentLinked(h: Heap)
    requires Closed(h)
  {
    forall i, d :: 0 < i < |h| && (d == 0 || d == 1) && IsReal(h, Slot(h[i], d)) ==>
      h[Slot(h[i], d)].parent == i
  }

  /** `h2` holds the cells of `h` after a rotation at `p`: `p`, `s`, the
      moved child `c` and `g` are rewritten as the rotation says, every
      other cell is kept. */
  predicate Rotated(h: Heap, h2: Heap, p: int, dir: int)
    requires Closed(h) && IsReal(h, p) && (dir == 0 || dir == 1) && Separate(h, p, dir)
  {
    var g, s := h[p].parent, Slot(h[p], 1 - dir);
    var c := Slot(h[s], dir);
    && |h2| == |h|
    && h2[p] == SetSlot(h[p], 1 - dir, c).(parent := s)
    && h2[s] == SetSlot(h[s], dir, p).(parent := g)
    && (IsReal(h, c) ==> h2[c] == h[c].(parent := p))
    && (IsReal(h, g) ==> h2[g] == SetSlot(h[g], if p == h[g].right then 1 else 0, s))
    && forall x ::
         (0 <= x < |h| && x != p && x != s && !(IsReal(h, c) && x == c) && !(IsReal(h, g) && x == g))
         ==> h2[x] == h[x]
  }

  /** The corrected rotation rewrites exactly those cells. */
  lemma RotateCells(h: Heap, root: int, p: int, dir: int)
    requires Closed(h) && IsReal(h, p) && (dir == 0 || dir == 1)
    requires Separate(h, p, dir) && Slot(h[Slot(h[p], 1 - dir)], dir) != NullRef
    ensures Rotate(h, root, p, dir).Ok?
    ensures Rotated(h, Rotate(h, root, p, dir).value.heap, p, dir)
  {
  }

  /** Rewriting those cells stores only references into the heap. */
  lemma RotatedClosed(h: Heap, h2: Heap, p: int, dir: int)
    requires Closed(h) && IsReal(h, p) && (dir == 0 || dir == 1) && Separate(h, p, dir)
    requires Slot(h[Slot(h[p], 1 - dir)], dir) != NullRef
    requires Rotated(h, h2, p, dir)
    ensures Closed(h2)
  {
    var g, s := h[p].parent, Slot(h[p], 1 - dir);
    var c := Slot(h[s], dir);
    forall x | 0 <= x < |h2|
      ensures InHeap(h2, h2[x].left) && InHeap(h2, h2[x].right) && InHeap(h2, h2[x].parent)
    {
      assert InHeap(h, h[x].left) && InHeap(h, h[x].right) && InHeap(h, h[x].parent);
      assert h2[x].left == Slot(h2[x], 0) && h2[x].right == Slot(h2[x], 1);
      assert h[x].left == Slot(h[x], 0) && h[x].right == Slot(h[x], 1);
      if x != p && x != s && !(IsReal(h, c) && x == c) && !(IsReal(h, g) && x == g) {
        assert h2[x] == h[x];
      }
    }
  }

  /** After the rewrite, one real child names its parent. */
  lemma RotatedLink(h: Heap, h2: Heap, p: int, dir: int, i: int, d: int)
    requires Closed(h) && IsReal(h, p) && (dir == 0 || dir == 1) && Separate(h, p, dir)
    requires Slot(h[Slot(h[p], 1 - dir)], dir) != NullRef
    requires Rotated(h, h2, p, dir) && ParentLinked(h)
    requires 0 < i < |h2| && (d == 0 || d == 1) && IsReal(h2, Slot(h2[i], d))
    ensures h2[Slot(h2[i], d)].parent == i
  {
    var g, s := h[p].parent, Slot(h[p], 1 - dir);
    var c := Slot(h[s], dir);
    var y := Slot(h2[i], d);
    if i == p {
      if d == dir {
        assert h[y].parent == p;
        assert y !in {p, s, c, g};
      }
    } else if i == s {
      if d != dir {
        assert h[y].parent == s;
        assert y !in {p, s, c, g};
      }
    } else if IsReal(h, g) && i == g {
      if y != s {
        assert y == Slot(h[g], d);
        assert h[y].parent == g;
      }
    } else {
      assert Slot(h2[i], d) == Slot(h[i], d);
      assert h[y].parent == i;
    }
  }

  /** The corrected rotation keeps every real child naming its parent. */
  lemma RotateKeepsParentLinked(h: Heap, root: int, p: int, dir: int)
    requires Closed(h) && IsReal(h, p) && (dir == 0 || dir == 1)
    requires Separate(h, p, dir) && Slot(h[Slot(h[p], 1 - dir)], dir) != NullRef
    requires ParentLinked(h)
    ensures Rotate(h, root, p, dir).Ok?
    ensures Closed(Rotate(h, root, p, dir).value.heap)
    ensures ParentLinked(Rotate(h, root, p, dir).value.heap)
  {
    RotateCells(h, root, p, dir);
    var h2 := Rotate(h, root, p, dir).value.heap;
    RotatedClosed(h, h2, p, dir);
    forall i, d | 0 < i < |h2| && (d == 0 || d == 1) && IsReal(h2, Slot(h2[i], d))
      ensures h2[Slot(h2[i], d)].parent == i
    {
      RotatedLink(h, h2, p, dir, i, d);
    }
  }

  /** As written, a rotation from a parent-linked heap whose moved child
      `c` is real leaves `c` naming `s` as its parent although it now hangs
      under `p`: the links no longer match the children. */
  lemma RotateAsWrittenBreaksParentLinked(h: Heap, root: int, p: int, dir: int)
    requires Closed(h) && IsReal(h, p) && (dir == 0 || dir == 1)
    requires Separate(h, p, dir) && IsReal(h, Slot(h[Slot(h[p], 1 - dir)], dir))
    requires ParentLinked(h)
    ensures RotateAsWritten(h, root, p, dir).Ok?
    ensures var h2 := RotateAsWritten(h, root, p, dir).value.heap;
            var s := Slot(h[p], 1 - dir);
            var c := Slot(h[s], dir);
            && Closed(h2) && Slot(h2[p], 1 - dir) == c && h2[c].parent == s && s != p
            && !ParentLinked(h2)
  {
    var s := Slot(h[p], 1 - dir);
    var c := Slot(h[s], dir);
    RotateCells(h, root, p, dir);
    var fixed := Rotate(h, root, p, dir).value.heap;
    RotatedClosed(h, fixed, p, dir);
    assert h[c].parent == s;
    AsWrittenIsStale(h, root, p, dir);
    var h2 := RotateAsWritten(h, root, p, dir).value.heap;
    RelinkClosed(fixed, c, s);
    assert Slot(h2[p], 1 - dir) == c && h2[c].parent != p;
  }

  /** The rotation as written differs from the corrected one only in the
      moved child's parent link, which keeps its old value. */
  lemma AsWrittenIsStale(h: Heap, root: int, p: int, dir: int)
    requires Closed(h) && IsReal(h, p) && (dir == 0 || dir == 1)
    requires Separate(h, p, dir) && IsReal(h, Slot(h[Slot(h[p], 1 - dir)], dir))
    ensures var s := Slot(h[p], 1 - dir);
            var c := Slot(h[s], dir);
            && RotateAsWritten(h, root, p, dir).Ok? && Rotate(h, root, p, dir).Ok?
            && var fixed := Rotate(h, root, p, dir).value.heap;
            && RotateAsWritten(h, root, p, dir).value.heap == fixed[c := fixed[c].(parent := h[c].parent)]
  {
  }

  /** Rewriting one cell's parent link with a reference into the heap keeps
      the heap closed. */
  lemma RelinkClosed(h: Heap, c: int, x: int)
    requires Closed(h) && 0 <= c < |h| && InHeap(h, x)
    ensures Closed(h[c := h[c].(parent := x)])
  {
    var h2 := h[c := h[c].(parent := x)];
    forall i | 0 <= i < |h2|
      ensures InHeap(h2, h2[i].left) && InHeap(h2, h2[i].right) && InHeap(h2, h2[i].parent)
    {
      assert InHeap(h, h[i].left) && InHeap(h, h[i].right) && InHeap(h, h[i].parent);
    }
  }

  /** Root 10 with right child 20, whose left child is 15: a left rotation
      at 10 as written leaves 15 under 10 still naming 20 as its parent,
      so the parent links no longer match the children; the corrected
      rotation keeps them matched. */
  lemma RotateLeftScenario()
    ensures var h := [Cell(0, NullRef, NullRef, NullRef, Null),
                      Cell(10, NilRef, 2, NullRef, Black),
                      Cell(20, 3, NilRef, 1, Red),
                      Cell(15, NilRef, NilRef, 2, Black)];
            && Closed(h) && ParentLinked(h)
            && RotateAsWritten(h, 1, 1, 0).Ok? && Rotate(h, 1, 1, 0).Ok?
            && var stale := RotateAsWritten(h, 1, 1, 0).value;
            && var fixed := Rotate(h, 1, 1, 0).value;
            && stale.root == 2 && fixed.root == 2
            && Closed(stale.heap) && !ParentLinked(stale.heap)
            && Closed(fixed.heap) && ParentLinked(fixed.heap)
  {
    var h := [Cell(0, NullRef, NullRef, NullRef, Null),
              Cell(10, NilRef, 2, NullRef, Black),
              Cell(20, 3, NilRef, 1, Red),
              Cell(15, NilRef, NilRef, 2, Black)];
    var stale := RotateAsWritten(h, 1, 1, 0).value;
    var fixed := Rotate(h, 1, 1, 0).value;
    assert stale.heap == [h[0], Cell(10, NilRef, 3, 2, Black), Cell(20, 1, NilRef, NullRef, Red), h[3]];
    assert fixed.heap == [h[0], Cell(10, NilRef, 3, 2, Black), Cell(20, 1, NilRef, NullRef, Red),
                          Cell(15, NilRef, NilRef, 1, Black)];
    assert Slot(stale.heap[1], 1) == 3 && stale.heap[3].parent == 2;
  }
}

=== FILE: red_black_tree.dfy ===
/** The Red-Black tree (SharpStructures/Trees/RedBlackTree.cs).

    A node's augmentation is its colour. `Add` is the plain binary-search
    tree insert (walking down to the sentinel, duplicates to the right) of
    a Red node, followed by the fix-up loop `RBTInsert`, which walks up from
    the new node recolouring and rotating.

    As for the AVL tree, the upward loop is the return path of a descent:
    each level hands its parent the rebuilt subtree and a `Status` saying
    what the loop still has to look at there. Rotations go through the
    child indexer exactly as `RotateDirRoot` does. The source's removal
    has an empty body and has no counterpart here.
 */
module RedBlackTree {
  import opened Wrappers
  import opened Seqs
  import opened Nodes
  import opened TreeHelper
  import opened DefaultTree
  import BinarySearchTree

  // ---------------------------------------------------------------------
  // Directions and rotation

  /** `ChildDir`: -1 for the root, otherwise the indexer slot (0 left,
      1 right) under which the node hangs from its parent, read off the
      path to the root. */
  function ChildDir(path: seq<Frame<Color>>): (d: int)
    ensures d == -1 <==> |path| == 0
    ensures -1 <= d <= 1
  {
    if |path| == 0 then -1
    else if path[0].RightOf? then 1
    else 0
  }

  /** Reading the parent's child slot `ChildDir` gives back the node. */
  lemma ChildDirReadsBack(path: seq<Frame<Color>>, n: Tree<Color>)
    requires |path| > 0
    ensures Child(Up(path[0], n), ChildDir(path)) == Ok(n)
  {
  }

  /** `RotateDirRoot(p, dir)`: the child `s = p[1 - dir]` is lifted above
      `p`, `p` takes over `s[dir]` as its child `1 - dir` and becomes
      `s[dir]`. A missing `s` throws InvalidOperationException; a direction
      other than 0 or 1 makes the indexer throw. The result is the new
      subtree root, which the caller hangs where `p` was. */
  function RotateDirRoot(p: Tree<Color>, dir: int): (r: Result<Tree<Color>>)
    requires p.Node?
    ensures r.Ok? <==> (dir == 0 || dir == 1) && Child(p, 1 - dir).value.Node?
    ensures r.Err? ==> r.error == (if dir == 0 || dir == 1 then InvalidOperation else IndexOutOfRange)
    ensures r.Ok? ==> r.value.Node? && r.value.key == Child(p, 1 - dir).value.key
    ensures r.Ok? ==> Child(r.value, dir).value.Node? && Child(r.value, dir).value.key == p.key
  {
    var s :- Child(p, 1 - dir);
    if s.Empty? then Err(InvalidOperation)
    else
      var c := Child(s, dir).value;
      var p' := SetChild(p, 1 - dir, c).value;
      SetChild(s, dir, p')
  }

  /** A rotation keeps the in-order sequence, and rotating the result the
      other way gives back the original subtree. */
  lemma RotateDirRootInverse(p: Tree<Color>, dir: int)
    requires p.Node?
    ensures var r := RotateDirRoot(p, dir);
            r.Ok? ==> InOrder(r.value) == InOrder(p) && RotateDirRoot(r.value, 1 - dir) == Ok(p)
  {
    if RotateDirRoot(p, dir).Ok? {
      var s := Child(p, 1 - dir).value;
      if dir == 0 {
        RotateRegroup(InOrder(p.left), p.key, InOrder(s.left), s.key, InOrder(s.right));
      } else {
        RotateRegroup(InOrder(s.left), s.key, InOrder(s.right), p.key, InOrder(p.right));
      }
    }
  }

  /** The same node with another colour. */
  function Paint(t: Tree<Color>, c: Color): (r: Tree<Color>)
    requires t.Node?
    ensures r.Node? && r.aug == c && InOrder(r) == InOrder(t)
    ensures r.left == t.left && r.key == t.key && r.right == t.right
  {
    Node(t.left, t.key, t.right, c)
  }

  // ---------------------------------------------------------------------
  // Insertion

  /** What the fix-up loop still has to look at above a rebuilt subtree:
      - `Balanced`: nothing, the loop has ended;
      - `RedNode`: the subtree's root is a Red node `n` whose parent the
        loop examines next;
      - `RedPair(dir)`: the subtree's root `p` is Red and so is its child
        `n = p[dir]`; the loop goes on at `p`'s parent `g`. */
  datatype Status = Balanced | RedNode | RedPair(dir: int)

  /** A rebuilt subtree, the loop's status above it, and how many rotations
      rebuilding it took. */
  datatype Fix = Fix(tree: Tree<Color>, status: Status, rotations: nat)

  /** The status is consistent with the subtree's shape. */
  predicate WellFormed(f: Fix)
  {
    && f.tree.Node?
    && (f.status.RedPair? ==>
          && (f.status.dir == 0 || f.status.dir == 1)
          && Child(f.tree, f.status.dir).value.Node?)
    && (f.status != Balanced ==> f.rotations == 0)
    && f.rotations <= 2
  }

  /** One iteration of the `RBTInsert` loop at the node `g`, whose child
      `g[dir]` has just been rebuilt with status `s`:
      - Case 1: a Red node under a Black parent ends the loop;
      - a Red node under a Red parent hands the pair up to the grandparent
        (Case 4, a Red root, is dealt with by the caller);
      - Cases 5/6: with the uncle `g[1 - dir]` missing or Black, an inner
        child is first rotated up over its parent, then `g` is rotated the
        other way; the lifted node turns Black, `g` Red, and the loop ends;
      - Case 2: with a Red uncle, parent and uncle turn Black and `g` Red,
        and the loop goes on from `g`. */
  function Climb(g: Tree<Color>, dir: int, s: Status, rotations: nat): (f: Fix)
    requires g.Node? && (dir == 0 || dir == 1) && rotations <= 2
    requires WellFormed(Fix(Child(g, dir).value, s, rotations))
    ensures WellFormed(f)
    ensures InOrder(f.tree) == InOrder(g)
  {
    match s
    case Balanced => Fix(g, Balanced, rotations)
    case RedNode =>
      if g.aug == Black then Fix(g, Balanced, 0)
      else Fix(g, RedPair(dir), 0)
    case RedPair(d) =>
      var p := Child(g, dir).value;
      var u := Child(g, 1 - dir).value;
      if !IsRed(u) then
        if d == 1 - dir then
          RotateDirRootInverse(p, dir);
          var g' := SetChild(g, dir, RotateDirRoot(p, dir).value).value;
          Fix(Turn(g', dir), Balanced, 2)
        else
          Fix(Turn(g, dir), Balanced, 1)
      else
        Fix(Recolor(g, dir), RedNode, 0)
  }

  /** Cases 5/6 after the optional inner rotation: `g` is rotated so that
      its child `p = g[dir]` is lifted, `p` turns Black and `g`, now
      `p[1 - dir]`, turns Red. */
  function Turn(g: Tree<Color>, dir: int): (r: Tree<Color>)
    requires g.Node? && (dir == 0 || dir == 1) && Child(g, dir).value.Node?
    ensures r.Node? && InOrder(r) == InOrder(g)
  {
    RotateDirRootInverse(g, 1 - dir);
    var top := RotateDirRoot(g, 1 - dir).value;
    var down := Child(top, 1 - dir).value;
    SetChild(Paint(top, Black), 1 - dir, Paint(down, Red)).value
  }

  /** Case 2: parent `g[dir]` and uncle `g[1 - dir]` turn Black and `g`
      turns Red. */
  function Recolor(g: Tree<Color>, dir: int): (r: Tree<Color>)
    requires g.Node? && (dir == 0 || dir == 1)
    requires Child(g, dir).value.Node? && Child(g, 1 - dir).value.Node?
    ensures r.Node? && InOrder(r) == InOrder(g)
  {
    var p := Paint(Child(g, dir).value, Black);
    var u := Paint(Child(g, 1 - dir).value, Black);
    Paint(SetChild(SetChild(g, dir, p).value, 1 - dir, u).value, Red)
  }

  /** `BSTInsert` of a Red node followed by the fix-up loop, up to the
      root. The rebuilt tree reads in order as the plain insert would, and
      at most two rotations happen, all in the iteration that ends the
      loop. */
  function Ins(t: Tree<Color>, k: int): (f: Fix)
    ensures WellFormed(f)
    ensures InOrder(f.tree) == InOrder(BinarySearchTree.Add(t, k, Red))
  {
    match t
    case Empty => Fix(Node(Empty, k, Empty, Red), RedNode, 0)
    case Node(l, x, r, c) =>
      if k < x then
        var f := Ins(l, k);
        Climb(Node(f.tree, x, r, c), 0, f.status, f.rotations)
      else
        var f := Ins(r, k);
        Climb(Node(l, x, f.tree, c), 1, f.status, f.rotations)
  }

  /** `Add` as written: on an empty tree `RBTInsert` makes the new Red node
      the root and returns before the closing `Root.Color = Black`;
      otherwise the root is painted Black after the loop (which also covers
      Case 4, a Red parent at the root). */
  function AddAsWritten(t: Tree<Color>, k: int): (r: Tree<Color>)
    ensures r.Node? && InOrder(r) == InOrder(BinarySearchTree.Add(t, k, Red))
  {
    if t.Empty? then Node(Empty, k, Empty, Red)
    else Paint(Ins(t, k).tree, Black)
  }

  /** The corrected `Add`: the root is painted Black in every case. */
  function Add(t: Tree<Color>, k: int): (r: Tree<Color>)
    ensures r.Node? && r.aug == Black
    ensures InOrder(r) == InOrder(BinarySearchTree.Add(t, k, Red))
  {
    Paint(Ins(t, k).tree, Black)
  }

  // ---------------------------------------------------------------------
  // The Red-Black invariants

  /** Every root-to-sentinel path holds the same number of Black nodes. */
  predicate BlackBalanced(t: Tree<Color>)
  {
    match t
    case Empty => true
    case Node(l, _, r, _) => BlackCount(l) == BlackCount(r) && BlackBalanced(l) && BlackBalanced(r)
  }

  /** What a rebuilt subtree `f` of the original subtree `t` guarantees
      about colours, given that `t` had no Red node with a Red child:
      - `Balanced`: the same holds for `f.tree`, whose root has `t`'s
        colour;
      - `RedNode`: the same holds, the root is Red, and `t` was missing or
        had a Black root;
      - `RedPair(d)`: `t`'s root and `f.tree`'s root are Red, the child `d`
        is Red and the other child is not, and below the root nothing is
        wrong. */
  predicate Settled(t: Tree<Color>, f: Fix)
  {
    && WellFormed(f)
    && match f.status
       case Balanced => NoRedRed(f.tree) && t.Node? && f.tree.aug == t.aug
       case RedNode => NoRedRed(f.tree) && f.tree.aug == Red && (t.Empty? || t.aug == Black)
       case RedPair(d) =>
         && t.Node? && t.aug == Red && f.tree.aug == Red
         && IsRed(Child(f.tree, d).value) && !IsRed(Child(f.tree, 1 - d).value)
         && NoRedRed(f.tree.left) && NoRedRed(f.tree.right)
  }

  /** Black balance and Black count of a node, one level down. */
  lemma BlackNode(l: Tree<Color>, x: int, r: Tree<Color>, c: Color)
    ensures BlackBalanced(Node(l, x, r, c)) <==> BlackCount(l) == BlackCount(r) && BlackBalanced(l) && BlackBalanced(r)
    ensures BlackCount(Node(l, x, r, c)) == BlackCount(l) + (if c == Black then 1 else 0)
  {
  }

  /** A Red node `p` whose child `dir` is not Red but whose other child is
      turns, after the inner rotation of Cases 5/6, into a Red node whose
      child `dir` is Red and whose other child is not; the rotation keeps
      Black counts and balance. */
  lemma InnerRotation(p: Tree<Color>, dir: int)
    requires p.Node? && p.aug == Red && (dir == 0 || dir == 1)
    requires IsRed(Child(p, 1 - dir).value) && !IsRed(Child(p, dir).value)
    requires NoRedRed(p.left) && NoRedRed(p.right)
    ensures var q := RotateDirRoot(p, dir).value;
            && q.aug == Red && IsRed(Child(q, dir).value) && !IsRed(Child(q, 1 - dir).value)
            && NoRedRed(q.left) && NoRedRed(q.right)
            && (BlackBalanced(p) ==> BlackBalanced(q) && BlackCount(q) == BlackCount(p))
  {
    if dir == 0 {
      var a, n := p.left, p.right;
      var m := Node(a, p.key, n.left, Red);
      assert RotateDirRoot(p, 0).value == Node(m, n.key, n.right, Red);
      if BlackBalanced(p) {
        BlackNode(a, p.key, n, Red);
        BlackNode(n.left, n.key, n.right, Red);
        BlackNode(a, p.key, n.left, Red);
        BlackNode(m, n.key, n.right, Red);
      }
    } else {
      var n, a := p.left, p.right;
      var m := Node(n.right, p.key, a, Red);
      assert RotateDirRoot(p, 1).value == Node(n.left, n.key, m, Red);
      if BlackBalanced(p) {
        BlackNode(n, p.key, a, Red);
        BlackNode(n.left, n.key, n.right, Red);
        BlackNode(n.right, p.key, a, Red);
        BlackNode(n.left, n.key, m, Red);
      }
    }
  }

  /** Cases 5/6 proper: under a Black `g` with a non-Red uncle, a Red
      parent with a Red outer child becomes a Black root with two Red
      children and nothing wrong below; Black counts and balance are
      kept. */
  lemma OuterRotation(g: Tree<Color>, dir: int)
    requires g.Node? && g.aug == Black && (dir == 0 || dir == 1)
    requires var p := Child(g, dir).value;
             && p.Node? && p.aug == Red
             && IsRed(Child(p, dir).value) && !IsRed(Child(p, 1 - dir).value)
             && NoRedRed(p.left) && NoRedRed(p.right)
    requires var u := Child(g, 1 - dir).value; !IsRed(u) && NoRedRed(u)
    ensures NoRedRed(Turn(g, dir)) && Turn(g, dir).aug == Black
    ensures BlackBalanced(g) ==> BlackBalanced(Turn(g, dir)) && BlackCount(Turn(g, dir)) == BlackCount(g)
  {
    if dir == 0 {
      var p, u := g.left, g.right;
      var m := Node(p.right, g.key, u, Red);
      assert Turn(g, 0) == Node(p.left, p.key, m, Black);
      if BlackBalanced(g) {
        BlackNode(p, g.key, u, Black);
        BlackNode(p.left, p.key, p.right, Red);
        BlackNode(p.right, g.key, u, Red);
        BlackNode(p.left, p.key, m, Black);
      }
    } else {
      var u, p := g.left, g.right;
      var m := Node(u, g.key, p.left, Red);
      assert Turn(g, 1) == Node(m, p.key, p.right, Black);
      if BlackBalanced(g) {
        BlackNode(u, g.key, p, Black);
        BlackNode(p.left, p.key, p.right, Red);
        BlackNode(u, g.key, p.left, Red);
        BlackNode(m, p.key, p.right, Black);
      }
    }
  }

  /** Case 2: a Black `g` with two Red children becomes a Red node with two
      Black children; Black counts and balance are kept. */
  lemma Recoloring(g: Tree<Color>, dir: int)
    requires g.Node? && g.aug == Black && (dir == 0 || dir == 1)
    requires IsRed(g.left) && IsRed(g.right)
    requires NoRedRed(g.left.left) && NoRedRed(g.left.right) && NoRedRed(g.right.left) && NoRedRed(g.right.right)
    ensures NoRedRed(Recolor(g, dir)) && Recolor(g, dir).aug == Red
    ensures BlackBalanced(g) ==> BlackBalanced(Recolor(g, dir)) && BlackCount(Recolor(g, dir)) == BlackCount(g)
  {
    var l, r := g.left, g.right;
    var l', r' := Paint(l, Black), Paint(r, Black);
    assert Recolor(g, dir) == Node(l', g.key, r', Red);
    if BlackBalanced(g) {
      BlackNode(l, g.key, r, Black);
      BlackNode(l.left, l.key, l.right, Red);
      BlackNode(r.left, r.key, r.right, Red);
      BlackNode(l.left, l.key, l.right, Black);
      BlackNode(r.left, r.key, r.right, Black);
      BlackNode(l', g.key, r', Red);
    }
  }

  /** One iteration of the loop keeps the colour guarantee one level up,
      and keeps subtrees black-balanced with unchanged Black counts. */
  lemma ClimbKeeps(g0: Tree<Color>, dir: int, f: Fix)
    requires g0.Node? && (dir == 0 || dir == 1) && NoRedRed(g0)
    requires Settled(Child(g0, dir).value, f)
    ensures var g := SetChild(g0, dir, f.tree).value;
            Settled(g0, Climb(g, dir, f.status, f.rotations))
    ensures var g := SetChild(g0, dir, f.tree).value;
            var h := Climb(g, dir, f.status, f.rotations).tree;
            BlackBalanced(g0) && BlackBalanced(f.tree) && BlackCount(f.tree) == BlackCount(Child(g0, dir).value)
            ==> BlackBalanced(h) && BlackCount(h) == BlackCount(g0)
  {
    var g := SetChild(g0, dir, f.tree).value;
    if f.status.RedPair? {
      ClimbPair(g0, dir, f);
    } else {
      BlackNode(g0.left, g0.key, g0.right, g0.aug);
      BlackNode(g.left, g.key, g.right, g.aug);
    }
  }

  /** `ClimbKeeps` for a Red pair below `g0`: Cases 5/6 or Case 2. */
  lemma ClimbPair(g0: Tree<Color>, dir: int, f: Fix)
    requires g0.Node? && (dir == 0 || dir == 1) && NoRedRed(g0)
    requires Settled(Child(g0, dir).value, f) && f.status.RedPair?
    ensures var g := SetChild(g0, dir, f.tree).value;
            Settled(g0, Climb(g, dir, f.status, f.rotations))
    ensures var g := SetChild(g0, dir, f.tree).value;
            var h := Climb(g, dir, f.status, f.rotations).tree;
            BlackBalanced(g0) && BlackBalanced(f.tree) && BlackCount(f.tree) == BlackCount(Child(g0, dir).value)
            ==> BlackBalanced(h) && BlackCount(h) == BlackCount(g0)
  {
    var g := SetChild(g0, dir, f.tree).value;
    assert g0.aug == Black;
    if IsRed(Child(g, 1 - dir).value) {
      ClimbRecolor(g0, dir, f);
    } else if f.status.dir == 1 - dir {
      ClimbInner(g0, dir, f);
    } else {
      ClimbOuter(g0, dir, f);
    }
  }

  /** Case 2 below `g0`. */
  lemma ClimbRecolor(g0: Tree<Color>, dir: int, f: Fix)
    requires g0.Node? && (dir == 0 || dir == 1) && NoRedRed(g0)
    requires Settled(Child(g0, dir).value, f) && f.status.RedPair?
    requires g0.aug == Black && IsRed(Child(SetChild(g0, dir, f.tree).value, 1 - dir).value)
    ensures var g := SetChild(g0, dir, f.tree).value;
            Settled(g0, Climb(g, dir, f.status, f.rotations))
    ensures var g := SetChild(g0, dir, f.tree).value;
            var h := Climb(g, dir, f.status, f.rotations).tree;
            BlackBalanced(g0) && BlackBalanced(f.tree) && BlackCount(f.tree) == BlackCount(Child(g0, dir).value)
            ==> BlackBalanced(h) && BlackCount(h) == BlackCount(g0)
  {
    var g := SetChild(g0, dir, f.tree).value;
    BlackNode(g0.left, g0.key, g0.right, g0.aug);
    BlackNode(g.left, g.key, g.right, g.aug);
    Recoloring(g, dir);
  }

  /** Cases 5/6 below `g0` with the Red child on the outside. */
  lemma ClimbOuter(g0: Tree<Color>, dir: int, f: Fix)
    requires g0.Node? && (dir == 0 || dir == 1) && NoRedRed(g0)
    requires Settled(Child(g0, dir).value, f) && f.status.RedPair?
    requires g0.aug == Black && !IsRed(Child(SetChild(g0, dir, f.tree).value, 1 - dir).value)
    requires f.status.dir == dir
    ensures var g := SetChild(g0, dir, f.tree).value;
            Settled(g0, Climb(g, dir, f.status, f.rotations))
    ensures var g := SetChild(g0, dir, f.tree).value;
            var h := Climb(g, dir, f.status, f.rotations).tree;
            BlackBalanced(g0) && BlackBalanced(f.tree) && BlackCount(f.tree) == BlackCount(Child(g0, dir).value)
            ==> BlackBalanced(h) && BlackCount(h) == BlackCount(g0)
  {
    var g := SetChild(g0, dir, f.tree).value;
    BlackNode(g0.left, g0.key, g0.right, g0.aug);
    BlackNode(g.left, g.key, g.right, g.aug);
    OuterRotation(g, dir);
  }

  /** Cases 5/6 below `g0` with the Red child on the inside. */
  lemma ClimbInner(g0: Tree<Color>, dir: int, f: Fix)
    requires g0.Node? && (dir == 0 || dir == 1) && NoRedRed(g0)
    requires Settled(Child(g0, dir).value, f) && f.status.RedPair?
    requires g0.aug == Black && !IsRed(Child(SetChild(g0, dir, f.tree).value, 1 - dir).value)
    requires f.status.dir == 1 - dir
    ensures var g := SetChild(g0, dir, f.tree).value;
            Settled(g0, Climb(g, dir, f.status, f.rotations))
    ensures var g := SetChild(g0, dir, f.tree).value;
            var h := Climb(g, dir, f.status, f.rotations).tree;
            BlackBalanced(g0) && BlackBalanced(f.tree) && BlackCount(f.tree) == BlackCount(Child(g0, dir).value)
            ==> BlackBalanced(h) && BlackCount(h) == BlackCount(g0)
  {
    var g := SetChild(g0, dir, f.tree).value;
    var p := Child(g, dir).value;
    InnerRotation(p, dir);
    var g' := SetChild(g, dir, RotateDirRoot(p, dir).value).value;
    assert Climb(g, dir, f.status, f.rotations) == Fix(Turn(g', dir), Balanced, 2);
    BlackNode(g0.left, g0.key, g0.right, g0.aug);
    BlackNode(g'.left, g'.key, g'.right, g'.aug);
    OuterRotation(g', dir);
  }

  /** The fix-up loop leaves no Red node with a Red child anywhere but,
      possibly, at the root, where the final repaint removes it. */
  lemma {:induction false} InsColors(t: Tree<Color>, k: int)
    requires NoRedRed(t)
    ensures Settled(t, Ins(t, k))
  {
    match t
    case Empty =>
    case Node(l, x, r, c) =>
      if k < x {
        InsColors(l, k);
        ClimbKeeps(t, 0, Ins(l, k));
      } else {
        InsColors(r, k);
        ClimbKeeps(t, 1, Ins(r, k));
      }
  }

  /** The fix-up loop keeps every subtree black-balanced, and the rebuilt
      tree has as many Black nodes on each path as the original. */
  lemma {:induction false} InsBlack(t: Tree<Color>, k: int)
    requires NoRedRed(t) && BlackBalanced(t)
    ensures BlackBalanced(Ins(t, k).tree)
    ensures BlackCount(Ins(t, k).tree) == BlackCount(t)
  {
    match t
    case Empty =>
    case Node(l, x, r, c) =>
      if k < x {
        InsBlack(l, k);
        InsColors(l, k);
        ClimbKeeps(t, 0, Ins(l, k));
      } else {
        InsBlack(r, k);
        InsColors(r, k);
        ClimbKeeps(t, 1, Ins(r, k));
      }
  }

  // ---------------------------------------------------------------------
  // Adding keys

  /** `IsValid`: an empty tree, or a Black root and no Red node with a Red
      child. */
  predicate IsValid(t: Tree<Color>)
  {
    t.Empty? || (t.aug == Black && NoRedRed(t))
  }

  /** The corrected `Add` keeps a valid tree valid, keeps it black-balanced,
      and adds at most one Black node to each path. */
  lemma AddValid(t: Tree<Color>, k: int)
    requires IsValid(t)
    ensures IsValid(Add(t, k))
    ensures BlackBalanced(t) ==> BlackBalanced(Add(t, k))
    ensures BlackBalanced(t) ==> BlackCount(t) <= BlackCount(Add(t, k)) <= BlackCount(t) + 1
  {
    var f := Ins(t, k);
    InsColors(t, k);
    var h := f.tree;
    BlackNode(h.left, h.key, h.right, Black);
    BlackNode(h.left, h.key, h.right, h.aug);
    if BlackBalanced(t) {
      InsBlack(t, k);
    }
  }

  /** On a non-empty tree `Add` as written is the corrected `Add`. */
  lemma AddAsWrittenIsAdd(t: Tree<Color>, k: int)
    requires t.Node?
    ensures AddAsWritten(t, k) == Add(t, k)
  {
  }

  /** `Add` as written keeps a valid tree valid exactly when the tree was
      not empty: the first key becomes a Red root, which `IsValid`
      rejects. */
  lemma AddAsWrittenValidity(t: Tree<Color>, k: int)
    requires IsValid(t)
    ensures IsValid(AddAsWritten(t, k)) <==> t.Node?
  {
    if t.Node? {
      AddValid(t, k);
    }
  }

  /** The Red root left by the first `Add` is painted Black by the second:
      from the second key on, `Add` as written and the corrected `Add`
      build the same tree. */
  lemma AddAsWrittenHeals(k1: int, k2: int)
    ensures AddAsWritten(AddAsWritten(Empty, k1), k2) == Add(Add(Empty, k1), k2)
  {
    var leaf: Tree<Color> := Node(Empty, k2, Empty, Red);
    var black: Tree<Color> := Node(Empty, k1, Empty, Black);
    var red: Tree<Color> := Node(Empty, k1, Empty, Red);
    assert Ins(Empty, k2) == Fix(leaf, RedNode, 0);
    assert Add(Empty, k1) == black;
    assert AddAsWritten(Empty, k1) == red;
    if k2 < k1 {
      assert Ins(black, k2) == Fix(Node(leaf, k1, Empty, Black), Balanced, 0);
      assert Ins(red, k2) == Fix(Node(leaf, k1, Empty, Red), RedPair(0), 0);
    } else {
      assert Ins(black, k2) == Fix(Node(Empty, k1, leaf, Black), Balanced, 0);
      assert Ins(red, k2) == Fix(Node(Empty, k1, leaf, Red), RedPair(1), 0);
    }
  }

  /** The tree's keys gain the new one, the count grows by one, and on a
      tree whose in-order sequence is sorted the key lands where insertion
      sort would put it. */
  lemma AddKeys(t: Tree<Color>, k: int)
    ensures Keys(Add(t, k)) == Keys(t) + multiset{k}
    ensures Count(Add(t, k)) == Count(t) + 1
    ensures Sorted(InOrder(t)) ==> InOrder(Add(t, k)) == InsertSorted(InOrder(t), k)
    ensures Sorted(InOrder(t)) ==> Sorted(InOrder(Add(t, k)))
  {
    var r, b := Add(t, k), BinarySearchTree.Add(t, k, Red);
    InOrderKeys(r);
    InOrderKeys(b);
    BinarySearchTree.AddKeys(t, k, Red);
    CountIsKeyCount(r);
    CountIsKeyCount(t);
    if Sorted(InOrder(t)) {
      BinarySearchTree.AddInOrder(t, k, Red);
      BinarySearchTree.AddSorted(t, k, Red);
    }
  }

  /** `AddRange` with the corrected `Add`: the keys added one after the
      other. */
  function AddAll(t: Tree<Color>, ks: seq<int>): (r: Tree<Color>)
    ensures Keys(r) == Keys(t) + multiset(ks)
    ensures |ks| > 0 ==> r.Node? && r.aug == Black
    decreases |ks|
  {
    if |ks| == 0 then t
    else
      AddKeys(t, ks[0]);
      HeadTailMultiset(ks);
      AddAll(Add(t, ks[0]), ks[1..])
  }

  /** Adding a range keeps a valid, black-balanced tree so, and reads in
      order as the keys inserted one by one into the sorted sequence. */
  lemma {:induction false} AddAllValid(t: Tree<Color>, ks: seq<int>)
    requires IsValid(t) && BlackBalanced(t) && Sorted(InOrder(t))
    ensures IsValid(AddAll(t, ks)) && BlackBalanced(AddAll(t, ks))
    ensures InOrder(AddAll(t, ks)) == InsertAllSorted(InOrder(t), ks)
    decreases |ks|
  {
    if |ks| > 0 {
      AddValid(t, ks[0]);
      AddKeys(t, ks[0]);
      AddAllValid(Add(t, ks[0]), ks[1..]);
    }
  }

  /** `AddRange` as written, calling `Add` as written for each key. */
  function AddAllAsWritten(t: Tree<Color>, ks: seq<int>): (r: Tree<Color>)
    ensures |ks| > 0 ==> r.Node?
    decreases |ks|
  {
    if |ks| == 0 then t
    else AddAllAsWritten(AddAsWritten(t, ks[0]), ks[1..])
  }

  /** `AddRange` as written builds the same tree as with the corrected
      `Add`, except when a single key is added to an empty tree. */
  lemma {:induction false} AddAllAsWrittenAgrees(t: Tree<Color>, ks: seq<int>)
    requires t.Node? || |ks| != 1
    ensures AddAllAsWritten(t, ks) == AddAll(t, ks)
    decreases |ks|
  {
    if |ks| > 0 {
      if t.Node? {
        AddAsWrittenIsAdd(t, ks[0]);
        AddAllAsWrittenAgrees(Add(t, ks[0]), ks[1..]);
      } else {
        var k1, k2, rest := ks[0], ks[1], ks[2..];
        AddAsWrittenHeals(k1, k2);
        assert ks[1..][1..] == rest;
        AddAllAsWrittenAgrees(Add(Add(Empty, k1), k2), rest);
      }
    }
  }

  /** Adding keys in increasing order to a Black root with one Red right
      child (as after adding 10 and 20): the new key makes a Red pair leaning
      right with no uncle, and one left rotation at the root gives a Black
      middle key with two Red children. */
  lemma AscendingThirdRotates(x: int, y: int, z: int)
    requires x <= y <= z
    ensures var t: Tree<Color> := Node(Empty, x, Node(Empty, y, Empty, Red), Black);
            var r: Tree<Color> := Node(Node(Empty, x, Empty, Red), y, Node(Empty, z, Empty, Red), Black);
            Ins(t, z) == Fix(r, Balanced, 1) && Add(t, z) == r
  {
    var leaf: Tree<Color> := Node(Empty, z, Empty, Red);
    var pair: Tree<Color> := Node(Empty, y, leaf, Red);
    var g: Tree<Color> := Node(Empty, x, pair, Black);
    assert Ins(Node(Empty, y, Empty, Red), z) == Fix(pair, RedPair(1), 0);
    assert Turn(g, 1) == Node(Node(Empty, x, Empty, Red), y, leaf, Black);
  }

  /** Adding 10, 20 and 30 to an empty tree: the third key rotates the root,
      leaving 20 Black over Red 10 and Red 30. `AddRange` as written builds
      the same tree. */
  lemma AddTenTwentyThirty(ks: seq<int>)
    requires ks == [10, 20, 30]
    ensures var r: Tree<Color> := Node(Node(Empty, 10, Empty, Red), 20, Node(Empty, 30, Empty, Red), Black);
            && AddAll(Empty, ks) == r && AddAllAsWritten(Empty, ks) == r
            && IsValid(r) && BlackBalanced(r)
  {
    AscendingThree(10, 20, 30);
    AddAllAsWrittenAgrees(Empty, ks);
  }

  /** Three keys in increasing order added to an empty tree. */
  lemma AscendingThree(x: int, y: int, z: int)
    requires x <= y <= z
    ensures var r: Tree<Color> := Node(Node(Empty, x, Empty, Red), y, Node(Empty, z, Empty, Red), Black);
            AddAll(Empty, [x, y, z]) == r
  {
    var ks := [x, y, z];
    var one: Tree<Color> := Node(Empty, x, Empty, Black);
    var two: Tree<Color> := Node(Empty, x, Node(Empty, y, Empty, Red), Black);
    AddFirst(x);
    AddSecondAbove(x, y);
    AscendingThirdRotates(x, y, z);
    assert ks[1..] == [y, z];
    AddAllStep(Empty, ks);
    AddAllStep(one, [y, z]);
    AddAllStep(two, [z]);
    assert [y, z][1..] == [z] && [z][1..] == [];
  }

  lemma AddAllStep(t: Tree<Color>, ks: seq<int>)
    requires |ks| > 0
    ensures AddAll(t, ks) == AddAll(Add(t, ks[0]), ks[1..])
  {
  }

  /** The first key of an empty tree becomes a Black root. */
  lemma AddFirst(x: int)
    ensures var one: Tree<Color> := Node(Empty, x, Empty, Black);
            Add(Empty, x) == one
  {
    assert Ins(Empty, x) == Fix(Node(Empty, x, Empty, Red), RedNode, 0);
  }

  /** A second key not below the root becomes its Red right child. */
  lemma AddSecondAbove(x: int, y: int)
    requires x <= y
    ensures var one: Tree<Color> := Node(Empty, x, Empty, Black);
            var two: Tree<Color> := Node(Empty, x, Node(Empty, y, Empty, Red), Black);
            Add(one, y) == two
  {
    var one: Tree<Color> := Node(Empty, x, Empty, Black);
    var two: Tree<Color> := Node(Empty, x, Node(Empty, y, Empty, Red), Black);
    assert Ins(Empty, y) == Fix(Node(Empty, y, Empty, Red), RedNode, 0);
    assert Ins(one, y) == Climb(two, 1, RedNode, 0);
  }

  // ---------------------------------------------------------------------
  // Search by predicate

  /** The keys on the path that keeps turning left from the root: the
      pre-order listing cut at the first node without a left child. */
  function LeftSpine(t: Tree<Color>): (r: seq<int>)
    ensures r <= PreOrder(t)
    ensures t.Node? ==> |r| > 0 && r[0] == t.key
  {
    match t
    case Empty => []
    case Node(l, k, rt, _) =>
      assert PreOrder(t) == ([k] + PreOrder(l)) + PreOrder(rt);
      [k] + LeftSpine(l)
  }

  /** `Find(predicate, node)` of the Red-Black tree as written. For `int`
      keys `T?` is plain `int`, so the test `leftResult != null` always
      holds: a node that fails the predicate returns whatever its left
      subtree gives, `default` (0) when that is null or the sentinel, and
      the right subtree is never searched. */
  function FindAsWritten(p: int -> bool, t: Tree<Color>): (r: int)
    ensures r != 0 ==> p(r) && r in Keys(t)
  {
    match t
    case Empty => 0
    case Node(l, k, _, _) =>
      if p(k) then k else FindAsWritten(p, l)
  }

  /** `Find` as written is the first key satisfying the predicate along the
      left spine, or 0 when there is none. */
  lemma {:induction false} FindAsWrittenIsFirstOnLeftSpine(p: int -> bool, t: Tree<Color>)
    ensures FindAsWritten(p, t) == (match FirstMatch(LeftSpine(t), p) case Some(k) => k case None => 0)
  {
    match t
    case Empty =>
    case Node(l, k, _, _) =>
      FindAsWrittenIsFirstOnLeftSpine(p, l);
      assert ([k] + LeftSpine(l))[1..] == LeftSpine(l);
  }

  /** Root 5 with right child 7: `Find(k => k == 7)` as written returns 0,
      while the search the code intends, `DefaultTree.Find`, finds 7. */
  lemma FindAsWrittenSkipsRight()
    ensures var t: Tree<Color> := Node(Empty, 5, Node(Empty, 7, Empty, Red), Black);
            && FindAsWritten(IsKey(7), t) == 0
            && KeyOf(Find(IsKey(7), t)) == Some(7)
  {
    var t: Tree<Color> := Node(Empty, 5, Node(Empty, 7, Empty, Red), Black);
    assert !IsKey(7)(5) && IsKey(7)(7);
    assert Find(IsKey(7), t.left) == None;
  }
}

=== FILE: seqs.dfy ===
/** Small facts about sequences used by the traversal and rank proofs. */
module Seqs {
  import opened Wrappers

  /** `x` clipped into `[0, n]`. */
  function Clamp(x: int, n: nat): (r: nat)
    ensures r <= n
    ensures 0 <= x <= n ==> r == x
  {
    if x < 0 then 0 else if x > n then n else x
  }

  /** The clipped window `[i, j)` of a sequence. */
  function Window(s: seq<int>, i: int, j: int): seq<int>
    requires i <= j
  {
    s[Clamp(i, |s|)..Clamp(j, |s|)]
  }

  /** A window of a concatenation is the window of the first part followed by
      the shifted window of the second part. */
  lemma WindowConcat(a: seq<int>, b: seq<int>, i: int, j: int)
    requires i <= j
    ensures Window(a + b, i, j) == Window(a, i, j) + Window(b, i - |a|, j - |a|)
  {
    var s := a + b;
    var x, y := Clamp(i, |s|), Clamp(j, |s|);
    var xa, ya := Clamp(i, |a|), Clamp(j, |a|);
    var xb, yb := Clamp(i - |a|, |b|), Clamp(j - |a|, |b|);
    var lhs, rhs := s[x..y], a[xa..ya] + b[xb..yb];
    assert |lhs| == |rhs|;
    forall k | 0 <= k < |lhs|
      ensures lhs[k] == rhs[k]
    {
      if k < ya - xa {
        assert lhs[k] == s[x + k] == a[xa + k];
      } else {
        assert lhs[k] == s[x + k] == b[xb + k - (ya - xa)];
      }
    }
  }

  /** A window that closes before the sequence starts is empty. */
  lemma WindowEmpty(s: seq<int>, i: int, j: int)
    requires i <= j <= 0
    ensures Window(s, i, j) == []
  {
  }

  /** A window that covers the whole sequence. */
  lemma WindowAll(s: seq<int>, i: int, j: int)
    requires i <= 0 && |s| <= j
    ensures Window(s, i, j) == s
  {
  }

  /** A slice that ends at the length is a suffix. */
  lemma SliceToEnd(s: seq<int>, i: int, j: int)
    requires 0 <= i <= j == |s|
    ensures s[i..j] == s[i..]
  {
  }

  /** Non-decreasing order. */
  predicate Sorted(s: seq<int>)
  {
    forall i, j | 0 <= i < j < |s| :: s[i] <= s[j]
  }

  /** Two sorted runs around a pivot that separates them form a sorted
      sequence. */
  lemma SortedJoin(a: seq<int>, k: int, b: seq<int>)
    requires Sorted(a) && Sorted(b)
    requires forall i | 0 <= i < |a| :: a[i] <= k
    requires forall i | 0 <= i < |b| :: k <= b[i]
    ensures Sorted(a + [k] + b)
  {
    var s := a + [k] + b;
    forall i, j | 0 <= i < j < |s| ensures s[i] <= s[j] {
      if j < |a| {
        assert s[i] == a[i] && s[j] == a[j];
      } else if i > |a| {
        assert s[i] == b[i - |a| - 1] && s[j] == b[j - |a| - 1];
      } else {
        assert s[i] <= k <= s[j];
      }
    }
  }

  /** Insertion sort's insertion step: `k` goes before the first element
      greater than it. */
  function InsertSorted(s: seq<int>, k: int): (r: seq<int>)
    ensures |r| == |s| + 1
  {
    if |s| == 0 then [k]
    else if k < s[0] then [k] + s
    else [s[0]] + InsertSorted(s[1..], k)
  }

  /** Concatenation regrouped. */
  lemma ConcatAssoc(a: seq<int>, b: seq<int>, c: seq<int>)
    ensures a + b + c == a + (b + c)
  {
  }

  /** A non-empty sequence's elements: its head and those of its tail. */
  lemma HeadTailMultiset(s: seq<int>)
    requires |s| > 0
    ensures multiset(s) == multiset{s[0]} + multiset(s[1..])
  {
    assert s == [s[0]] + s[1..];
  }

  /** The regrouping a single rotation performs on an in-order sequence. */
  lemma RotateRegroup(a: seq<int>, x: int, b: seq<int>, z: int, c: seq<int>)
    ensures (a + [x] + b) + [z] + c == a + [x] + (b + [z] + c)
  {
  }

  /** Inserting the keys one after the other into a sorted sequence. */
  function InsertAllSorted(s: seq<int>, ks: seq<int>): (r: seq<int>)
    ensures |r| == |s| + |ks|
    decreases |ks|
  {
    if |ks| == 0 then s else InsertAllSorted(InsertSorted(s, ks[0]), ks[1..])
  }

  /** Inserting adds exactly one occurrence of the key. */
  lemma {:induction false} InsertSortedElements(s: seq<int>, k: int)
    ensures multiset(InsertSorted(s, k)) == multiset(s) + multiset{k}
  {
    if |s| > 0 && k >= s[0] {
      InsertSortedElements(s[1..], k);
      assert s == [s[0]] + s[1..];
    }
  }

  /** Inserting into a sorted sequence keeps it sorted. */
  lemma {:induction false} InsertSortedSorted(s: seq<int>, k: int)
    requires Sorted(s)
    ensures Sorted(InsertSorted(s, k))
  {
    if |s| > 0 && k >= s[0] {
      var s' := s[1..];
      assert Sorted(s');
      InsertSortedSorted(s', k);
      var r' := InsertSorted(s', k);
      assert forall i | 0 <= i < |r'| :: s[0] <= r'[i] by {
        InsertSortedElements(s', k);
        forall i | 0 <= i < |r'| ensures s[0] <= r'[i] {
          assert r'[i] in multiset(r');
          assert r'[i] == k || r'[i] in multiset(s');
        }
      }
      SortedCons(s[0], r');
    }
  }

  /** A sorted sequence stays sorted under a new first element that is not
      greater than any of its elements. */
  lemma SortedCons(x: int, s: seq<int>)
    requires Sorted(s) && forall i | 0 <= i < |s| :: x <= s[i]
    ensures Sorted([x] + s)
  {
    var r := [x] + s;
    forall i, j | 0 <= i < j < |r| ensures r[i] <= r[j] {
      assert r[j] == s[j - 1];
      if i > 0 { assert r[i] == s[i - 1]; }
    }
  }

  /** When the second part starts above `k`, the key lands in the first. */
  lemma {:induction false} InsertSortedBefore(a: seq<int>, b: seq<int>, k: int)
    requires |b| > 0 && k < b[0]
    ensures InsertSorted(a + b, k) == InsertSorted(a, k) + b
  {
    if |a| > 0 {
      if k >= a[0] {
        assert (a + b)[1..] == a[1..] + b;
        InsertSortedBefore(a[1..], b, k);
      }
    } else {
      assert a + b == b;
    }
  }

  /** When the first part holds no element above `k`, the key lands in the
      second. */
  lemma {:induction false} InsertSortedAfter(a: seq<int>, b: seq<int>, k: int)
    requires forall i | 0 <= i < |a| :: a[i] <= k
    ensures InsertSorted(a + b, k) == a + InsertSorted(b, k)
  {
    if |a| > 0 {
      var a' := a[1..];
      assert (a + b)[1..] == a' + b;
      assert InsertSorted(a + b, k) == [a[0]] + InsertSorted(a' + b, k) by {
        assert (a + b)[0] == a[0] <= k;
      }
      assert forall i | 0 <= i < |a'| :: a'[i] <= k by {
        forall i | 0 <= i < |a'| ensures a'[i] <= k {
          assert a'[i] == a[i + 1];
        }
      }
      InsertSortedAfter(a', b, k);
      assert a == [a[0]] + a';
    } else {
      assert a + b == b;
    }
  }

  /** The parts of a sorted sequence around one of its elements are sorted
      and lie on the right sides of it. */
  lemma SortedParts(a: seq<int>, x: int, b: seq<int>)
    requires Sorted(a + [x] + b)
    ensures Sorted(a) && Sorted(b)
    ensures forall i | 0 <= i < |a| :: a[i] <= x
    ensures forall i | 0 <= i < |b| :: x <= b[i]
  {
    var s := a + [x] + b;
    assert s[|a|] == x;
    forall i, j | 0 <= i < j < |a| ensures a[i] <= a[j] {
      assert s[i] == a[i] && s[j] == a[j];
    }
    forall i, j | 0 <= i < j < |b| ensures b[i] <= b[j] {
      assert s[|a| + 1 + i] == b[i] && s[|a| + 1 + j] == b[j];
    }
    forall i | 0 <= i < |a| ensures a[i] <= x {
      assert s[i] == a[i];
    }
    forall i | 0 <= i < |b| ensures x <= b[i] {
      assert s[|a| + 1 + i] == b[i];
    }
  }

  /** Dropping one element keeps a sequence sorted. */
  lemma SortedDrop(a: seq<int>, x: int, b: seq<int>)
    requires Sorted(a + [x] + b)
    ensures Sorted(a + b)
  {
    var s, t := a + [x] + b, a + b;
    forall i, j | 0 <= i < j < |t| ensures t[i] <= t[j] {
      var i' := if i < |a| then i else i + 1;
      var j' := if j < |a| then j else j + 1;
      assert t[i] == s[i'] && t[j] == s[j'];
    }
  }

  /** The first element satisfying `p`, if any. */
  function FirstMatch(s: seq<int>, p: int -> bool): (r: Option<int>)
  {
    if |s| == 0 then None
    else if p(s[0]) then Some(s[0])
    else FirstMatch(s[1..], p)
  }

  /** `FirstMatch` finds nothing exactly when no element satisfies `p`, and
      otherwise an element satisfying `p` with none before it. */
  lemma {:induction false} FirstMatchSpec(s: seq<int>, p: int -> bool)
    ensures FirstMatch(s, p).None? <==> forall i | 0 <= i < |s| :: !p(s[i])
    ensures FirstMatch(s, p).Some? ==>
              exists i | 0 <= i < |s| :: s[i] == FirstMatch(s, p).value && p(s[i]) && forall j | 0 <= j < i :: !p(s[j])
  {
    if |s| > 0 && !p(s[0]) {
      FirstMatchSpec(s[1..], p);
      assert forall i | 1 <= i < |s| :: s[i] == s[1..][i - 1];
      if FirstMatch(s, p).Some? {
        var i :| 0 <= i < |s[1..]| && s[1..][i] == FirstMatch(s, p).value && p(s[1..][i])
                 && forall j | 0 <= j < i :: !p(s[1..][j]);
        assert s[i + 1] == s[1..][i];
        assert forall j | 0 <= j < i + 1 :: !p(s[j]) by {
          forall j | 0 <= j < i + 1 ensures !p(s[j]) {
            if j > 0 { assert s[j] == s[1..][j - 1]; }
          }
        }
      }
    }
  }

  /** The last element satisfying `p`, if any. */
  function LastMatch(s: seq<int>, p: int -> bool): (r: Option<int>)
  {
    if |s| == 0 then None
    else if p(s[|s| - 1]) then Some(s[|s| - 1])
    else LastMatch(s[..|s| - 1], p)
  }

  /** `LastMatch` finds nothing exactly when no element satisfies `p`, and
      otherwise an element satisfying `p` with none after it. */
  lemma {:induction false} LastMatchSpec(s: seq<int>, p: int -> bool)
    ensures LastMatch(s, p).None? <==> forall i | 0 <= i < |s| :: !p(s[i])
    ensures LastMatch(s, p).Some? ==>
              exists i | 0 <= i < |s| :: s[i] == LastMatch(s, p).value && p(s[i]) && forall j | i < j < |s| :: !p(s[j])
  {
    if |s| > 0 && !p(s[|s| - 1]) {
      var s' := s[..|s| - 1];
      LastMatchSpec(s', p);
      assert forall i | 0 <= i < |s| - 1 :: s[i] == s'[i];
      if LastMatch(s, p).Some? {
        var i :| 0 <= i < |s'| && s'[i] == LastMatch(s, p).value && p(s'[i])
                 && forall j | i < j < |s'| :: !p(s'[j]);
        assert s[i] == s'[i];
        assert forall j | i < j < |s| :: !p(s[j]) by {
          forall j | i < j < |s| ensures !p(s[j]) {
            if j < |s| - 1 { assert s[j] == s'[j]; }
          }
        }
      }
    }
  }

  lemma {:induction false} FirstMatchConcat(a: seq<int>, b: seq<int>, p: int -> bool)
    ensures FirstMatch(a + b, p) == if FirstMatch(a, p).Some? then FirstMatch(a, p) else FirstMatch(b, p)
  {
    if |a| > 0 {
      assert (a + b)[1..] == a[1..] + b;
      FirstMatchConcat(a[1..], b, p);
    } else {
      assert a + b == b;
    }
  }

  lemma {:induction false} LastMatchConcat(a: seq<int>, b: seq<int>, p: int -> bool)
    ensures LastMatch(a + b, p) == if LastMatch(b, p).Some? then LastMatch(b, p) else LastMatch(a, p)
  {
    if |b| > 0 {
      assert (a + b)[..|a + b| - 1] == a + b[..|b| - 1];
      LastMatchConcat(a, b[..|b| - 1], p);
    } else {
      assert a + b == a;
    }
  }
}

=== FILE: tree_helper.dfy ===
/** Structural helpers and the per-variant validators
    (SharpStructures/Trees/Utilities/TreeHelper.cs, with the Red-Black
    copies in RedBlackTree.cs that skip the sentinel).

    Keys are ints and the comparator is the natural order, so
    `Compare(a, b) < 0` is `a < b` and `Compare(a, b) == 0` is `a == b`.
 */
module TreeHelper {
  import opened Wrappers
  import opened Nodes

  /** The multiset of keys stored in a tree. */
  function Keys<A>(t: Tree<A>): multiset<int>
  {
    match t
    case Empty => multiset{}
    case Node(l, k, r, _) => Keys(l) + multiset{k} + Keys(r)
  }

  /** Every key stored in `t` is smaller than `k`. */
  predicate AllBelow<A>(t: Tree<A>, k: int)
  {
    match t
    case Empty => true
    case Node(l, x, r, _) => x < k && AllBelow(l, k) && AllBelow(r, k)
  }

  /** Every key stored in `t` is at least `k`. */
  predicate AllAtLeast<A>(t: Tree<A>, k: int)
  {
    match t
    case Empty => true
    case Node(l, x, r, _) => x >= k && AllAtLeast(l, k) && AllAtLeast(r, k)
  }

  /** The order invariant every variant keeps: keys in the left subtree are
      strictly smaller than the node's key, keys in the right subtree are
      greater or equal (duplicates go right). */
  predicate Ordered<A>(t: Tree<A>)
  {
    match t
    case Empty => true
    case Node(l, k, r, _) => AllBelow(l, k) && AllAtLeast(r, k) && Ordered(l) && Ordered(r)
  }

  /** A key stored under an upper bound lies below it. */
  lemma {:induction false} BelowKey<A>(t: Tree<A>, k: int, y: int)
    requires AllBelow(t, k) && y in Keys(t)
    ensures y < k
  {
    match t
    case Node(l, x, r, _) =>
      if y in Keys(l) {
        BelowKey(l, k, y);
      } else if y in Keys(r) {
        BelowKey(r, k, y);
      }
  }

  /** A key stored above a lower bound lies at or above it. */
  lemma {:induction false} AtLeastKey<A>(t: Tree<A>, k: int, y: int)
    requires AllAtLeast(t, k) && y in Keys(t)
    ensures y >= k
  {
    match t
    case Node(l, x, r, _) =>
      if y in Keys(l) {
        AtLeastKey(l, k, y);
      } else if y in Keys(r) {
        AtLeastKey(r, k, y);
      }
  }

  /** A smaller upper bound implies a larger one. */
  lemma {:induction false} AllBelowMono<A>(t: Tree<A>, a: int, b: int)
    requires AllBelow(t, a) && a <= b
    ensures AllBelow(t, b)
  {
    match t
    case Empty =>
    case Node(l, _, r, _) =>
      AllBelowMono(l, a, b);
      AllBelowMono(r, a, b);
  }

  /** A larger lower bound implies a smaller one. */
  lemma {:induction false} AllAtLeastMono<A>(t: Tree<A>, a: int, b: int)
    requires AllAtLeast(t, a) && b <= a
    ensures AllAtLeast(t, b)
  {
    match t
    case Empty =>
    case Node(l, _, r, _) =>
      AllAtLeastMono(l, a, b);
      AllAtLeastMono(r, a, b);
  }

  /** `SearchRec`: go left when the value is smaller, right when it is
      greater, and return the first node on the path whose key equals it. */
  function Search<A>(t: Tree<A>, k: int): (r: Option<Tree<A>>)
    ensures r.Some? ==> r.value.Node? && r.value.key == k
    ensures r.Some? ==> k in Keys(t)
  {
    match t
    case Empty => None
    case Node(l, x, rt, _) =>
      if k == x then Some(t)
      else if k < x then Search(l, k)
      else Search(rt, k)
  }

  /** On an ordered tree the search finds a node exactly when some key equals
      the value. */
  lemma {:induction false} SearchComplete<A>(t: Tree<A>, k: int)
    requires Ordered(t)
    ensures Search(t, k).Some? <==> k in Keys(t)
  {
    match t
    case Empty =>
    case Node(l, x, r, _) =>
      if k < x {
        SearchComplete(l, k);
        if k in Keys(r) { AtLeastKey(r, x, k); }
      } else if k > x {
        SearchComplete(r, k);
        if k in Keys(l) { BelowKey(l, x, k); }
      }
  }

  /** `Contains`: the search finds something. */
  predicate Contains<A>(t: Tree<A>, k: int)
  {
    Search(t, k).Some?
  }

  /** `GetHeightRec`: 0 for the empty tree, else one more than the taller
      child. */
  function Height<A>(t: Tree<A>): (h: nat)
    ensures t.Node? <==> h > 0
  {
    match t
    case Empty => 0
    case Node(l, _, r, _) => 1 + Larger(Height(l), Height(r))
  }

  function Larger(a: int, b: int): int
  {
    if a >= b then a else b
  }

  /** `GetCountRec`: the number of nodes. */
  function Count<A>(t: Tree<A>): (n: nat)
    ensures t.Node? <==> n > 0
  {
    match t
    case Empty => 0
    case Node(l, _, r, _) => 1 + Count(l) + Count(r)
  }

  /** The node count is the number of stored keys, duplicates included. */
  lemma {:induction false} CountIsKeyCount<A>(t: Tree<A>)
    ensures Count(t) == |Keys(t)|
  {
    match t
    case Empty =>
    case Node(l, _, r, _) =>
      CountIsKeyCount(l);
      CountIsKeyCount(r);
  }

  /** `GetLeafCountRec`: the number of nodes with no real child. */
  function LeafCount<A>(t: Tree<A>): (n: nat)
    ensures n <= Count(t)
    ensures t.Node? ==> n >= 1
  {
    match t
    case Empty => 0
    case Node(l, _, r, _) =>
      if IsLeaf(t) then 1 else LeafCount(l) + LeafCount(r)
  }

  /** A tree is never taller than it has nodes, and never holds more nodes
      than a complete tree of its height. */
  lemma {:induction false} HeightBounds<A>(t: Tree<A>)
    ensures Height(t) <= Count(t)
    ensures Count(t) < Pow2(Height(t))
  {
    match t
    case Empty =>
    case Node(l, _, r, _) =>
      HeightBounds(l);
      HeightBounds(r);
      var h := Height(t) - 1;
      assert Height(l) <= h && Height(r) <= h;
      Pow2Monotone(Height(l), h);
      Pow2Monotone(Height(r), h);
      assert Pow2(h + 1) == 2 * Pow2(h);
  }

  function Pow2(n: nat): (p: nat)
    ensures p >= 1
  {
    if n == 0 then 1 else 2 * Pow2(n - 1)
  }

  lemma {:induction false} Pow2Monotone(a: nat, b: nat)
    requires a <= b
    ensures Pow2(a) <= Pow2(b)
  {
    if a < b {
      Pow2Monotone(a, b - 1);
    }
  }

  /** `IsLeaf` holds of a node exactly when it is the only node of its
      subtree. */
  lemma LeafIffSingleNode<A>(t: Tree<A>)
    requires t.Node?
    ensures IsLeaf(t) <==> Count(t) == 1
    ensures IsLeaf(t) <==> LeafCount(t) == 1 && Height(t) == 1
  {
  }

  /** The AVL validator `IsValidRec(AVLNode)`: every stored balance factor is
      -1, 0 or 1. It does not compare them with the real heights. */
  predicate BalanceInRange(t: Tree<int>)
  {
    match t
    case Empty => true
    case Node(l, _, r, bf) => -1 <= bf <= 1 && BalanceInRange(l) && BalanceInRange(r)
  }

  /** The Red-Black validator `IsValidRec(RBTNode)`: no Red node has a Red
      child. It does not look at black heights. */
  predicate NoRedRed(t: Tree<Color>)
  {
    match t
    case Empty => true
    case Node(l, _, r, c) =>
      && (c == Red ==> !IsRed(l) && !IsRed(r))
      && NoRedRed(l) && NoRedRed(r)
  }

  /** A real node coloured Red (the sentinel has type `Null`, never `Red`). */
  predicate IsRed(t: Tree<Color>)
  {
    t.Node? && t.aug == Red
  }

  /** The range check accepts a tree whose stored balance factors do not
      match its heights: a single node claiming to lean right. */
  lemma BalanceInRangeIgnoresHeights()
    ensures var t := Node(Empty, 7, Empty, 1);
            BalanceInRange(t) && t.aug != Height(t.right) - Height(t.left)
  {
  }

  /** The red-adjacency check accepts a tree whose two root-to-sentinel
      paths hold different numbers of Black nodes. */
  lemma NoRedRedIgnoresBlackHeight()
    ensures var t: Tree<Color> := Node(Node(Empty, 1, Empty, Black), 2, Empty, Black);
            NoRedRed(t) && BlackCount(t.left) != BlackCount(t.right)
  {
  }

  /** The number of Black nodes on the leftmost root-to-sentinel path. */
  function BlackCount(t: Tree<Color>): nat
  {
    match t
    case Empty => 0
    case Node(l, _, _, c) => BlackCount(l) + (if c == Black then 1 else 0)
  }
}

=== FILE: wrappers.dfy ===
/** Failure-carrying results for the operations of the tree engine.

    The C# code reports its errors by throwing; each exception it can throw
    from the modelled operations is one constructor of `Error`, and every
    operation that can throw returns a `Result`.
 */
module Wrappers {

  /** The conventional Some/None datatype, used where the C# code returns a
      nullable node or value. */
  datatype Option<+T> = None | Some(value: T)

  /** The .NET exceptions that the modelled operations throw. */
  datatype Error =
    | ArgumentOutOfRange    // negative index or count
    | IndexOutOfRange       // index at or beyond the end, or a child index other than 0/1
    | InvalidOperation      // rotation around a missing child, or First() of an empty sequence
    | NullReference         // dereference of an absent child

  /** Either the value an operation returns or the exception it throws. */
  datatype Result<+R> = Ok(value: R) | Err(error: Error)
  {
    predicate IsFailure()
    {
      Err?
    }

    function PropagateFailure<U>(): Result<U>
      requires Err?
    {
      Err(error)
    }

    function Extract(): R
      requires Ok?
    {
      value
    }
  }
}
